=== FILE: README.md ===
# monkamoo core, modelled in Dafny

monkamoo is a small text-based MOO: players connected to one shared world type commands such as
`look`, `take the ball.`, `give ball to jim` or `dig north`. The world is a registry of
objects (rooms, players, bots and things). Each object has a `location` and a `contents`
dictionary, and rooms carry `exits` to other rooms. This project models the engine's core:

- the command parser (`line_parser.py`): prepositions and their synonyms, `args_str`,
  `indirect_args`, `Parser.parse`, and `Command.resolve`, which binds phrases to objects;
- the object graph (`core/base.py`): `add`, `remove`, `move`, the `room` and `player`
  properties, the `find_*` lookups and `get_function`;
- the verbs of rooms, players and objects (`core/room.py`, `core/player.py`,
  `core/object.py`);
- the world (`core/world.py`): the root room, `add`, `add_player`, the shortcut characters,
  `parse_command`, `handle_command`, `find_function`, and `save` / `load` as a list of
  records;
- `join_strings` (`utils.py`);
- the `world` attribute that `World.add` sets, as written: the root room of a fresh world is
  filed without it, and the operations that use it raise there (module `Linking`).

The world is an immutable value. `World(order, entities)` keeps the registry in insertion order,
because dictionary order decides every first-match lookup and the order in which announcements
are sent. A verb returns a `Step`: the new world, every line told to a player in the order the
lines were told, and the Python exception it raised, if any. Raised exceptions are values
(`Fault`). A verb that raises after it has already changed the world keeps those changes in
its `Step`. Where the source appears to differ from its evident intent (see "## Findings"), the verbs and
the command pipeline use the corrected definition, and the as-written one is a separate member.
`WF` is the well-formedness invariant that every verb preserves:

- the registry lists each id once;
- `location` and `contents` agree;
- exits lead to registered entities;
- players and things have names and rooms have no location;
- the root room `"0"` exists.

## Model

| member | source | states |
|---|---|---|
| Text.Lower | src/moo/line_parser.py:105 | same length; no upper-case letter remains; every other character is kept |
| Text.LowerIdempotent | src/moo/line_parser.py:105-117 | lower-casing twice is lower-casing once, so the case-insensitive comparisons are equivalences |
| Text.Strip | src/moo/line_parser.py:148 | the result is a middle part of the input, every removed character comes from the strip set, and a non-empty result neither starts nor ends with one |
| Text.StripUnique | src/moo/line_parser.py:148 | any middle part that is surrounded only by strip characters and does not start or end with one is the result of `strip` |
| Text.StripIdempotent | src/moo/line_parser.py:148 | stripping twice removes nothing more |
| Text.IndexOf | src/moo/core/player.py:73 | the first position of the character, or -1 exactly when it is absent |
| Text.Split | src/moo/line_parser.py:67 | at least one piece, and no piece holds the separator |
| Text.JoinSplit | src/moo/line_parser.py:67-70 | joining the pieces of a split with the separator gives the text back |
| Text.SplitJoin | src/moo/core/room.py:75 | splitting a join of separator-free pieces gives the pieces back |
| Text.FindFrom | src/moo/line_parser.py:78 | -1, or an occurrence at or after the start, with no occurrence before it |
| Text.Find | src/moo/line_parser.py:78 | `str.find`: the least occurrence index, or -1 when there is none |
| Utils.JoinStrings | src/moo/utils.py:1-8 | one item is itself; two items are exactly "a conj b"; for more the result starts with the first item and ends with " conj last" |
| Utils.JoinStringsIsSerial | src/moo/utils.py:8 | for three or more items the result equals an independent serial-comma listing "a, b, conj c" written item by item |
| Entities.OneParent | src/moo/core/base.py:53-63 | in a well-formed world no entity is listed in two containers |
| Entities.Put | src/moo/core/world.py:78-82 | the entity is filed under its id, and the order grows only for a new id |
| Entities.Append | src/moo/core/base.py:46 | assigning a dictionary key: the members are the old ones plus the key, with no duplicates and no change when it was present |
| Entities.Without | src/moo/core/base.py:51 | deleting a dictionary key: exactly that member goes |
| Entities.Enclosing | src/moo/core/base.py:74-90 | the walk up `location`: a result is the first entity of the wanted class, None means a class-less top was reached, and RecursionError means the walk passed more steps than the registry holds |
| Entities.RoomOf | src/moo/core/base.py:74-81 | `obj.room`: a room is its own room; a non-room without a location has none; otherwise the walk up the locations decides (Entities.Enclosing), and only RecursionError or AttributeError can be raised |
| Entities.PlayerOf | src/moo/core/base.py:83-90 | `obj.player`: a player is its own player; a non-player without a location has none; a player that is found is a registered player |
| Entities.RoomOfFound | src/moo/core/base.py:74-81 | a room found by `obj.room` is a registered room |
| Entities.Filter | src/moo/core/base.py:92-105 | `rooms` / `players` / `things`: exactly the members of the selected class, in order |
| Entities.PlayersThingsPartition | src/moo/core/base.py:97-105 | `players` and `things` split the contents: each entry goes to exactly one side and the sizes add up |
| Entities.FirstNamed | src/moo/core/base.py:113-128 | the first selected entity whose name matches ignoring case; None when no selected entity matches; AttributeError exactly when an unnamed entity is compared before any match |
| Entities.NamedScanSucceeds | src/moo/core/base.py:118-128 | in a well-formed world a scan over named entities never raises |
| Entities.FindPlayer | src/moo/core/base.py:118-122 | a player found is in the scope and answers to the name ignoring case; None means no player in the scope answers; a raise is AttributeError and there is an unnamed player in the scope |
| Entities.FindThing | src/moo/core/base.py:124-128 | the same for non-players: a thing found is a non-player of the scope answering to the name; None means none answers; a raise is AttributeError and comes from an unnamed non-player |
| Entities.FindRoom | src/moo/core/base.py:107-116 | `@name` gives the location of that player when the player exists; otherwise the first named room whose name matches, unnamed rooms being skipped |
| Containment.Set | src/moo/core/player.py:64 | one entry replaced, nothing else changed |
| Containment.Attach | src/moo/core/base.py:42-46 | the entity is filed and listed in the container's contents; every other entry is unchanged |
| Containment.Detach | src/moo/core/base.py:48-51 | the id is deleted from one container's contents; nothing else changes |
| Containment.AddTo | src/moo/core/base.py:42-46 | ValueError exactly for a value without an id; otherwise registered and listed in the container, other entries unchanged |
| Containment.RemoveFrom | src/moo/core/base.py:48-51 | ValueError without an id, KeyError when the id is not listed, otherwise exactly that member is removed |
| Containment.Move | src/moo/core/base.py:53-63 | refused: nothing changes. Accepted: the mover has the target as location, is listed in the target and in no other container, all other fields are unchanged, and the tells are the exit hook's followed by the enter hook's |
| Containment.MoveFresh | src/moo/core/base.py:53-63 | a new, empty entity moved into a container that is not a room is accepted, filed with that location, listed there, and no hook tells anything |
| Containment.MovePreservesWF | src/moo/core/base.py:53-63 | moving a named non-room keeps the world well-formed |
| Relocation.Relocate | src/moo/core/base.py:53-66 | for a registered non-room, `move` (which `accept` never refuses) keeps the world well-formed, puts the entity in the target and in no other container, and changes nothing else but contents |
| RoomView.FindExit | src/moo/core/room.py:16-20 | the target of the first exit whose direction matches ignoring case; None when none matches; AttributeError exactly when there is no direction and the room has exits |
| RoomView.Audience | src/moo/core/room.py:22-26 | who hears: the players among the contents, less the actor when it is excluded (other objects' `tell` does nothing) |
| RoomView.TellAll | src/moo/core/room.py:23-26 | one tell of the message per listener, in order |
| RoomView.Announce | src/moo/core/room.py:22-26 | exactly the players in the room hear the message, the actor excepted when excluded |
| RoomView.OnExit | src/moo/core/room.py:34-38 | only a player leaving a room is announced, to every other player there, with "exits {direction}." or "exits the room." |
| RoomView.OnEnter | src/moo/core/room.py:28-32 | only a player entering a room is announced to the others, and the last tell shows the room to the player |
| RoomView.LookLines | src/moo/core/room.py:52-74 | the optional title, the description or "You see nothing here.", then the optional exits, people and things lines, in that order |
| RoomView.PeopleLines | src/moo/core/room.py:62-70 | a line only when other players are present, with "is" for one and "are" for several |
| RoomView.Look | src/moo/core/room.py:52-75 | `look` sends one tell, to the viewer; its text splits back into RoomView.LookLines (RoomView.LookSplitsIntoLines) |
| RoomView.LookSplitsIntoLines | src/moo/core/room.py:75 | the single tell splits back into the description's lines when no line holds a newline |
| Registry.NewWorld | src/moo/core/world.py:25-29 | a fresh world holds only the root room "0" with the opening description |
| Registry.NewWorldWF | src/moo/core/world.py:25-29 | the fresh world is well-formed |
| Registry.Register | src/moo/core/world.py:78-82 | ValueError exactly for a value without an id; otherwise the entity is filed under its id |
| Registry.AddPlayer | src/moo/core/world.py:84-90 | a player without a location is placed in the root room and listed there, with no hook and no tell; KeyError when the root is missing |
| Registry.AddPlayerPreservesWF | src/moo/core/world.py:84-90 | adding a new named player keeps the world well-formed |
| LineParser.KeysDistinct | src/moo/line_parser.py:19-48 | the synonym table lists no synonym twice |
| LineParser.KeyPrep | src/moo/line_parser.py:160 | `keys.get(w)`: the preposition listed for the word, present exactly when the word is a key |
| LineParser.Synonyms | src/moo/line_parser.py:50-52 | `synonyms(p)`: a word is listed exactly when the table has the entry (word, p) |
| LineParser.SynonymsFrom | src/moo/line_parser.py:50-52 | the synonyms listed for the preposition from a table position on |
| LineParser.SynonymsExact | src/moo/line_parser.py:50-52 | a word is a synonym of a preposition exactly when the table maps it there |
| LineParser.OrNone | src/moo/line_parser.py:168-169 | `x or None`: None exactly for the empty string |
| LineParser.ArgsOf | src/moo/line_parser.py:66-73 | `args_str` exists exactly when the line has a space, and it is the text after the first space |
| LineParser.ArgsRejoin | src/moo/line_parser.py:67-70 | joining the words after the first with single spaces gives back exactly the text after the first space |
| LineParser.FindWordFrom | src/moo/line_parser.py:76-84 | the corrected search: the first whole-word occurrence at or after the start, with none before it |
| LineParser.Locate | src/moo/line_parser.py:78 | the first position at which the search finds the synonym, with none before it, or -1: anywhere as a substring for `str.find` as written, as a whole word when corrected |
| LineParser.Remainder | src/moo/line_parser.py:76-82 | for either search, the first synonym in table order that is found decides (no earlier one is found) and the result is the stripped text after it; None exactly when no synonym is found |
| LineParser.IndirectArgs | src/moo/line_parser.py:84 | None without a preposition; otherwise a non-empty text following the first synonym the search finds, no earlier one being found; None with a preposition only when no synonym is found or nothing follows it |
| LineParser.DropArticles | src/moo/line_parser.py:149 | exactly the non-article words, in order; empty exactly when every word is an article |
| LineParser.FirstKey | src/moo/line_parser.py:157-163 | the first preposition word from a position on, with none before it |
| LineParser.ParseWords | src/moo/line_parser.py:150-172 | the first word, lower-cased, is the verb; the first preposition word after it splits the rest into the direct and the indirect phrase, an empty phrase being None; without a preposition the rest is the direct phrase |
| LineParser.Parse | src/moo/line_parser.py:143-172 | None exactly for the empty line or a line made of articles only; otherwise the parse of its words |
| ParserExamples.TakeTheBall | src/moo/line_parser.py:143-172 | "take the ball." parses to verb `take` and direct phrase `ball`, with no preposition |
| ParserExamples.GiveBallToJim | src/moo/line_parser.py:143-172 | "give ball to jim" parses to `give`, `ball`, the preposition `at` and `jim` |
| ParserExamples.NameGlassAsWritten | src/moo/line_parser.py:76-84 | as written, `indirect_args` of "name glass as cup" is "s as cup" |
| ParserExamples.NameGlassCorrected | src/moo/line_parser.py:76-84 | with the whole-word search, `indirect_args` of "name glass as cup" is "cup" |
| Resolver.ResolveObject | src/moo/line_parser.py:102-119 | no phrase gives None; then `me`, `here`, `@player`, `#room`, `$id` in that order; otherwise the first match among the player's contents, then its location's contents; AttributeError for a player without a location |
| Resolver.InventoryFirst | src/moo/line_parser.py:116-118 | when something the player holds answers to a bare name, the object found is one the player holds |
| Resolver.Resolve | src/moo/line_parser.py:121-123 | both phrases are resolved, each as `resolve_object` gives it; a raise comes from one of them, and found objects are registered |
| RoomVerbs.Say | src/moo/core/room.py:40-44 | nothing changes; with a message, exactly the players in the room (the speaker too) are told `name says, "message"` |
| RoomVerbs.Emote | src/moo/core/room.py:46-50 | nothing changes; with a message, exactly the players in the room are told `name message` |
| RoomVerbs.Go | src/moo/core/room.py:77-85 | an unknown direction tells "You can't go that way." and changes nothing; a missing direction in a room with exits raises; a known one moves the player through the exit |
| RoomVerbs.GoArrives | src/moo/core/room.py:77-85 | after going through an exit the player is in the target room, listed there only, and the world is well-formed |
| RoomVerbs.Carve | src/moo/core/room.py:97-99 | digging files one new room with an exit back, adds the exit to the room dug from, and changes no other entry |
| RoomVerbs.Dig | src/moo/core/room.py:87-104 | no direction and an existing direction get their replies; otherwise the room is carved and exactly the players in the room, the digger included, hear of it |
| RoomVerbs.DigPreservesWF | src/moo/core/room.py:87-104 | digging keeps the world well-formed |
| RoomVerbs.RoomLook | src/moo/core/room.py:52-75 | `Room.look` as a handler would get a command where it expects a player and raise AttributeError, changing nothing. It is never dispatched: the typing player comes first on the search path and always answers `look` (Dispatch.HandlerOwner) |
| PlayerVerbs.Jump | src/moo/core/player.py:29-38 | an unknown room is reported and changes nothing; a found one is reached by `move`; with no phrase the lookup raises |
| PlayerVerbs.JumpArrives | src/moo/core/player.py:29-38 | after a successful jump the player is in the room found and the world is well-formed |
| PlayerVerbs.Look | src/moo/core/player.py:40-58 | a phrase naming nothing is reported; nothing or the player's own location shows the room; the player sees their description and then "You have ..." when carrying things; anything else shows its description |
| PlayerVerbs.DoName | src/moo/core/player.py:60-64 | without a found object, `as` and a remainder: "I didn't understand that." and no change; otherwise only the object's name changes |
| PlayerVerbs.DoDescribe | src/moo/core/player.py:66-70 | the same guard; otherwise only the object's description changes |
| PlayerVerbs.DoNameKeepsWF | src/moo/core/player.py:60-64 | renaming keeps the world well-formed (the new name is never empty) |
| PlayerVerbs.DoDescribeKeepsWF | src/moo/core/player.py:66-70 | redescribing keeps the world well-formed |
| PlayerVerbs.Addressee | src/moo/core/player.py:73-77 | `split(" ", 1)`: two parts exactly when there is a space, rejoining to the argument text, the first without a space |
| PlayerVerbs.WhisperAsWritten | src/moo/core/player.py:72-86 | as written, the world never changes (a human addressee raises TypeError) |
| PlayerVerbs.Whisper | src/moo/core/player.py:72-86 | the world never changes; no space gets the prompt; an unknown name or an empty message is dropped; a found player alone is told, the bare message for a bot and the prefixed whisper for a human |
| PlayerVerbs.WhisperDiffersOnlyForHumans | src/moo/core/player.py:80-84 | the as-written and the corrected whisper differ only where the addressee is a human player, where the original raises TypeError |
| PlayerVerbs.WhisperToHumanRaises | src/moo/core/player.py:80-84 | for every found human addressee and non-empty message, the original raises TypeError and the corrected whisper tells that player the prefixed line |
| PlayerVerbs.Find | src/moo/core/player.py:88-98 | nothing changes; a player found somewhere is reported by the room's name, or for an unnamed room by its description or "?"; otherwise "I couldn't find X." |
| PlayerVerbs.ClassNamed | src/moo/core/player.py:110-114 | only `Base` and `Player` build an entity, and never a room; names of other module globals raise; everything else is not found |
| PlayerVerbs.Create | src/moo/core/player.py:100-119 | no name gets "You must give the object a name."; an unknown class gets "I couldn't find C."; a class that builds makes an entity named as asked and moves it into the player |
| PlayerVerbs.CreateMakes | src/moo/core/player.py:116-118 | a successful create files exactly one new entity of the requested class and name, held by the player, and tells only the confirmation |
| PlayerVerbs.CreateKeepsWF | src/moo/core/player.py:100-119 | create keeps the world well-formed |
| PlayerVerbs.Bot | src/moo/core/player.py:121-137 | no name gets the prompt; an unknown name adds a new bot at the caller's location through `add_player`; a known player is moved there |
| PlayerVerbs.BotGathers | src/moo/core/player.py:121-137 | afterwards the named player stands where the caller stands, and the world is well-formed |
| PlayerVerbs.Help | src/moo/core/player.py:139-165 | tells the player the fixed help text and changes nothing |
| ObjectVerbs.Witnessed | src/moo/core/object.py:12-14 | the tells so far are kept; `self.room` raising or giving None raises; otherwise exactly the other players in that room hear the message |
| ObjectVerbs.Take | src/moo/core/object.py:8-14 | the object moves into the player, the player is told "You take X.", and the room is told |
| ObjectVerbs.TakeHolds | src/moo/core/object.py:8-14 | after take the player holds the object, nothing else does, and the world is well-formed |
| ObjectVerbs.Drop | src/moo/core/object.py:16-22 | `player.room` raising or giving None raises before anything moves; otherwise the object moves into that room and the others there are told |
| ObjectVerbs.DropLands | src/moo/core/object.py:16-22 | a dropped object lies directly in the room, the verb ends without an error, and the world is well-formed |
| ObjectVerbs.Give | src/moo/core/object.py:24-36 | without a found object after `to` the player is asked "To whom?"; otherwise the object moves into the recipient and the room is told |
| ObjectVerbs.GiveHands | src/moo/core/object.py:24-36 | after give the recipient holds the object and the world is well-formed |
| Dispatch.Attribute | src/moo/core/base.py:130-135 | `getattr` over the game verbs of the model's verb tables: player verbs only on players, room verbs only on rooms, object verbs only on objects and balls, nothing on a bare `Base` |
| Dispatch.GetFunction | src/moo/core/base.py:130-135 | the attribute named by the verb, else the one named `do_` + verb; None exactly when neither exists |
| Dispatch.GetFunctionExamples | src/moo/core/base.py:130-135 | `name` and `describe` reach `do_name` and `do_describe`; a player's `look` is the player's own |
| Dispatch.PlayerClassesAgree | src/moo/core/base.py:130-135 | in the model's verb tables, players and bots answer the same verbs, and so do objects and balls (a bot's own `sleep` and `wake` are left out) |
| Dispatch.SearchPath | src/moo/core/world.py:115-120 | player, `player.room`, then the found direct and indirect objects; computing the room can raise |
| Dispatch.FirstHandler | src/moo/core/world.py:121-125 | the first entry with a handler, with none before it; reaching a missing room before any handler raises AttributeError |
| Dispatch.FindFunction | src/moo/core/world.py:115-125 | the first handler along the search path |
| Dispatch.HandlerOwner | src/moo/core/world.py:115-125 | a player verb is always found on the typing player, a room verb on a room, an object verb on an object |
| Dispatch.HandleCommand | src/moo/core/world.py:106-113 | no handler: "I didn't understand that."; otherwise the handler runs; the world stays well-formed |
| Dispatch.Invoke | src/moo/core/world.py:113 | `func(command)`: running the handler found keeps the world well-formed, whichever verb it is |
| Dispatch.Shortcut | src/moo/core/world.py:94-97 | a line starting with `"`, `:`, `@` or `#` becomes the verb, a space, and the line stripped of that character and spaces |
| Dispatch.ShortcutOnce | src/moo/core/world.py:94-97 | applying the rewrite twice is applying it once |
| Dispatch.ParseCommand | src/moo/core/world.py:92-104 | an unparsable line gets "I didn't understand that."; a resolve that raises stops there; otherwise the command is handled; the world stays well-formed |
| Snapshot.TagNamed | src/moo/core/world.py:47-51 | a tag names a class exactly when that class's name is the tag |
| Snapshot.ClassNameRoundTrip | src/moo/core/world.py:47-51 | the class name written for a kind is read back as that kind |
| Snapshot.Saved | src/moo/core/base.py:19-26 | the record holds the class, id, name, description and the location id (none when missing or empty), and the exits for a room |
| Snapshot.Save | src/moo/core/world.py:70-76 | one record per registered entity, in registry order |
| Snapshot.FromRecord | src/moo/core/world.py:47-54 | `cls(**record)`: the entity keeps the record's id and has no contents yet; saving it writes the record back, unless its location is the empty id or a non-room record carries exits |
| Snapshot.Absorb | src/moo/core/world.py:45-59 | one record of the first pass: a record with an unknown tag changes nothing; otherwise its entity is filed under its id, replacing an earlier one, and its id is collected under its location id, the other collected lists staying as they were |
| Snapshot.FirstPass | src/moo/core/world.py:45-59 | the loop over the records: an entry of the registry that no loading record replaces is kept as it was, and a document in which no record loads changes nothing |
| Snapshot.SecondPass | src/moo/core/world.py:61-63 | ids that collected children get them as contents; every other entry is unchanged |
| Snapshot.FirstPassKeys | src/moo/core/world.py:45-59 | the first pass files exactly the ids of the records that load |
| Snapshot.FirstPassLatest | src/moo/core/world.py:45-59 | the entity filed under an id is built from the last loading record with that id |
| Snapshot.FirstPassKids | src/moo/core/world.py:55-57 | the children collected under an id are exactly the loading records located there, once each |
| Snapshot.LoadInto | src/moo/core/world.py:34-68 | `load` into an existing registry: the ids are the old ones plus those of the loading records; an old entry no record replaces keeps everything but its contents; a document in which no record loads changes nothing |
| Snapshot.Load | src/moo/core/world.py:34-68 | `load` into a fresh world keeps the root room (Snapshot.LoadShape gives the whole shape) |
| Snapshot.LoadNothing | src/moo/core/world.py:39-41 | a document in which no record loads, an empty file among them, gives the fresh world |
| Snapshot.LoadShape | src/moo/core/world.py:34-68 | loading into a fresh world gives the root room plus one entity per loading id, with contents made of the records located there |
| Snapshot.RoundTrip | src/moo/core/world.py:34-76 | loading any document that lists the saved records of a well-formed world, in any order, gives back the same ids, classes, names, descriptions, locations, exits and contents |
| Snapshot.SaveThenLoad | src/moo/core/world.py:34-76 | loading exactly what `save` wrote gives back the same world |
| Linking.Relinked | src/moo/core/world.py:39-59 | `load` links every record it files through `add`: the ids left unlinked are the old ones that no loading record replaces, and an empty file links nothing |
| Linking.RootAfterLoad | src/moo/core/world.py:25-59 | the root of a fresh world is still unlinked after a load exactly when no loading record has the id "0" |
| Linking.AddPlayerAsWritten | src/moo/core/world.py:84-90 | as written `add_player` is the linked one and does not raise for an unlinked root; it links only the player, so the root stays unlinked |
| Linking.AddToAsWritten | src/moo/core/base.py:42-46 | as written: ValueError without an id, AttributeError exactly for an unlinked container, otherwise the linked `add`, which links the object |
| Linking.StrandedBreaksWF | src/moo/core/base.py:56-61 | a mover that has left its container and taken as location a target that does not list it breaks the agreement of locations and contents |
| Linking.RelocateAsWritten | src/moo/core/base.py:42-63 | as written: into a linked target the linked `move`; into an unlinked one the exit hook tells, the mover leaves its container and takes the target as location, and AttributeError leaves it listed nowhere, so the world is no longer well-formed |
| Linking.GoAsWritten | src/moo/core/room.py:77-85 | as written: a found exit in an unlinked room raises AttributeError and nothing moves; from a linked room the player moves as in Linking.RelocateAsWritten, so an exit into an unlinked room raises AttributeError and strands the player, listed nowhere; without a found exit it is the linked `go` |
| Linking.DropAsWritten | src/moo/core/object.py:16-22 | as written: when the player's room is unlinked, `drop` is Linking.RelocateAsWritten of the object into it, so it raises AttributeError before any tell and leaves the object listed nowhere; otherwise it is ObjectVerbs.Drop |
| Linking.GiveAsWritten | src/moo/core/object.py:24-36 | as written: an unlinked recipient (`give ball to here` in the root) makes `give` Linking.RelocateAsWritten of the object into it, raising AttributeError with the object listed nowhere; otherwise it is ObjectVerbs.Give |
| Linking.JumpAsWritten | src/moo/core/player.py:29-38 | as written: a found room that is unlinked makes `jump` Linking.RelocateAsWritten of the player into it, raising AttributeError with the player listed nowhere; otherwise it is PlayerVerbs.Jump |
| Linking.BotAsWritten | src/moo/core/player.py:121-137 | as written: an existing player brought to a caller who stands in an unlinked room is moved by Linking.RelocateAsWritten, raising AttributeError with that player listed nowhere; a new bot never raises; otherwise it is PlayerVerbs.Bot |
| Linking.DigAsWritten | src/moo/core/room.py:87-104 | as written: in an unlinked room a dig that passes the direction checks raises AttributeError and changes nothing; every other case is the linked `dig` |

## Left out

- I/O: `tell` writes to a stream, so it becomes an entry of the step's log. Logging, the broker,
  the transports and the storage back-ends are not modelled, and neither are timers (`Base.timer`).
- JSON text: `save` and `load` work on lists of records. `json.dumps` with `sort_keys` and the file
  path are left out, and an empty file loads like a document without records. The round trip is stated for any order of the
  records, which covers the reordering of the records that `sort_keys` causes.
- `do_load` and `do_save` call the file-based `load` / `save` and are left out with them.
- AIPlayer internals (`src/moo/core/aiplayer.py`: the sleep and wake verbs, its `tell`, the
  model client, the history) are not part of this model. A bot answers the player verbs, and a
  whisper to a bot is told to it unchanged.
- `src/moo/core/ball.py` is not part of this model. A ball is assumed to answer the object verbs.
- Plumbing attributes that `getattr` could also reach (`tell`, `move`, `add`, `find_room`, ...)
  are not handlers here. Only the game verbs are in the verb tables.
- Lower-casing maps ASCII letters only. Python's full Unicode case mapping is left out.
- A `World` built with given contents (`World(contents=...)`) is not modelled: a world starts as
  the root room, and `load` adds to it.
- Snapshot.TagNamed: the tag `World` and the non-class names among the world module's globals
  are treated as unknown tags and skipped. Building a `World` from a record is not modelled.
- The third pass of `load` (world.py:65-67) turns location ids into objects. Locations are ids
  throughout this model, so that pass is the identity.
- Snapshot.RoundTrip: requires that no entity has the empty id, because `json_dictionary`
  writes a falsy location id as none.
- Utils.JoinStrings: requires a non-empty list. The source raises IndexError on an empty one,
  and no caller passes one.
- Names that are None inside `join_strings` (a TypeError in the source) cannot occur, because
  in a well-formed world every player and thing has a name.
- PlayerVerbs.Whisper: a command without arguments (`args_str` is None) is modelled as an
  AttributeError fault.
- Entities.Enclosing: the walk up `location` is cut off after as many steps as the registry
  holds. That cut-off stands for Python's recursion limit, which it does not reproduce exactly.
- Snapshot.Save: `json.dumps(..., sort_keys=True)` also sorts the directions of each room's
  `exits`, so after a reload through JSON a room's exits come back sorted by direction, which
  changes the order of the "You can go" line and which case variant `find_exit` meets first. The
  records here keep each room's own exit order, and Snapshot.RoundTrip compares exits in that
  order; the sorting of the exits inside a record is not modelled.
- Snapshot.RoundTrip: the exits it gives back are in the saved order, not in the sorted order a
  JSON reload produces (see Snapshot.Save above).
- Registry.NewWorld: the constructor files its root room without `add`, so as written the root's
  `world` is None. Here every entity is linked, the corrected behaviour of the third finding
  below. The as-written link state is in module `Linking` (FreshUnlinked, Relinked).
- Registry.Register: pointing the entity's `world` at the registry is implicit; only `Linking`
  tracks which entities are unlinked.
- Containment.Attach: the container is taken to be linked. As written, `add` into the unlinked
  root raises AttributeError (Linking.AddToAsWritten).
- Containment.AddTo: the same; Linking.AddToAsWritten has the AttributeError case.
- Containment.Move: a move into the unlinked root succeeds here. As written it raises
  AttributeError after the exit hook and the removal (Linking.RelocateAsWritten).
- Relocation.Relocate: the same as Containment.Move.
- RoomVerbs.Go: the room and the exit's target are taken to be linked. Linking.GoAsWritten raises
  in the unlinked root, and strands the player when an exit leads into it.
- RoomVerbs.Dig: the room is taken to be linked; Linking.DigAsWritten raises in the unlinked
  root.
- ObjectVerbs.Drop: the player's room is taken to be linked. As written `drop ball` in the
  unlinked root raises AttributeError after the ball has left the player, and the ball is listed
  nowhere (Linking.DropAsWritten, through Linking.RelocateAsWritten).
- ObjectVerbs.Give: the recipient is taken to be linked. As written `give ball to here` in the
  unlinked root raises the same way (Linking.GiveAsWritten).
- PlayerVerbs.Jump: the room found is taken to be linked. As written `jump @alice` while alice
  stands in the unlinked root raises AttributeError and leaves the player listed nowhere
  (Linking.JumpAsWritten, through Linking.RelocateAsWritten).
- PlayerVerbs.Bot: the caller's location is taken to be linked. As written `bot bob` for an
  existing player bob, typed by a caller standing in the unlinked root, raises AttributeError and
  leaves bob listed nowhere (Linking.BotAsWritten, through Linking.RelocateAsWritten).
- PlayerVerbs.DoName: uses the whole-word search for `indirect_args`, the corrected half of the
  first finding. As written `name glass as cup` renames the glass to "s as cup"
  (ParserExamples.NameGlassAsWritten).
- PlayerVerbs.DoDescribe: the same corrected `indirect_args` as PlayerVerbs.DoName, so as
  written `describe glass as clear` would set the description "s as clear".
- Dispatch.HandleCommand: dispatches the corrected verbs: the whole-word `indirect_args`, the
  corrected whisper and linked entities. As written a whisper to a human player raises TypeError
  (PlayerVerbs.WhisperAsWritten), and a move into or a dig in the unlinked root raises
  AttributeError (module `Linking`: GoAsWritten, DigAsWritten, DropAsWritten, GiveAsWritten,
  JumpAsWritten, BotAsWritten).
- Dispatch.PlayerClassesAgree: holds for the model's verb tables. In the source a bot also answers
  its own `sleep` and `wake` (aiplayer.py), which are left out with the other AIPlayer internals.
- Dispatch.ParseCommand: runs Dispatch.HandleCommand and so the same corrected verbs.

## Findings

| source | as written | input that shows it | evidently intended | confidence | as-written member | corrected member |
|---|---|---|---|---|---|---|
| src/moo/line_parser.py:76-84 | `get_remainder` looks the synonym up with `str.find`, which also matches inside another word | `name glass as cup` gives `indirect_args` = "s as cup", because "as" is found inside "glass" | the text after the preposition word, "cup" | not executed | ParserExamples.NameGlassAsWritten | LineParser.IndirectArgs |
| src/moo/core/player.py:80-84 | a human addressee is told with two arguments, but `Player.tell` takes one, so the call raises TypeError | `whisper bob hi` when bob is a human player | bob is told `alice whispers, "hi"` | not executed | PlayerVerbs.WhisperToHumanRaises | PlayerVerbs.Whisper |
| src/moo/core/world.py:25-29 | the constructor files the root room directly instead of through `add`, so the root's `world` stays None (base.py:9) unless a loaded record "0" replaces it | a world whose file is empty; alice stands in the root room holding a ball and types `drop ball`: the ball leaves alice and takes the root as location, then `self.world.add` (base.py:45) raises AttributeError, and the ball is listed in no container | the root is linked like every entity `add` files, and the ball lies in the room | not executed | Linking.RelocateAsWritten | Relocation.Relocate |

=== FILE: containment.dfy ===
/** Re-parenting: the registry's `add`, a container's `add` / `remove`, and `move`, the one
    operation that changes where an entity is. */
module Containment {
  import opened Wrappers
  import opened Entities
  import opened RoomView

  /** A Python value handed to `add` or `remove`: an entity, or a value without an `id`. */
  datatype Value = Obj(e: Entity) | NoId

  /** The registry with the entity stored under `key` replaced by `e` (an attribute assignment
      on a live object). */
  function Set(w: World, key: Id, e: Entity): (r: World)
    requires key in w.entities
    ensures r.entities == w.entities[key := e] && r.order == w.order
  {
    World(w.order, w.entities[key := e])
  }

  /** The registry after `e` is filed and then listed among `c`'s contents. */
  function Attach(w: World, c: Id, e: Entity): (r: World)
    requires c in w.entities || c == e.id
    ensures r.entities.Keys == w.entities.Keys + {e.id}
    ensures c != e.id ==> r.entities[e.id] == e
    ensures c == e.id ==> r.entities[e.id] == e.(contents := Append(e.contents, e.id))
    ensures c != e.id ==> r.entities[c] == w.entities[c].(contents := Append(w.entities[c].contents, e.id))
    ensures forall z :: z in w.entities && z != c && z != e.id ==> r.entities[z] == w.entities[z]
    ensures e.id in w.entities ==> r.order == w.order
    ensures e.id !in w.entities ==> r.order == w.order + [e.id]
  {
    var w1 := Put(w, e);
    var t := w1.entities[c];
    Set(w1, c, t.(contents := Append(t.contents, e.id)))
  }

  /** The registry after `id` is deleted from `c`'s contents. */
  function Detach(w: World, c: Id, id: Id): (r: World)
    requires c in w.entities
    ensures r.entities.Keys == w.entities.Keys && r.order == w.order
    ensures r.entities[c] == w.entities[c].(contents := Without(w.entities[c].contents, id))
    ensures forall z :: z in w.entities && z != c ==> r.entities[z] == w.entities[z]
  {
    Set(w, c, w.entities[c].(contents := Without(w.entities[c].contents, id)))
  }

  /** `container.add(obj)`: registers the object, then lists it among the container's contents. */
  function AddTo(w: World, container: Id, v: Value): (r: Res<World>)
    requires container in w.entities
    ensures r.Raised? <==> v.NoId?
    ensures r.Raised? ==> r.fault == ValueError
    ensures r.Ok? ==> r.value.entities.Keys == w.entities.Keys + {v.e.id}
    ensures r.Ok? ==> v.e.id in r.value.entities[container].contents
    ensures r.Ok? && container != v.e.id ==>
              r.value.entities[v.e.id] == v.e
              && (forall y :: y in r.value.entities[container].contents <==>
                                y in w.entities[container].contents || y == v.e.id)
    ensures r.Ok? ==> forall z :: z in w.entities && z != container && z != v.e.id ==>
                        r.value.entities[z] == w.entities[z]
  {
    match v
    case NoId => Raised(ValueError)
    case Obj(e) => Ok(Attach(w, container, e))
  }

  /** `container.remove(obj)`: deletes exactly that key from the contents; an object that is not
      there raises KeyError, a value without an id ValueError. */
  function RemoveFrom(w: World, container: Id, v: Value): (r: Res<World>)
    requires container in w.entities
    ensures r == Raised(ValueError) <==> v.NoId?
    ensures r == Raised(KeyError) <==> v.Obj? && v.e.id !in w.entities[container].contents
    ensures r.Ok? ==> r.value.entities.Keys == w.entities.Keys && r.value.order == w.order
    ensures r.Ok? ==> forall y :: y in r.value.entities[container].contents <==>
                        y in w.entities[container].contents && y != v.e.id
    ensures r.Ok? ==> forall z :: z in w.entities && z != container ==> r.value.entities[z] == w.entities[z]
  {
    match v
    case NoId => Raised(ValueError)
    case Obj(e) =>
      if e.id !in w.entities[container].contents then Raised(KeyError)
      else Ok(Detach(w, container, e.id))
  }

  /** `accept`: no container of the engine refuses anything. */
  function Accept(container: Entity, obj: Entity): bool {
    true
  }

  /** The outcome of `move`: its return value, the registry afterwards, and what the hooks told. */
  datatype Moved = Moved(ok: bool, world: World, log: seq<Tell>)

  /** The entity as it is before the move: the registered one, or the mover when it is new. */
  function Before(w: World, m: Entity, z: Id): Entity
    requires z in w.entities || z == m.id
  {
    if z in w.entities then w.entities[z] else m
  }

  /** What the old container's exit hook tells when `m` leaves it; nothing for an entity that
      is nowhere. */
  function ExitTells(w: World, m: Entity, direction: Option<string>): (r: seq<Tell>)
    requires WF(w)
    requires m.id in w.entities ==> w.entities[m.id] == m
    requires m.id !in w.entities ==> m.location.None?
    ensures m.location.None? ==> r == []
    ensures m.location.Some? ==> r == OnExit(w, m.location.value, m, direction)
  {
    if m.location.Some? then
      WFListed(w, m.location.value);
      OnExit(w, m.location.value, m, direction)
    else []
  }

  /** `m.move(target, direction)` with `accepts` standing for `target.accept`. When the target
      accepts, the old container's exit hook runs, `m` leaves it, takes `target` as its location,
      is added to the target (and to the registry), and the target's enter hook runs. */
  function Move(w: World, m: Entity, target: Id, direction: Option<string>,
                accepts: (Entity, Entity) -> bool): (r: Moved)
    requires WF(w) && target in w.entities
    requires m.id in w.entities ==> w.entities[m.id] == m
    requires m.id !in w.entities ==> m.location.None? && m.contents == []
    ensures !accepts(w.entities[target], m) ==> r == Moved(false, w, [])
    ensures accepts(w.entities[target], m) ==> r.ok
    ensures r.ok ==> r.world.entities.Keys == w.entities.Keys + {m.id}
    ensures r.ok ==> r.world.order == if m.id in w.entities then w.order else w.order + [m.id]
    ensures r.ok ==> r.world.entities[m.id] == m.(location := Some(target), contents := r.world.entities[m.id].contents)
    ensures r.ok ==> forall z :: z in r.world.entities && z != m.id ==>
              r.world.entities[z] == w.entities[z].(contents := r.world.entities[z].contents)
    ensures r.ok ==> forall z, y :: z in r.world.entities ==>
              (y in r.world.entities[z].contents <==>
                 (y in Before(w, m, z).contents && y != m.id) || (z == target && y == m.id))
    ensures r.ok ==> forall z :: z in r.world.entities ==> NoDups(r.world.entities[z].contents)
    ensures r.ok ==> Listed(r.world, target)
    ensures r.ok ==> r.log == ExitTells(w, m, direction) + OnEnter(r.world, target, m.id)
  {
    if !accepts(w.entities[target], m) then Moved(false, w, [])
    else
      var exitLog := ExitTells(w, m, direction);
      var w1 := if m.location.Some? then Detach(w, m.location.value, m.id) else w;
      var cur := if m.id in w1.entities then w1.entities[m.id] else m;
      var w2 := Attach(w1, target, cur.(location := Some(target)));
      MoveShape(w, m, target, w1, w2);
      Moved(true, w2, exitLog + OnEnter(w2, target, m.id))
  }

  /** `w1` is `w` with `x` deleted from every container, nothing else changed. */
  ghost predicate Lifted(w: World, w1: World, x: Id) {
    && w1.entities.Keys == w.entities.Keys && w1.order == w.order
    && (forall z :: z in w1.entities ==> w1.entities[z] == w.entities[z].(contents := w1.entities[z].contents))
    && (forall z :: z in w1.entities ==> NoDups(w1.entities[z].contents))
    && (forall z, y :: z in w1.entities ==> (y in w1.entities[z].contents <==> y in w.entities[z].contents && y != x))
  }

  /** Removing the mover from its old container takes it out of every container, because in a
      well-formed registry only its location lists it. */
  lemma DetachLifts(w: World, m: Entity, w1: World)
    requires WF(w)
    requires m.id in w.entities ==> w.entities[m.id] == m
    requires m.id !in w.entities ==> m.location.None?
    requires w1 == if m.location.Some? then Detach(w, m.location.value, m.id) else w
    ensures Lifted(w, w1, m.id)
  {
    forall z, y | z in w.entities && y in w.entities[z].contents && y == m.id
      ensures m.location == Some(z)
    {
      assert w.entities[y].location == Some(z);
    }
  }

  /** `w1` and `w2` are the registries after the mover leaves its old container and after it is
      filed and listed in `target`. */
  ghost predicate MoveSteps(w: World, m: Entity, target: Id, w1: World, w2: World) {
    && WF(w) && target in w.entities
    && (m.id in w.entities ==> w.entities[m.id] == m)
    && (m.id !in w.entities ==> m.location.None? && m.contents == [])
    && w1 == (if m.location.Some? then Detach(w, m.location.value, m.id) else w)
    && w2 == Attach(w1, target, (if m.id in w1.entities then w1.entities[m.id] else m).(location := Some(target)))
  }

  /** The entries a move rewrites: the mover's location, and nothing but contents elsewhere. */
  lemma MoveEntries(w: World, m: Entity, target: Id, w1: World, w2: World)
    requires MoveSteps(w, m, target, w1, w2)
    ensures w2.entities.Keys == w.entities.Keys + {m.id}
    ensures w2.order == if m.id in w.entities then w.order else w.order + [m.id]
    ensures w2.entities[m.id] == m.(location := Some(target), contents := w2.entities[m.id].contents)
    ensures forall z :: z in w2.entities && z != m.id ==>
              w2.entities[z] == w.entities[z].(contents := w2.entities[z].contents)
  {
    DetachLifts(w, m, w1);
  }

  /** Who lists whom after a move: the mover is gone from every old container and is in `target`. */
  lemma MoveMembers(w: World, m: Entity, target: Id, w1: World, w2: World)
    requires MoveSteps(w, m, target, w1, w2)
    ensures forall z, y :: z in w2.entities ==>
              (y in w2.entities[z].contents <==>
                 (y in Before(w, m, z).contents && y != m.id) || (z == target && y == m.id))
    ensures forall z :: z in w2.entities ==> NoDups(w2.entities[z].contents)
  {
    DetachLifts(w, m, w1);
    var cur := if m.id in w1.entities then w1.entities[m.id] else m;
    assert NoDups(cur.contents);
    assert forall y :: y in cur.contents <==> y in Before(w, m, m.id).contents && y != m.id;
  }

  /** What the three registry updates of a move do to every entry. */
  lemma MoveShape(w: World, m: Entity, target: Id, w1: World, w2: World)
    requires WF(w) && target in w.entities
    requires m.id in w.entities ==> w.entities[m.id] == m
    requires m.id !in w.entities ==> m.location.None? && m.contents == []
    requires w1 == if m.location.Some? then Detach(w, m.location.value, m.id) else w
    requires w2 == Attach(w1, target, (if m.id in w1.entities then w1.entities[m.id] else m).(location := Some(target)))
    ensures w2.entities.Keys == w.entities.Keys + {m.id}
    ensures w2.order == if m.id in w.entities then w.order else w.order + [m.id]
    ensures w2.entities[m.id] == m.(location := Some(target), contents := w2.entities[m.id].contents)
    ensures forall z :: z in w2.entities && z != m.id ==>
              w2.entities[z] == w.entities[z].(contents := w2.entities[z].contents)
    ensures forall z, y :: z in w2.entities ==>
              (y in w2.entities[z].contents <==>
                 (y in Before(w, m, z).contents && y != m.id) || (z == target && y == m.id))
    ensures forall z :: z in w2.entities ==> NoDups(w2.entities[z].contents)
    ensures Listed(w2, target)
  {
    assert MoveSteps(w, m, target, w1, w2);
    MoveEntries(w, m, target, w1, w2);
    MoveMembers(w, m, target, w1, w2);
    forall i | 0 <= i < |w2.entities[target].contents|
      ensures w2.entities[target].contents[i] in w2.entities
    {
      var y := w2.entities[target].contents[i];
      assert y in w2.entities[target].contents;
      if y != m.id {
        assert y in w.entities[target].contents;
        assert y in w.entities;
      }
    }
  }

  /** What a successful move leaves behind, relative to the registry `w` before it. */
  ghost predicate MovedShape(w: World, m: Entity, target: Id, w2: World)
    requires m.id in w.entities || m.location.None?
  {
    && w2.entities.Keys == w.entities.Keys + {m.id}
    && w2.order == (if m.id in w.entities then w.order else w.order + [m.id])
    && w2.entities[m.id] == m.(location := Some(target), contents := w2.entities[m.id].contents)
    && (forall z :: z in w2.entities && z != m.id ==>
          w2.entities[z] == w.entities[z].(contents := w2.entities[z].contents))
    && (forall z, y :: z in w2.entities ==>
          (y in w2.entities[z].contents <==>
             (y in Before(w, m, z).contents && y != m.id) || (z == target && y == m.id)))
    && (forall z :: z in w2.entities ==> NoDups(w2.entities[z].contents))
  }

  lemma ShapeRegistry(w: World, m: Entity, target: Id, w2: World)
    requires RegistryOk(w) && (m.id in w.entities || m.location.None?) && MovedShape(w, m, target, w2)
    ensures RegistryOk(w2)
  {
    if m.id !in w.entities {
      assert m.id !in w.order;
      forall i, j | 0 <= i < j < |w2.order|
        ensures w2.order[i] != w2.order[j]
      {
        if j == |w.order| {
          assert w2.order[i] in w.order;
        }
      }
    }
    forall id
      ensures id in w2.entities <==> id in w2.order
    {
      assert id in w2.order <==> id in w.order || id == m.id;
    }
  }

  lemma ShapeContainment(w: World, m: Entity, target: Id, w2: World)
    requires ContainmentOk(w) && target in w.entities
    requires m.id in w.entities ==> w.entities[m.id] == m
    requires m.id !in w.entities ==> m.location.None? && m.contents == []
    requires MovedShape(w, m, target, w2)
    ensures ContainmentOk(w2)
  {
    forall x, y | x in w2.entities && y in w2.entities[x].contents
      ensures y in w2.entities && w2.entities[y].location == Some(x)
    {
      ShapeDown(w, m, target, w2, x, y);
    }
    forall y | y in w2.entities && w2.entities[y].location.Some?
      ensures w2.entities[y].location.value in w2.entities
              && y in w2.entities[w2.entities[y].location.value].contents
    {
      ShapeUp(w, m, target, w2, y);
    }
  }

  lemma ShapeDown(w: World, m: Entity, target: Id, w2: World, x: Id, y: Id)
    requires ContainmentOk(w) && target in w.entities
    requires m.id in w.entities ==> w.entities[m.id] == m
    requires m.id !in w.entities ==> m.location.None? && m.contents == []
    requires MovedShape(w, m, target, w2)
    requires x in w2.entities && y in w2.entities[x].contents
    ensures y in w2.entities && w2.entities[y].location == Some(x)
  {
    if !(x == target && y == m.id) {
      assert y in Before(w, m, x).contents && y != m.id;
      assert x in w.entities;
      assert y in w.entities[x].contents;
      assert w.entities[y].location == Some(x);
      assert w2.entities[y] == w.entities[y].(contents := w2.entities[y].contents);
    }
  }

  lemma ShapeUp(w: World, m: Entity, target: Id, w2: World, y: Id)
    requires ContainmentOk(w) && target in w.entities
    requires m.id in w.entities ==> w.entities[m.id] == m
    requires m.id !in w.entities ==> m.location.None? && m.contents == []
    requires MovedShape(w, m, target, w2)
    requires y in w2.entities && w2.entities[y].location.Some?
    ensures w2.entities[y].location.value in w2.entities
            && y in w2.entities[w2.entities[y].location.value].contents
  {
    if y != m.id {
      assert w2.entities[y] == w.entities[y].(contents := w2.entities[y].contents);
      var l := w.entities[y].location.value;
      assert l in w.entities && y in w.entities[l].contents;
      assert Before(w, m, l) == w.entities[l];
    }
  }

  lemma ShapeExitsKinds(w: World, m: Entity, target: Id, w2: World)
    requires ExitsOk(w) && KindsOk(w) && (m.id in w.entities || m.location.None?) && MovedShape(w, m, target, w2)
    requires !m.kind.IsRoom() && m.name.Some?
    requires forall e :: e in m.exits ==> e.target in w.entities
    ensures ExitsOk(w2) && KindsOk(w2)
  {
    forall x, e | x in w2.entities && e in w2.entities[x].exits
      ensures e.target in w2.entities
    {
      if x != m.id {
        assert e in w.entities[x].exits;
      }
    }
  }

  /** Moving a named non-room keeps the registry well-formed: location and contents still agree,
      so the mover sits in exactly one container, the target. */
  lemma MovePreservesWF(w: World, m: Entity, target: Id, direction: Option<string>,
                        accepts: (Entity, Entity) -> bool)
    requires WF(w) && target in w.entities
    requires m.id in w.entities ==> w.entities[m.id] == m
    requires m.id !in w.entities ==> m.location.None? && m.contents == []
    requires !m.kind.IsRoom() && m.name.Some?
    requires forall e :: e in m.exits ==> e.target in w.entities
    ensures WF(Move(w, m, target, direction, accepts).world)
  {
    var r := Move(w, m, target, direction, accepts);
    if r.ok {
      assert MovedShape(w, m, target, r.world);
      ShapeRegistry(w, m, target, r.world);
      ShapeContainment(w, m, target, r.world);
      ShapeExitsKinds(w, m, target, r.world);
    }
  }

  /** A new, empty entity moved into a container that is not a room is filed there and
      nothing is told. */
  lemma MoveFresh(w: World, o: Entity, target: Id)
    requires WF(w) && target in w.entities && !w.entities[target].kind.IsRoom()
    requires o.id !in w.entities && o.location.None? && o.contents == []
    ensures var m := Move(w, o, target, None, Accept);
            && m.ok
            && m.world.entities.Keys == w.entities.Keys + {o.id}
            && m.world.entities[o.id] == o.(location := Some(target))
            && o.id in m.world.entities[target].contents
            && m.log == []
  {
    var m := Move(w, o, target, None, Accept);
    assert m.world.entities[o.id].contents == [];
    assert m.world.entities[target].kind == w.entities[target].kind;
  }
}

/** Moving an entity that is already registered, as every verb does. */
module Relocation {
  import opened Wrappers
  import opened Entities
  import opened RoomView
  import opened Containment

  /** `x.move(target, direction)` for a registered non-room `x`: nothing refuses, `x` ends up in
      `target` and nowhere else, no entity appears or disappears, nothing but contents and `x`'s
      location changes, and the registry stays well-formed. */
  function Relocate(w: World, x: Id, target: Id, direction: Option<string>): (r: Moved)
    requires WF(w) && x in w.entities && target in w.entities && !w.entities[x].kind.IsRoom()
    ensures r.ok && WF(r.world)
    ensures r.world.entities.Keys == w.entities.Keys && r.world.order == w.order
    ensures r.world.entities[x].location == Some(target)
    ensures x in r.world.entities[target].contents
    ensures forall z :: z in r.world.entities && z != target ==> x !in r.world.entities[z].contents
    ensures r.world.entities[x] == w.entities[x].(location := Some(target), contents := r.world.entities[x].contents)
    ensures forall z :: z in w.entities && z != x ==>
              r.world.entities[z] == w.entities[z].(contents := r.world.entities[z].contents)
    ensures r == Move(w, w.entities[x], target, direction, Accept)
  {
    var m := w.entities[x];
    MovePreservesWF(w, m, target, direction, Accept);
    var r := Move(w, m, target, direction, Accept);
    assert forall z :: z in r.world.entities && z != target ==> x !in r.world.entities[z].contents;
    r
  }
}

=== FILE: dispatch.dfy ===
/** The world's command loop: shortcut rewriting, parsing, resolving, finding the handler along
    the search path, and running it. `getattr` becomes an explicit table per class. */
module Dispatch {
  import opened Wrappers
  import opened Text
  import opened Entities
  import opened LineParser
  import opened Resolver
  import PlayerVerbs
  import RoomVerbs
  import ObjectVerbs

  /** The game verbs, one per handler method. `RoomLook` is `Room.look`, distinct from the
      player's `look`. */
  datatype Verb =
    | Jump | Look | DoName | DoDescribe | Whisper | Find | Create | Bot | Help
    | Say | Emote | RoomLook | Go | Dig
    | Take | Drop | Give
  {
    predicate OfPlayer() {
      this in {Jump, Look, DoName, DoDescribe, Whisper, Find, Create, Bot, Help}
    }
    predicate OfRoom() {
      this in {Say, Emote, RoomLook, Go, Dig}
    }
    predicate OfObject() {
      this in {Take, Drop, Give}
    }
  }

  /** `getattr(obj, name)` restricted to the callable game verbs of each class. */
  function Attribute(k: Kind, name: string): (r: Option<Verb>)
    ensures r.Some? && r.value.OfPlayer() ==> k.IsPlayer()
    ensures r.Some? && r.value.OfRoom() ==> k == RoomKind
    ensures r.Some? && r.value.OfObject() ==> k in {ObjectKind, BallKind}
    ensures k == BaseKind ==> r.None?
  {
    match k
    case PlayerKind => PlayerAttribute(name)
    case AIPlayerKind => PlayerAttribute(name)
    case RoomKind =>
      if name == "say" then Some(Say)
      else if name == "emote" then Some(Emote)
      else if name == "look" then Some(RoomLook)
      else if name == "go" then Some(Go)
      else if name == "dig" then Some(Dig)
      else None
    case ObjectKind => ObjectAttribute(name)
    case BallKind => ObjectAttribute(name)
    case BaseKind => None
  }

  function PlayerAttribute(name: string): (r: Option<Verb>)
    ensures r.Some? ==> r.value.OfPlayer()
  {
    if name == "jump" then Some(Jump)
    else if name == "look" then Some(Look)
    else if name == "do_name" then Some(DoName)
    else if name == "do_describe" then Some(DoDescribe)
    else if name == "whisper" then Some(Whisper)
    else if name == "find" then Some(Find)
    else if name == "create" then Some(Create)
    else if name == "bot" then Some(Bot)
    else if name == "help" then Some(Help)
    else None
  }

  function ObjectAttribute(name: string): (r: Option<Verb>)
    ensures r.Some? ==> r.value.OfObject()
  {
    if name == "take" then Some(Take)
    else if name == "drop" then Some(Drop)
    else if name == "give" then Some(Give)
    else None
  }

  /** `get_function(verb)`: the attribute named `verb`, else the one named `do_verb`. */
  function GetFunction(k: Kind, verb: string): (r: Option<Verb>)
    ensures Attribute(k, verb).Some? ==> r == Attribute(k, verb)
    ensures Attribute(k, verb).None? ==> r == Attribute(k, "do_" + verb)
    ensures r.None? <==> Attribute(k, verb).None? && Attribute(k, "do_" + verb).None?
  {
    match Attribute(k, verb)
    case Some(v) => Some(v)
    case None => Attribute(k, "do_" + verb)
  }

  /** `name` and `describe` reach the `do_` methods; a room's `look` is there but a player's
      comes first; a room has no `do_` methods. */
  lemma GetFunctionExamples()
    ensures GetFunction(PlayerKind, "name") == Some(DoName)
    ensures GetFunction(PlayerKind, "describe") == Some(DoDescribe)
    ensures GetFunction(AIPlayerKind, "do_name") == Some(DoName)
    ensures GetFunction(RoomKind, "look") == Some(RoomLook) && GetFunction(PlayerKind, "look") == Some(Look)
    ensures GetFunction(RoomKind, "name") == None && GetFunction(ObjectKind, "name") == None
  {
    assert "do_" + "name" == "do_name";
    assert "do_" + "describe" == "do_describe";
  }

  /** Player, AIPlayer, Room and Object handlers are different methods: every verb is answered
      by one family of classes only, and the two player classes answer the same verbs. */
  lemma PlayerClassesAgree(verb: string)
    ensures GetFunction(PlayerKind, verb) == GetFunction(AIPlayerKind, verb)
    ensures GetFunction(ObjectKind, verb) == GetFunction(BallKind, verb)
  {
  }

  // ---------------------------------------------------------------------------------------
  // find_function

  /** `[player, player.room]`, then the direct and the indirect object when they were found.
      The room is computed before any lookup, so a location cycle raises here. */
  function SearchPath(w: World, b: Bound): (r: Res<seq<Option<Id>>>)
    requires Ready(w, b)
    ensures RoomOf(w, b.player).Raised? <==> r.Raised?
    ensures r.Raised? ==> r.fault == RoomOf(w, b.player).fault
    ensures r.Ok? ==> |r.value| >= 2 && r.value[0] == Some(b.player) && r.value[1] == RoomOf(w, b.player).value
    ensures r.Ok? ==> r.value[2..] == (if b.direct.Some? then [b.direct] else []) + (if b.indirect.Some? then [b.indirect] else [])
    ensures r.Ok? ==> forall i :: 0 <= i < |r.value| && r.value[i].Some? ==> r.value[i].value in w.entities
  {
    RoomOfFound(w, b.player);
    var room :- RoomOf(w, b.player);
    var path := [Some(b.player), room] + (if b.direct.Some? then [b.direct] else []) + (if b.indirect.Some? then [b.indirect] else []);
    assert path[2..] == (if b.direct.Some? then [b.direct] else []) + (if b.indirect.Some? then [b.indirect] else []);
    Ok(path)
  }

  /** The first entity on `path` with a handler for `verb`. Reaching a missing entry (no room)
      before any handler is found raises, as the call on None does. */
  function FirstHandler(w: World, path: seq<Option<Id>>, verb: string): (r: Res<Option<(Id, Verb)>>)
    requires forall i :: 0 <= i < |path| && path[i].Some? ==> path[i].value in w.entities
    ensures r.Ok? && r.value.Some? ==>
              exists k :: 0 <= k < |path| && path[k] == Some(r.value.value.0)
                && GetFunction(w.entities[r.value.value.0].kind, verb) == Some(r.value.value.1)
                && forall j :: 0 <= j < k ==> path[j].Some? && GetFunction(w.entities[path[j].value].kind, verb).None?
    ensures r.Ok? && r.value.None? ==>
              forall j :: 0 <= j < |path| ==> path[j].Some? && GetFunction(w.entities[path[j].value].kind, verb).None?
    ensures r.Raised? ==> r.fault == AttributeError
    ensures r.Raised? ==>
              exists k :: 0 <= k < |path| && path[k].None?
                && forall j :: 0 <= j < k ==> path[j].Some? && GetFunction(w.entities[path[j].value].kind, verb).None?
  {
    if |path| == 0 then Ok(None)
    else if path[0].None? then Raised(AttributeError)
    else if GetFunction(w.entities[path[0].value].kind, verb).Some? then
      Ok(Some((path[0].value, GetFunction(w.entities[path[0].value].kind, verb).value)))
    else
      var r := FirstHandler(w, path[1..], verb);
      if r.Ok? && r.value.Some? then
        var k :| 0 <= k < |path[1..]| && path[1..][k] == Some(r.value.value.0)
                 && GetFunction(w.entities[r.value.value.0].kind, verb) == Some(r.value.value.1)
                 && forall j :: 0 <= j < k ==> path[1..][j].Some? && GetFunction(w.entities[path[1..][j].value].kind, verb).None?;
        SkipUnhandled(w, path, verb, k);
        r
      else if r.Ok? then
        SkipUnhandled(w, path, verb, |path| - 1);
        r
      else
        var k :| 0 <= k < |path[1..]| && path[1..][k].None?
                 && forall j :: 0 <= j < k ==> path[1..][j].Some? && GetFunction(w.entities[path[1..][j].value].kind, verb).None?;
        SkipUnhandled(w, path, verb, k);
        r
  }

  /** An entry without a handler in front of `path[1..]` shifts every position by one. */
  lemma SkipUnhandled(w: World, path: seq<Option<Id>>, verb: string, k: nat)
    requires forall i :: 0 <= i < |path| && path[i].Some? ==> path[i].value in w.entities
    requires |path| > 0 && path[0].Some? && GetFunction(w.entities[path[0].value].kind, verb).None?
    requires k < |path|
    requires forall j :: 0 <= j < k ==> path[1..][j].Some? && GetFunction(w.entities[path[1..][j].value].kind, verb).None?
    ensures forall j :: 0 <= j < k + 1 ==> path[j].Some? && GetFunction(w.entities[path[j].value].kind, verb).None?
    ensures k + 1 < |path| ==> path[k + 1] == path[1..][k]
  {
    forall j | 0 < j < k + 1
      ensures path[j].Some? && GetFunction(w.entities[path[j].value].kind, verb).None?
    {
      assert path[j] == path[1..][j - 1];
    }
  }

  /** `find_function(command)`: the first handler along the search path. */
  function FindFunction(w: World, b: Bound): (r: Res<Option<(Id, Verb)>>)
    requires Ready(w, b)
    ensures SearchPath(w, b).Raised? ==> r == Raised(SearchPath(w, b).fault)
    ensures SearchPath(w, b).Ok? ==> r == FirstHandler(w, SearchPath(w, b).value, b.cmd.verb)
  {
    var path :- SearchPath(w, b);
    FirstHandler(w, path, b.cmd.verb)
  }

  /** A handler found for a player verb belongs to the player who typed the command: the player
      is searched first and every player class answers the same verbs. Room verbs come from a
      room, object verbs from an object or a ball. */
  lemma HandlerOwner(w: World, b: Bound)
    requires Ready(w, b)
    ensures var r := FindFunction(w, b);
            r.Ok? && r.value.Some? ==>
              var (x, v) := r.value.value;
              && x in w.entities
              && (v.OfPlayer() ==> x == b.player)
              && (v.OfRoom() ==> w.entities[x].kind == RoomKind)
              && (v.OfObject() ==> w.entities[x].kind in {ObjectKind, BallKind})
  {
    var r := FindFunction(w, b);
    if r.Ok? && r.value.Some? {
      var path := SearchPath(w, b).value;
      var (x, v) := r.value.value;
      var k :| 0 <= k < |path| && path[k] == Some(x)
               && GetFunction(w.entities[x].kind, b.cmd.verb) == Some(v)
               && forall j :: 0 <= j < k ==> path[j].Some? && GetFunction(w.entities[path[j].value].kind, b.cmd.verb).None?;
    }
  }

  // ---------------------------------------------------------------------------------------
  // Running a handler

  /** Runs handler `v` of entity `x`. `nid` is the id a creating verb gives its new entity. */
  function Invoke(w: World, b: Bound, x: Id, v: Verb, nid: Id): (r: Step)
    requires Ready(w, b) && HandlerOwnerOk(w, b, x, v) && nid !in w.entities
    ensures WF(r.world)
  {
    match v
    case Jump | Look | DoName | DoDescribe | Whisper | Find | Create | Bot | Help => InvokePlayer(w, b, v, nid)
    case Say | Emote | RoomLook | Go | Dig => InvokeRoom(w, b, x, v, nid)
    case Take | Drop | Give => InvokeObject(w, b, x, v)
  }

  /** A player verb, run on the player who typed it. */
  function InvokePlayer(w: World, b: Bound, v: Verb, nid: Id): (r: Step)
    requires Ready(w, b) && nid !in w.entities && v.OfPlayer()
    ensures WF(r.world)
  {
    match v
    case Jump => PlayerVerbs.JumpArrives(w, b); PlayerVerbs.Jump(w, b)
    case Look => PlayerVerbs.Look(w, b)
    case DoName => PlayerVerbs.DoNameKeepsWF(w, b); PlayerVerbs.DoName(w, b)
    case DoDescribe => PlayerVerbs.DoDescribeKeepsWF(w, b); PlayerVerbs.DoDescribe(w, b)
    case Whisper => PlayerVerbs.Whisper(w, b)
    case Find => PlayerVerbs.Find(w, b)
    case Create => PlayerVerbs.CreateKeepsWF(w, b, nid); PlayerVerbs.Create(w, b, nid)
    case Bot => PlayerVerbs.BotGathers(w, b, nid); PlayerVerbs.Bot(w, b, nid)
    case Help => PlayerVerbs.Help(w, b)
  }

  /** A room verb, run on room `x`. */
  function InvokeRoom(w: World, b: Bound, x: Id, v: Verb, nid: Id): (r: Step)
    requires Ready(w, b) && x in w.entities && nid !in w.entities
    requires v.OfRoom() && w.entities[x].kind == RoomKind
    ensures WF(r.world)
  {
    match v
    case Say => RoomVerbs.Say(w, x, b)
    case Emote => RoomVerbs.Emote(w, x, b)
    case RoomLook => RoomVerbs.RoomLook(w, x, b)
    case Go => RoomVerbs.GoArrives(w, x, b); RoomVerbs.Go(w, x, b)
    case Dig => RoomVerbs.DigPreservesWF(w, x, b, nid); RoomVerbs.Dig(w, x, b, nid)
  }

  /** An object verb, run on the object or ball `x`. */
  function InvokeObject(w: World, b: Bound, x: Id, v: Verb): (r: Step)
    requires Ready(w, b) && x in w.entities
    requires v.OfObject() && !w.entities[x].kind.IsRoom()
    ensures WF(r.world)
  {
    match v
    case Take => ObjectVerbs.TakeHolds(w, x, b); ObjectVerbs.Take(w, x, b)
    case Drop => ObjectVerbs.DropLands(w, x, b); ObjectVerbs.Drop(w, x, b)
    case Give => ObjectVerbs.GiveHands(w, x, b); ObjectVerbs.Give(w, x, b)
  }

  /** `handle_command`: runs the first handler on the search path, or tells the player the
      command was not understood. */
  function HandleCommand(w: World, b: Bound, nid: Id): (r: Step)
    requires Ready(w, b) && nid !in w.entities
    ensures FindFunction(w, b).Raised? ==> r == Step(w, [], Some(FindFunction(w, b).fault))
    ensures FindFunction(w, b) == Ok(None) ==> r == Step(w, [Tell(b.player, "I didn't understand that.")], None)
    ensures FindFunction(w, b).Ok? && FindFunction(w, b).value.Some? ==>
              var (x, v) := FindFunction(w, b).value.value;
              HandlerOwnerOk(w, b, x, v) && r == Invoke(w, b, x, v, nid)
    ensures WF(r.world)
  {
    HandlerOwner(w, b);
    match FindFunction(w, b)
    case Raised(f) => Step(w, [], Some(f))
    case Ok(None) => Step(w, [Tell(b.player, "I didn't understand that.")], None)
    case Ok(Some((x, v))) => Invoke(w, b, x, v, nid)
  }

  /** What `Invoke` needs of the handler's owner. */
  ghost predicate HandlerOwnerOk(w: World, b: Bound, x: Id, v: Verb) {
    && x in w.entities
    && (v.OfPlayer() ==> x == b.player)
    && (v.OfRoom() ==> w.entities[x].kind == RoomKind)
    && (v.OfObject() ==> !w.entities[x].kind.IsRoom())
  }

  // ---------------------------------------------------------------------------------------
  // parse_command

  /** The verb a leading shortcut character stands for, in the table's order. */
  function ShortcutVerb(c: char): Option<string> {
    if c == '"' then Some("say")
    else if c == ':' then Some("emote")
    else if c == '@' then Some("whisper")
    else if c == '#' then Some("jump")
    else None
  }

  /** The rewrite `parse_command` applies: a line starting with a shortcut character becomes the
      shortcut's verb, a space, and the line with that character and spaces stripped from both
      ends. Any other line is unchanged. */
  function Shortcut(line: string): (r: string)
    ensures |line| == 0 || ShortcutVerb(line[0]).None? ==> r == line
    ensures |line| > 0 && ShortcutVerb(line[0]).Some? ==>
              r == ShortcutVerb(line[0]).value + " " + Strip(line, {line[0], ' '})
  {
    if |line| > 0 && ShortcutVerb(line[0]).Some? then
      ShortcutVerb(line[0]).value + " " + Strip(line, {line[0], ' '})
    else line
  }

  /** At most one shortcut applies: a rewritten line starts with a verb, not a shortcut
      character, so rewriting again changes nothing. */
  lemma ShortcutOnce(line: string)
    ensures Shortcut(Shortcut(line)) == Shortcut(line)
  {
    if |line| > 0 && ShortcutVerb(line[0]).Some? {
      var v := ShortcutVerb(line[0]).value;
      var rest := Strip(line, {line[0], ' '});
      assert Shortcut(line) == v + " " + rest;
      assert (v + " " + rest)[0] == v[0];
      assert ShortcutVerb(v[0]).None?;
    }
  }

  /** `parse_command(player, line)`: shortcut, parse, resolve, dispatch. An unparsable line
      is not understood and changes nothing; a failing lookup raises before anything changes. */
  function ParseCommand(w: World, player: Id, line: string, nid: Id): (r: Step)
    requires WF(w) && player in w.entities && w.entities[player].kind.IsPlayer() && nid !in w.entities
    ensures Parse(Shortcut(line)).None? ==> r == Step(w, [Tell(player, "I didn't understand that.")], None)
    ensures Parse(Shortcut(line)).Some? && Resolve(w, Parse(Shortcut(line)).value, player).Raised? ==>
              r == Step(w, [], Some(Resolve(w, Parse(Shortcut(line)).value, player).fault))
    ensures Parse(Shortcut(line)).Some? && Resolve(w, Parse(Shortcut(line)).value, player).Ok? ==>
              var b := Resolve(w, Parse(Shortcut(line)).value, player).value;
              Ready(w, b) && r == HandleCommand(w, b, nid)
    ensures WF(r.world)
  {
    match Parse(Shortcut(line))
    case None => Step(w, [Tell(player, "I didn't understand that.")], None)
    case Some(cmd) =>
      match Resolve(w, cmd, player)
      case Raised(f) => Step(w, [], Some(f))
      case Ok(b) => HandleCommand(w, b, nid)
  }
}

=== FILE: entities.dfy ===
/** The object graph: rooms, players and things held in one registry, each with a `location`
    back-pointer and an ordered `contents` list, plus the derived queries of the base entity
    (`room`, `player`, `rooms`, `players`, `things`, `find_room`, `find_player`, `find_thing`). */
module Entities {
  import opened Wrappers
  import opened Text

  /** Entity identifiers (uuid strings in the source; the root room is "0"). */
  type Id = string

  /** Id of the room every world starts with and where location-less players are placed. */
  const Root: Id := "0"

  /** The concrete classes of the source. `AIPlayer` is a `Player`; `Ball` is a thing. */
  datatype Kind = RoomKind | PlayerKind | AIPlayerKind | ObjectKind | BallKind | BaseKind {

    predicate IsRoom() {
      RoomKind?
    }

    /** `isinstance(obj, Player)`. */
    predicate IsPlayer() {
      PlayerKind? || AIPlayerKind?
    }
  }

  /** One entry of a room's `exits` dictionary. */
  datatype Exit = Exit(direction: string, target: Id)

  /** An entity. `contents` lists the ids of the directly contained entities in insertion order;
      `exits` is only used by rooms. */
  datatype Entity = Entity(
    id: Id,
    kind: Kind,
    name: Option<string>,
    description: Option<string>,
    location: Option<Id>,
    contents: seq<Id>,
    exits: seq<Exit>)

  /** The registry: every live entity by id, and the insertion order of the ids. */
  datatype World = World(order: seq<Id>, entities: map<Id, Entity>)

  /** One `tell`: a line of text delivered to a player. */
  datatype Tell = Tell(to: Id, text: string)

  /** What a command leaves behind: the registry, the tells in the order they were sent, and
      the exception that ended it, if one did (the changes made before it remain). */
  datatype Step = Step(world: World, log: seq<Tell>, fault: Option<Fault>)

  /** How a Python f-string renders an optional name. */
  function Show(s: Option<string>): string {
    match s
    case Some(v) => v
    case None => "None"
  }

  /** Python truthiness of an optional string. */
  predicate Truthy(s: Option<string>) {
    s.Some? && s.value != ""
  }

  predicate NoDups<T(==)>(s: seq<T>) {
    forall i, j :: 0 <= i < j < |s| ==> s[i] != s[j]
  }

  // ---------------------------------------------------------------------------------------
  // Well-formedness: what every world built by the engine satisfies.

  /** The order lists each registered id once, and every entity is filed under its own id. */
  ghost predicate RegistryOk(w: World) {
    && NoDups(w.order)
    && (forall id :: id in w.entities <==> id in w.order)
    && (forall id :: id in w.entities ==> w.entities[id].id == id)
  }

  /** `location` and `contents` agree: y is listed in x's contents exactly when y's location is x,
      and nobody is listed twice. */
  ghost predicate ContainmentOk(w: World) {
    && (forall x :: x in w.entities ==> NoDups(w.entities[x].contents))
    && (forall x, y :: x in w.entities && y in w.entities[x].contents ==>
          y in w.entities && w.entities[y].location == Some(x))
    && (forall y {:trigger w.entities[y].location} :: y in w.entities && w.entities[y].location.Some? ==>
          w.entities[y].location.value in w.entities
          && y in w.entities[w.entities[y].location.value].contents)
  }

  /** Every exit leads to a registered entity. */
  ghost predicate ExitsOk(w: World) {
    forall x, e :: x in w.entities && e in w.entities[x].exits ==> e.target in w.entities
  }

  /** Players and things always carry a name; rooms never have a location. */
  ghost predicate KindsOk(w: World) {
    forall x :: x in w.entities ==>
      (w.entities[x].kind.IsRoom() ==> w.entities[x].location.None?)
      && (!w.entities[x].kind.IsRoom() ==> w.entities[x].name.Some?)
  }

  ghost predicate WF(w: World) {
    && RegistryOk(w)
    && ContainmentOk(w)
    && ExitsOk(w)
    && KindsOk(w)
    && Root in w.entities
  }

  /** Containment only looks at locations and contents: a registry with the same ids, locations
      and contents agrees as well. */
  lemma SameLinks(w: World, w2: World)
    requires ContainmentOk(w) && w2.entities.Keys == w.entities.Keys
    requires forall z :: z in w.entities ==>
               w2.entities[z].contents == w.entities[z].contents && w2.entities[z].location == w.entities[z].location
    ensures ContainmentOk(w2)
  {
  }

  /** Location and contents agreeing means nobody sits in two containers. */
  lemma OneParent(w: World, x1: Id, x2: Id, y: Id)
    requires WF(w)
    requires x1 in w.entities && x2 in w.entities
    requires y in w.entities[x1].contents && y in w.entities[x2].contents
    ensures x1 == x2
  {
    assert ContainmentOk(w);
    assert w.entities[y].location == Some(x1);
    assert w.entities[y].location == Some(x2);
  }

  // ---------------------------------------------------------------------------------------
  // Registry updates.

  /** `registry[e.id] = e`: replaces the entity filed under `e.id`, appending the id to the order
      when it is new. */
  function Put(w: World, e: Entity): (r: World)
    ensures r.entities == w.entities[e.id := e]
    ensures e.id in w.entities ==> r.order == w.order
    ensures e.id !in w.entities ==> r.order == w.order + [e.id]
  {
    World(if e.id in w.entities then w.order else w.order + [e.id], w.entities[e.id := e])
  }

  /** `s` with `x` appended unless already present (assigning a dict key). */
  function Append(s: seq<Id>, x: Id): (r: seq<Id>)
    ensures forall y :: y in r <==> y in s || y == x
    ensures NoDups(s) ==> NoDups(r)
    ensures x in s ==> r == s
  {
    if x in s then s else s + [x]
  }

  lemma NoDupsTail<T>(s: seq<T>)
    requires |s| > 0
    ensures NoDups(s) ==> NoDups(s[1..]) && s[0] !in s[1..]
  {
    if NoDups(s) {
      forall k | 0 <= k < |s| - 1
        ensures s[1..][k] != s[0]
      {
        assert s[1..][k] == s[k + 1];
      }
    }
  }

  /** `s` without `x` (deleting a dict key). */
  function Without(s: seq<Id>, x: Id): (r: seq<Id>)
    ensures forall y :: y in r <==> y in s && y != x
    ensures NoDups(s) ==> NoDups(r)
    ensures |r| <= |s|
    decreases |s|
  {
    if |s| == 0 then []
    else if s[0] == x then Without(s[1..], x)
    else
      var t := Without(s[1..], x);
      assert forall y :: y in s[1..] ==> y in s;
      NoDupsTail(s);
      [s[0]] + t
  }

  // ---------------------------------------------------------------------------------------
  // Walking the location chain: the `room` and `player` properties.

  /** The `k`-th container above `x` (`x` itself for k = 0), following `location` ids. */
  function Up(w: World, x: Id, k: nat): Option<Id>
    decreases k
  {
    if k == 0 then Some(x)
    else if x in w.entities && w.entities[x].location.Some? then Up(w, w.entities[x].location.value, k - 1)
    else None
  }

  /** The classes a walk or a filter is looking for. */
  datatype Sel = RoomsSel | PlayersSel | ThingsSel | AllSel {
    predicate Has(k: Kind) {
      match this
      case RoomsSel => k.IsRoom()
      case PlayersSel => k.IsPlayer()
      case ThingsSel => !k.IsPlayer()
      case AllSel => true
    }
  }

  /** Step `j` of the walk from `x` reaches a registered entity of another class that has a
      location, so the walk goes on. */
  predicate Passes(w: World, x: Id, want: Sel, j: nat) {
    var u := Up(w, x, j);
    u.Some? && u.value in w.entities && !want.Has(w.entities[u.value].kind)
    && w.entities[u.value].location.Some?
  }

  /** Step `k` of the walk from `x` reaches a registered entity of the wanted class. */
  predicate Arrives(w: World, x: Id, want: Sel, k: nat) {
    var u := Up(w, x, k);
    u.Some? && u.value in w.entities && want.Has(w.entities[u.value].kind)
  }

  /** Step `k` of the walk from `x` reaches a registered entity of another class and no location. */
  predicate Halts(w: World, x: Id, want: Sel, k: nat) {
    var u := Up(w, x, k);
    u.Some? && u.value in w.entities && !want.Has(w.entities[u.value].kind)
    && w.entities[u.value].location.None?
  }

  lemma UpStep(w: World, x: Id, k: nat)
    requires x in w.entities && w.entities[x].location.Some?
    ensures Up(w, x, k + 1) == Up(w, w.entities[x].location.value, k)
  {
  }

  /** The walk from `x` continues as the walk from its location `l`, one step behind. */
  lemma ShiftPasses(w: World, x: Id, l: Id, want: Sel, k: nat)
    requires x in w.entities && w.entities[x].location == Some(l)
    requires Passes(w, x, want, 0)
    requires forall j :: 0 <= j < k ==> Passes(w, l, want, j)
    ensures forall j :: 0 <= j < k + 1 ==> Passes(w, x, want, j)
  {
    forall j | 1 <= j < k + 1
      ensures Passes(w, x, want, j)
    {
      UpStep(w, x, j - 1);
      assert Passes(w, l, want, j - 1);
    }
  }

  /** The recursive property walk: the entity itself if it is of the wanted class, else the same
      question asked of its location. A chain longer than `fuel` steps can only be a cycle, on
      which the source recurses until it raises RecursionError; a location that is not a live
      entity raises AttributeError. */
  function Enclosing(w: World, x: Id, want: Sel, fuel: nat): (r: Res<Option<Id>>)
    ensures r.Ok? && r.value.Some? ==>
              exists k :: 0 <= k <= fuel && Up(w, x, k) == r.value && Arrives(w, x, want, k)
                && forall j :: 0 <= j < k ==> Passes(w, x, want, j)
    ensures r.Ok? && r.value.None? ==>
              exists k :: 0 <= k <= fuel && Halts(w, x, want, k)
                && forall j :: 0 <= j < k ==> Passes(w, x, want, j)
    ensures r == Raised(RecursionError) ==> forall j :: 0 <= j <= fuel ==> Passes(w, x, want, j)
    ensures r.Raised? ==> r.fault in {RecursionError, AttributeError}
    decreases fuel
  {
    if x !in w.entities then Raised(AttributeError)
    else if want.Has(w.entities[x].kind) then
      assert Arrives(w, x, want, 0);
      Ok(Some(x))
    else
      match w.entities[x].location
      case None =>
        assert Halts(w, x, want, 0);
        Ok(None)
      case Some(l) =>
        if fuel == 0 then
          assert Passes(w, x, want, 0);
          Raised(RecursionError)
        else
          var r := Enclosing(w, l, want, fuel - 1);
          assert Passes(w, x, want, 0);
          forall j: nat | j < fuel
            ensures Up(w, x, j + 1) == Up(w, l, j)
          {
            UpStep(w, x, j);
          }
          if r.Ok? && r.value.Some? then
            var k :| 0 <= k <= fuel - 1 && Up(w, l, k) == r.value && Arrives(w, l, want, k)
                     && forall j :: 0 <= j < k ==> Passes(w, l, want, j);
            assert Arrives(w, x, want, k + 1);
            ShiftPasses(w, x, l, want, k);
            r
          else if r.Ok? then
            var k :| 0 <= k <= fuel - 1 && Halts(w, l, want, k)
                     && forall j :: 0 <= j < k ==> Passes(w, l, want, j);
            assert Halts(w, x, want, k + 1);
            ShiftPasses(w, x, l, want, k);
            r
          else
            if r == Raised(RecursionError) then
              ShiftPasses(w, x, l, want, fuel);
              r
            else r
  }

  /** `obj.room`: the entity itself if it is a room, else the first room up its location chain,
      or None when the chain ends without one. */
  function RoomOf(w: World, x: Id): (r: Res<Option<Id>>)
    ensures x in w.entities && w.entities[x].kind.IsRoom() ==> r == Ok(Some(x))
    ensures x in w.entities && !w.entities[x].kind.IsRoom() && w.entities[x].location.None? ==> r == Ok(None)
    ensures r.Raised? ==> r.fault in {RecursionError, AttributeError}
  {
    Enclosing(w, x, RoomsSel, |w.order|)
  }

  /** A room found up the chain is a registered room. */
  lemma RoomOfFound(w: World, x: Id)
    ensures RoomOf(w, x).Ok? && RoomOf(w, x).value.Some? ==>
              RoomOf(w, x).value.value in w.entities && w.entities[RoomOf(w, x).value.value].kind.IsRoom()
  {
  }

  /** `obj.player`: the entity itself if it is a player, else the first player up the chain. */
  function PlayerOf(w: World, x: Id): (r: Res<Option<Id>>)
    ensures x in w.entities && w.entities[x].kind.IsPlayer() ==> r == Ok(Some(x))
    ensures x in w.entities && !w.entities[x].kind.IsPlayer() && w.entities[x].location.None? ==> r == Ok(None)
    ensures r.Ok? && r.value.Some? ==> r.value.value in w.entities && w.entities[r.value.value].kind.IsPlayer()
    ensures r.Raised? ==> r.fault in {RecursionError, AttributeError}
  {
    Enclosing(w, x, PlayersSel, |w.order|)
  }

  // ---------------------------------------------------------------------------------------
  // Filters over contents: `rooms`, `players`, `things`.

  /** The ids of `ids` whose class `sel` selects, in order. */
  function Filter(w: World, ids: seq<Id>, sel: Sel): (r: seq<Id>)
    requires forall i :: 0 <= i < |ids| ==> ids[i] in w.entities
    ensures forall y :: y in r <==> y in ids && sel.Has(w.entities[y].kind)
    ensures forall i :: 0 <= i < |r| ==> r[i] in w.entities
    ensures NoDups(ids) ==> NoDups(r)
    ensures |r| <= |ids|
    decreases |ids|
  {
    if |ids| == 0 then []
    else
      var t := Filter(w, ids[1..], sel);
      assert forall y :: y in ids[1..] ==> y in ids;
      if sel.Has(w.entities[ids[0]].kind) then [ids[0]] + t else t
  }

  /** `players` and `things` split the contents: each entry goes to exactly one side. */
  lemma {:induction false} PlayersThingsPartition(w: World, ids: seq<Id>)
    requires forall i :: 0 <= i < |ids| ==> ids[i] in w.entities
    ensures |Filter(w, ids, PlayersSel)| + |Filter(w, ids, ThingsSel)| == |ids|
    ensures forall y :: y in ids ==> (y in Filter(w, ids, PlayersSel) <==> y !in Filter(w, ids, ThingsSel))
    decreases |ids|
  {
    if |ids| > 0 {
      PlayersThingsPartition(w, ids[1..]);
    }
  }

  // ---------------------------------------------------------------------------------------
  // Name lookup: `find_player`, `find_thing`, `find_room`.

  /** `e` answers to `target` (`e.name.lower() == target.lower()`); with `skipFalsy`, as in
      `find_room`, an empty name never answers. */
  predicate Answers(e: Entity, target: string, skipFalsy: bool) {
    e.name.Some? && (!skipFalsy || e.name.value != "") && SameIgnoringCase(e.name.value, target)
  }

  /** Comparing `e`'s name raises: `None.lower()`. `find_room` guards against it. */
  predicate Unnamed(e: Entity, skipFalsy: bool) {
    !skipFalsy && e.name.None?
  }

  /** The scan of `find_*`: the first selected entity of `scope` that answers to `target`,
      raising AttributeError at an unnamed one that comes first. */
  function FirstNamed(w: World, scope: seq<Id>, sel: Sel, target: string, skipFalsy: bool): (r: Res<Option<Id>>)
    requires forall i :: 0 <= i < |scope| ==> scope[i] in w.entities
    ensures r.Ok? && r.value.Some? ==>
              exists i :: 0 <= i < |scope| && scope[i] == r.value.value
                && sel.Has(w.entities[scope[i]].kind) && Answers(w.entities[scope[i]], target, skipFalsy)
                && forall j :: 0 <= j < i && sel.Has(w.entities[scope[j]].kind) ==>
                     !Answers(w.entities[scope[j]], target, skipFalsy) && !Unnamed(w.entities[scope[j]], skipFalsy)
    ensures r.Ok? && r.value.None? ==>
              forall j :: 0 <= j < |scope| && sel.Has(w.entities[scope[j]].kind) ==>
                !Answers(w.entities[scope[j]], target, skipFalsy) && !Unnamed(w.entities[scope[j]], skipFalsy)
    ensures r.Raised? ==> r.fault == AttributeError
    ensures r.Raised? ==>
              exists j :: 0 <= j < |scope| && sel.Has(w.entities[scope[j]].kind) && Unnamed(w.entities[scope[j]], skipFalsy)
    decreases |scope|
  {
    if |scope| == 0 then Ok(None)
    else
      var e := w.entities[scope[0]];
      if !sel.Has(e.kind) then
        var r := FirstNamed(w, scope[1..], sel, target, skipFalsy);
        assert forall j :: 1 <= j < |scope| ==> scope[j] == scope[1..][j - 1];
        r
      else if Unnamed(e, skipFalsy) then Raised(AttributeError)
      else if Answers(e, target, skipFalsy) then Ok(Some(scope[0]))
      else
        var r := FirstNamed(w, scope[1..], sel, target, skipFalsy);
        assert forall j :: 1 <= j < |scope| ==> scope[j] == scope[1..][j - 1];
        r
  }

  /** In a well-formed world no scan over players or contents raises: they all have names. */
  lemma {:induction false} NamedScanSucceeds(w: World, scope: seq<Id>, sel: Sel, target: string, skipFalsy: bool)
    requires WF(w)
    requires forall i :: 0 <= i < |scope| ==> scope[i] in w.entities
    requires forall i :: 0 <= i < |scope| && sel.Has(w.entities[scope[i]].kind) ==>
               !w.entities[scope[i]].kind.IsRoom() || skipFalsy
    ensures FirstNamed(w, scope, sel, target, skipFalsy).Ok?
    decreases |scope|
  {
    if |scope| > 0 {
      NamedScanSucceeds(w, scope[1..], sel, target, skipFalsy);
    }
  }

  /** `find_player(name)` over the ids of `scope` (the world registry, for every caller). */
  function FindPlayer(w: World, scope: seq<Id>, name: string): (r: Res<Option<Id>>)
    requires forall i :: 0 <= i < |scope| ==> scope[i] in w.entities
    ensures r.Ok? && r.value.Some? ==>
              r.value.value in scope && w.entities[r.value.value].kind.IsPlayer() && Answers(w.entities[r.value.value], name, false)
    ensures r.Ok? && r.value.None? ==>
              forall i :: 0 <= i < |scope| && w.entities[scope[i]].kind.IsPlayer() ==> !Answers(w.entities[scope[i]], name, false)
    ensures r.Raised? ==> r.fault == AttributeError
    ensures r.Raised? ==> exists i :: 0 <= i < |scope| && w.entities[scope[i]].kind.IsPlayer() && w.entities[scope[i]].name.None?
  {
    FirstNamed(w, scope, PlayersSel, name, false)
  }

  /** `find_thing(name)`: the first non-player answering to `name`. */
  function FindThing(w: World, scope: seq<Id>, name: string): (r: Res<Option<Id>>)
    requires forall i :: 0 <= i < |scope| ==> scope[i] in w.entities
    ensures r.Ok? && r.value.Some? ==>
              r.value.value in scope && !w.entities[r.value.value].kind.IsPlayer() && Answers(w.entities[r.value.value], name, false)
    ensures r.Ok? && r.value.None? ==>
              forall i :: 0 <= i < |scope| && !w.entities[scope[i]].kind.IsPlayer() ==> !Answers(w.entities[scope[i]], name, false)
    ensures r.Raised? ==> r.fault == AttributeError
    ensures r.Raised? ==> exists i :: 0 <= i < |scope| && !w.entities[scope[i]].kind.IsPlayer() && w.entities[scope[i]].name.None?
  {
    FirstNamed(w, scope, ThingsSel, name, false)
  }

  /** `find_room(name)`: `@x` names the location of player x when x exists; otherwise the first
      room whose (non-empty) name answers to `name`. */
  function FindRoom(w: World, scope: seq<Id>, name: string): (r: Res<Option<Id>>)
    requires forall i :: 0 <= i < |scope| ==> scope[i] in w.entities
    ensures StartsWith(name, "@") && FindPlayer(w, scope, Strip(name, {'@'})).Ok?
            && FindPlayer(w, scope, Strip(name, {'@'})).value.Some? ==>
              r == Ok(w.entities[FindPlayer(w, scope, Strip(name, {'@'})).value.value].location)
    ensures !StartsWith(name, "@") ==> r == FirstNamed(w, scope, RoomsSel, name, true)
    ensures r.Ok? && r.value.Some? && !StartsWith(name, "@") ==>
              w.entities[r.value.value].kind.IsRoom() && Truthy(w.entities[r.value.value].name)
  {
    if StartsWith(name, "@") then
      var p :- FindPlayer(w, scope, Strip(name, {'@'}));
      if p.Some? then
        assert p.value in scope;
        Ok(w.entities[p.value].location)
      else FirstNamed(w, scope, RoomsSel, name, true)
    else FirstNamed(w, scope, RoomsSel, name, true)
  }
}

=== FILE: line_parser.dfy ===
/** The MOO command parser: a pure function from one line of text to a `Command` holding the verb,
    the direct-object phrase, a canonical preposition and the indirect-object phrase. */
module LineParser {
  import opened Wrappers
  import opened Text

  /** The canonical prepositions (the values of `Preposition.keys`). */
  datatype Prep = With | At | InFront | Into | Onto | From | Over | Through | Under | Behind
                | Beside | For | Is | As | Off

  /** `Preposition.keys`, in declaration order: each synonym and the preposition it stands for.
      The multi-word synonyms can never equal a single token, but they take part in the
      `indirect_args` search. */
  const Keys: seq<(string, Prep)> := [
    ("with", With), ("using", With),
    ("at", At), ("to", At),
    ("in front of", InFront),
    ("in", Into), ("inside", Into), ("into", Into),
    ("on top of", Onto), ("on", Onto), ("onto", Onto), ("upon", Onto),
    ("out of", From), ("from inside", From), ("from", From),
    ("over", Over),
    ("through", Through),
    ("under", Under), ("underneath", Under), ("beneath", Under),
    ("behind", Behind),
    ("beside", Beside),
    ("for", For), ("about", For),
    ("is", Is),
    ("as", As),
    ("off", Off), ("off of", Off)
  ]

  /** No synonym is listed twice, so the table is a dictionary. */
  lemma KeysDistinct()
    ensures forall i, j :: 0 <= i < j < |Keys| ==> Keys[i].0 != Keys[j].0
  {
  }

  /** The preposition listed for synonym `w` at the first entry at or after `from` naming it. */
  function PrepFrom(w: string, from: nat): (r: Option<Prep>)
    requires from <= |Keys|
    ensures r.Some? ==> exists k :: from <= k < |Keys| && Keys[k] == (w, r.value)
    ensures r.None? ==> forall k :: from <= k < |Keys| ==> Keys[k].0 != w
    decreases |Keys| - from
  {
    if from == |Keys| then None
    else if Keys[from].0 == w then Some(Keys[from].1)
    else PrepFrom(w, from + 1)
  }

  /** `Preposition.keys.get(w)`. */
  function KeyPrep(w: string): (r: Option<Prep>)
    ensures r.Some? <==> exists k :: 0 <= k < |Keys| && Keys[k].0 == w
    ensures forall k :: 0 <= k < |Keys| && Keys[k].0 == w ==> r == Some(Keys[k].1)
  {
    KeysDistinct();
    PrepFrom(w, 0)
  }

  /** The synonyms among `Keys[from..]` that stand for `p`, in table order. */
  function SynonymsFrom(p: Prep, from: nat): (r: seq<string>)
    requires from <= |Keys|
    ensures forall s :: s in r <==> exists k :: from <= k < |Keys| && Keys[k] == (s, p)
    decreases |Keys| - from
  {
    if from == |Keys| then []
    else if Keys[from].1 == p then [Keys[from].0] + SynonymsFrom(p, from + 1)
    else SynonymsFrom(p, from + 1)
  }

  /** Entries that stand for another preposition contribute nothing. */
  lemma {:induction false} SynonymsSkip(p: Prep, from: nat, to: nat)
    requires from <= to <= |Keys|
    requires forall k :: from <= k < to ==> Keys[k].1 != p
    ensures SynonymsFrom(p, from) == SynonymsFrom(p, to)
    decreases |Keys| - from
  {
    if from < to {
      SynonymsSkip(p, from + 1, to);
    }
  }

  /** `Preposition.synonyms(p)`. */
  function Synonyms(p: Prep): (r: seq<string>)
    ensures forall s :: s in r <==> exists k :: 0 <= k < |Keys| && Keys[k] == (s, p)
  {
    SynonymsFrom(p, 0)
  }

  /** `synonyms(p)` returns exactly the keys whose value is `p`. */
  lemma SynonymsExact(p: Prep, s: string)
    ensures s in Synonyms(p) <==> KeyPrep(s) == Some(p)
  {
    KeysDistinct();
  }

  /** `x or None` for a string: the empty string becomes None. */
  function OrNone(s: string): (r: Option<string>)
    ensures r.None? <==> s == ""
    ensures r.Some? ==> r.value == s
  {
    if s == "" then None else Some(s)
  }

  /** `Command.args_str`: the words after the first, as computed in the constructor. */
  function ArgsOf(line: string): (r: Option<string>)
    ensures r.Some? <==> ' ' in line
    ensures r.Some? ==> r.value == line[IndexOf(line, ' ') + 1..]
  {
    var words := Split(line, ' ');
    SplitFirst(line, ' ');
    if |words| > 1 then
      ArgsRejoin(line);
      Some(Join(words[1..], " "))
    else
      None
  }

  /** The words after the first, joined again, are the text after the first space. */
  lemma ArgsRejoin(line: string)
    requires ' ' in line
    ensures Join(Split(line, ' ')[1..], " ") == line[IndexOf(line, ' ') + 1..]
  {
    var rest := line[IndexOf(line, ' ') + 1..];
    var tail := Split(line, ' ')[1..];
    assert tail == Split(rest, ' ') by {
      SplitFirst(line, ' ');
    }
    JoinSplit(rest, ' ');
  }

  /** How `get_remainder` looks for a synonym in the line. As written it uses `str.find`, which
      also matches inside another word; the corrected search wants the synonym as a whole word. */
  datatype Search = Substring | WholeWord

  /** `sub` occurs at `i` as a whole word: bounded by spaces or the ends of the line. */
  predicate WordAt(s: string, sub: string, i: int) {
    && OccursAt(s, sub, i)
    && (i == 0 || s[i - 1] == ' ')
    && (i + |sub| == |s| || s[i + |sub|] == ' ')
  }

  /** `sub` is at `i` in the sense of the search. */
  predicate HitAt(s: string, sub: string, i: int, how: Search) {
    if how == Substring then OccursAt(s, sub, i) else WordAt(s, sub, i)
  }

  /** First whole-word occurrence of `sub` in `s` at or after `from`, or -1. */
  function FindWordFrom(s: string, sub: string, from: nat): (r: int)
    requires from <= |s| + 1
    ensures r == -1 || (from <= r && WordAt(s, sub, r))
    ensures forall i :: from <= i && (r == -1 || i < r) ==> !WordAt(s, sub, i)
    decreases |s| + 1 - from
  {
    if from + |sub| > |s| then -1
    else if WordAt(s, sub, from) then from
    else FindWordFrom(s, sub, from + 1)
  }

  /** The first position at which the search finds `sub` in `s`, or -1. */
  function Locate(s: string, sub: string, how: Search): (r: int)
    ensures r == -1 || HitAt(s, sub, r, how)
    ensures forall i :: 0 <= i && (r == -1 || i < r) ==> !HitAt(s, sub, i, how)
  {
    if how == Substring then Find(s, sub) else FindWordFrom(s, sub, 0)
  }

  /** The stripped text after the first place the search finds `sub` in `line`. */
  predicate RemainderAfter(line: string, sub: string, rest: string, how: Search) {
    var i := Locate(line, sub, how);
    i >= 0 && rest == Strip(line[i + |sub|..], Whitespace)
  }

  /** `get_remainder`: the first synonym in table order that the search finds decides, and the
      stripped text after it is returned; None exactly when the search finds none of them. */
  function Remainder(line: string, syns: seq<string>, how: Search): (r: Option<string>)
    ensures r.Some? ==> exists k :: 0 <= k < |syns| && RemainderAfter(line, syns[k], r.value, how)
                          && forall j :: 0 <= j < k ==> Locate(line, syns[j], how) == -1
    ensures r.None? <==> forall k :: 0 <= k < |syns| ==> Locate(line, syns[k], how) == -1
    decreases |syns|
  {
    if |syns| == 0 then None
    else
      var index := Locate(line, syns[0], how);
      if index == -1 then
        var r := Remainder(line, syns[1..], how);
        RemainderShift(line, syns, r, how);
        r
      else
        var v := Strip(line[index + |syns[0]|..], Whitespace);
        RemainderHere(line, syns, index, v, how);
        Some(v)
  }

  /** A first synonym that the search finds decides the remainder. */
  lemma RemainderHere(line: string, syns: seq<string>, i: int, v: string, how: Search)
    requires |syns| > 0 && i == Locate(line, syns[0], how) && i >= 0
    requires v == Strip(line[i + |syns[0]|..], Whitespace)
    ensures exists k :: 0 <= k < |syns| && RemainderAfter(line, syns[k], v, how)
                        && forall j :: 0 <= j < k ==> Locate(line, syns[j], how) == -1
  {
    assert RemainderAfter(line, syns[0], v, how);
  }

  /** What `Remainder` promises for the synonyms after an absent first one, it promises for all. */
  lemma RemainderShift(line: string, syns: seq<string>, r: Option<string>, how: Search)
    requires |syns| > 0 && Locate(line, syns[0], how) == -1
    requires r.Some? ==> exists k :: 0 <= k < |syns| - 1 && RemainderAfter(line, syns[1..][k], r.value, how)
                                     && forall j :: 0 <= j < k ==> Locate(line, syns[1..][j], how) == -1
    requires r.None? <==> forall k :: 0 <= k < |syns| - 1 ==> Locate(line, syns[1..][k], how) == -1
    ensures r.Some? ==> exists k :: 0 <= k < |syns| && RemainderAfter(line, syns[k], r.value, how)
                                    && forall j :: 0 <= j < k ==> Locate(line, syns[j], how) == -1
    ensures r.None? <==> forall k :: 0 <= k < |syns| ==> Locate(line, syns[k], how) == -1
  {
    if r.Some? {
      ShiftFound(line, syns, r.value, how);
    } else {
      ShiftMissing(line, syns, how);
    }
  }

  /** A synonym found after an absent first one keeps its place, one further on. */
  lemma ShiftFound(line: string, syns: seq<string>, v: string, how: Search)
    requires |syns| > 0 && Locate(line, syns[0], how) == -1
    requires exists k :: 0 <= k < |syns| - 1 && RemainderAfter(line, syns[1..][k], v, how)
                         && forall j :: 0 <= j < k ==> Locate(line, syns[1..][j], how) == -1
    ensures exists k :: 0 <= k < |syns| && RemainderAfter(line, syns[k], v, how)
                        && forall j :: 0 <= j < k ==> Locate(line, syns[j], how) == -1
    ensures exists k :: 0 <= k < |syns| && Locate(line, syns[k], how) != -1
  {
    var k :| 0 <= k < |syns| - 1 && RemainderAfter(line, syns[1..][k], v, how)
             && forall j :: 0 <= j < k ==> Locate(line, syns[1..][j], how) == -1;
    assert syns[k + 1] == syns[1..][k];
    forall j | 0 <= j < k + 1
      ensures Locate(line, syns[j], how) == -1
    {
      if j > 0 {
        assert syns[j] == syns[1..][j - 1];
      }
    }
  }

  /** No synonym is found when the first is not and none of the rest is. */
  lemma ShiftMissing(line: string, syns: seq<string>, how: Search)
    requires |syns| > 0 && Locate(line, syns[0], how) == -1
    requires forall k :: 0 <= k < |syns| - 1 ==> Locate(line, syns[1..][k], how) == -1
    ensures forall k :: 0 <= k < |syns| ==> Locate(line, syns[k], how) == -1
  {
    forall k | 0 < k < |syns|
      ensures Locate(line, syns[k], how) == -1
    {
      assert syns[k] == syns[1..][k - 1];
    }
  }

  /** `indirect_args`: with a preposition, the non-empty text that follows the first synonym of
      it that the search finds in the raw line; None without a preposition, when no synonym is
      found, or when nothing follows it. */
  function IndirectArgs(line: string, prep: Option<Prep>, how: Search): (r: Option<string>)
    ensures prep.None? ==> r.None?
    ensures r.Some? ==> r.value != ""
    ensures r.Some? ==>
              exists k :: 0 <= k < |Synonyms(prep.value)| && RemainderAfter(line, Synonyms(prep.value)[k], r.value, how)
                          && forall j :: 0 <= j < k ==> Locate(line, Synonyms(prep.value)[j], how) == -1
    ensures prep.Some? && r.None? ==>
              (forall k :: 0 <= k < |Synonyms(prep.value)| ==> Locate(line, Synonyms(prep.value)[k], how) == -1)
              || (exists k :: 0 <= k < |Synonyms(prep.value)| && RemainderAfter(line, Synonyms(prep.value)[k], "", how))
  {
    match prep
    case None => None
    case Some(p) =>
      match Remainder(line, Synonyms(p), how)
      case None => None
      case Some(s) => OrNone(s)
  }

  /** A parsed line: the verb and the raw phrases, before any binding to entities. */
  datatype Command = Command(
    line: string,
    verb: string,
    directStr: Option<string>,
    prep: Option<Prep>,
    indirectStr: Option<string>)
  {
    /** `args_str`, computed from the whole line. */
    function ArgsStr(): Option<string> {
      ArgsOf(line)
    }

    /** `indirect_args`, computed from the whole line and the preposition, with the whole-word
        search the verbs are modelled with. */
    function IndirectArgsOf(): Option<string> {
      IndirectArgs(line, prep, WholeWord)
    }
  }

  const Articles: set<string> := {"a", "an", "the"}

  predicate IsArticle(w: string) {
    Lower(w) in Articles
  }

  /** A token that is a synonym of some preposition, compared in lower case. */
  predicate IsKey(w: string) {
    KeyPrep(Lower(w)).Some?
  }

  /** The tokens that are not articles, in their original order. */
  function DropArticles(ws: seq<string>): (r: seq<string>)
    ensures |r| <= |ws|
    ensures forall i :: 0 <= i < |r| ==> !IsArticle(r[i]) && r[i] in ws
    ensures forall w :: w in ws && !IsArticle(w) ==> w in r
    ensures r == [] <==> forall i :: 0 <= i < |ws| ==> IsArticle(ws[i])
    decreases |ws|
  {
    if |ws| == 0 then []
    else if IsArticle(ws[0]) then DropArticles(ws[1..])
    else [ws[0]] + DropArticles(ws[1..])
  }

  /** The tokens of a line the parser works on: split on single spaces after stripping spaces and
      periods from both ends, with the articles removed. */
  function Words(line: string): seq<string> {
    DropArticles(Split(Strip(line, {' ', '.'}), ' '))
  }

  /** Index of the first preposition token at or after `from`. */
  function FirstKey(words: seq<string>, from: nat): (r: Option<nat>)
    requires from <= |words|
    ensures r.Some? ==> from <= r.value < |words| && IsKey(words[r.value])
    ensures forall j :: from <= j < |words| && (r.None? || j < r.value) ==> !IsKey(words[j])
    decreases |words| - from
  {
    if from == |words| then None
    else if IsKey(words[from]) then Some(from)
    else FirstKey(words, from + 1)
  }

  /** `i` is the position of the first preposition token after the verb. */
  predicate FirstKeyAt(words: seq<string>, i: int) {
    && 1 <= i < |words|
    && IsKey(words[i])
    && forall j :: 1 <= j < i ==> !IsKey(words[j])
  }

  /** The parse of a non-empty line whose tokens, articles removed, are `words`. */
  function ParseWords(line: string, words: seq<string>): (r: Option<Command>)
    ensures r.None? <==> words == []
    ensures r.Some? ==> r.value.line == line && r.value.verb == Lower(words[0])
    ensures r.Some? && |words| == 1 ==>
              r.value.directStr.None? && r.value.prep.None? && r.value.indirectStr.None?
    ensures r.Some? && r.value.prep.Some? ==>
              exists i :: FirstKeyAt(words, i)
                && r.value.prep == KeyPrep(Lower(words[i]))
                && r.value.directStr == OrNone(Join(words[1..i], " "))
                && r.value.indirectStr == OrNone(Join(words[i + 1..], " "))
    ensures r.Some? && r.value.prep.None? && |words| > 1 ==>
              (forall j :: 1 <= j < |words| ==> !IsKey(words[j]))
              && r.value.directStr == Some(Join(words[1..], " "))
              && r.value.indirectStr.None?
  {
    if |words| == 0 then None
    else
      var verb := Lower(words[0]);
      if |words| == 1 then Some(Command(line, verb, None, None, None))
      else
        match FirstKey(words, 1)
        case Some(i) =>
          assert FirstKeyAt(words, i);
          Some(Command(line, verb, OrNone(Join(words[1..i], " ")), KeyPrep(Lower(words[i])),
                       OrNone(Join(words[i + 1..], " "))))
        case None =>
          Some(Command(line, verb, Some(Join(words[1..], " ")), None, None))
  }

  /** `Parser.parse(line)`: None for the empty line and for a line of articles only; otherwise the
      first remaining token, lower-cased, is the verb and the first preposition token after it
      splits the rest into the direct and the indirect phrase. */
  function Parse(line: string): (r: Option<Command>)
    ensures r.None? <==> line == "" || Words(line) == []
    ensures r.Some? ==> r == ParseWords(line, Words(line))
  {
    if line == "" then None else ParseWords(line, Words(line))
  }
}

=== FILE: linking.dfy ===
/** The `world` attribute every object carries. `World.add` points it at the world, but the
    root room that the world's constructor files directly keeps None, and so does a root that no
    loaded record replaces. The rest of the model treats every entity as linked, which is the
    evidently intended behaviour. This module states what the engine does as written: the
    operations that go through `self.world` raise AttributeError on the unlinked root. */
module Linking {
  import opened Wrappers
  import opened Entities
  import opened RoomView
  import opened Containment
  import opened Relocation
  import opened Registry
  import opened Snapshot
  import opened Resolver
  import opened RoomVerbs
  import ObjectVerbs
  import PlayerVerbs

  /** The ids whose `world` is still None in a freshly constructed world: only the root room,
      which the constructor files without `add`. */
  const FreshUnlinked: set<Id> := {Root}

  /** `load` files every record that loads through `add`, which links it. The ids left unlinked
      are the old ones that no loading record replaces. An empty file links nothing. */
  function Relinked(unlinked: set<Id>, doc: seq<Record>): (r: set<Id>)
    ensures r == unlinked - LoadedIds(doc)
    decreases |doc|
  {
    if |doc| == 0 then unlinked
    else
      var front := doc[..|doc| - 1];
      var last := doc[|doc| - 1];
      assert front + [last] == doc;
      LoadedIdsStep(front, last);
      var before := Relinked(unlinked, front);
      if Loads(last) then before - {last.id} else before
  }

  /** The root of a freshly constructed world stays unlinked after a load exactly when no
      loading record has the id "0". */
  lemma RootAfterLoad(doc: seq<Record>)
    ensures Root in Relinked(FreshUnlinked, doc) <==>
              forall i :: 0 <= i < |doc| && Loads(doc[i]) ==> doc[i].id != Root
  {
  }

  /** `world.add_player(p)` as written: `add` links the player, and the player is then listed by
      assigning into the location's contents directly, so an unlinked root room does not raise. */
  function AddPlayerAsWritten(w: World, unlinked: set<Id>, p: Entity): (r: Res<(World, set<Id>)>)
    requires p.location.Some? ==> p.location.value in w.entities
    ensures r.Raised? <==> AddPlayer(w, p).Raised?
    ensures r.Raised? ==> r.fault == AddPlayer(w, p).fault
    ensures r.Ok? ==> r.value.0 == AddPlayer(w, p).value && r.value.1 == unlinked - {p.id}
    ensures r.Ok? && Root in unlinked && p.id != Root ==> Root in r.value.1
  {
    match AddPlayer(w, p)
    case Raised(f) => Raised(f)
    case Ok(w2) => Ok((w2, unlinked - {p.id}))
  }

  /** `container.add(obj)` as written: after the id check, `self.world.add(obj)` raises
      AttributeError for a container whose `world` is None. Otherwise it is the linked `add`, and
      the object is linked. */
  function AddToAsWritten(w: World, unlinked: set<Id>, container: Id, v: Value): (r: Res<(World, set<Id>)>)
    requires container in w.entities
    ensures r == Raised(ValueError) <==> v.NoId?
    ensures r == Raised(AttributeError) <==> v.Obj? && container in unlinked
    ensures r.Ok? <==> AddTo(w, container, v).Ok? && container !in unlinked
    ensures r.Ok? ==> r.value.0 == AddTo(w, container, v).value && r.value.1 == unlinked - {v.e.id}
  {
    match v
    case NoId => Raised(ValueError)
    case Obj(e) =>
      if container in unlinked then Raised(AttributeError)
      else Ok((Attach(w, container, e), unlinked - {e.id}))
  }

  /** The registry when `move` raises in `add`: the mover has left its old container and taken
      the target as its location, but the target does not list it. */
  function Stranded(w: World, x: Id, target: Id): (r: World)
    requires WF(w) && x in w.entities && target in w.entities
    ensures r.entities.Keys == w.entities.Keys && r.order == w.order
    ensures r.entities[x] == w.entities[x].(location := Some(target), contents := r.entities[x].contents)
    ensures forall z :: z in r.entities ==> x !in r.entities[z].contents
    ensures forall z :: z in w.entities && z != x ==>
              r.entities[z] == w.entities[z].(contents := r.entities[z].contents)
  {
    var m := w.entities[x];
    var w1 := if m.location.Some? then Detach(w, m.location.value, x) else w;
    StrandedNowhere(w, x, w1);
    Set(w1, x, w1.entities[x].(location := Some(target)))
  }

  /** After leaving its container the mover is listed nowhere, its own entry aside. */
  lemma StrandedNowhere(w: World, x: Id, w1: World)
    requires WF(w) && x in w.entities
    requires var m := w.entities[x];
             m.location.Some? ==> m.location.value in w.entities && w1 == Detach(w, m.location.value, x)
    requires w.entities[x].location.None? ==> w1 == w
    ensures w1.entities.Keys == w.entities.Keys && w1.order == w.order
    ensures forall z :: z in w1.entities ==> x !in w1.entities[z].contents
    ensures forall z :: z in w.entities ==>
              w1.entities[z] == w.entities[z].(contents := w1.entities[z].contents)
  {
  }

  /** A stranded mover breaks the agreement of locations and contents. */
  lemma StrandedBreaksWF(w: World, x: Id, target: Id)
    requires WF(w) && x in w.entities && target in w.entities
    ensures !ContainmentOk(Stranded(w, x, target))
  {
  }

  /** `move` of the registered non-room `x` as written. Into a linked target it is the linked
      `move`. Into an unlinked one the exit hook runs, `x` leaves its container and takes the
      target as its location, and then `add` raises AttributeError: `x` is stranded, listed in no
      container, and the registry is no longer well-formed. */
  function RelocateAsWritten(w: World, unlinked: set<Id>, x: Id, target: Id, direction: Option<string>): (r: Step)
    requires WF(w) && x in w.entities && target in w.entities && !w.entities[x].kind.IsRoom()
    ensures target !in unlinked ==>
              var mv := Relocate(w, x, target, direction);
              r == Step(mv.world, mv.log, None)
    ensures target in unlinked ==>
              && r.fault == Some(AttributeError)
              && r.log == ExitTells(w, w.entities[x], direction)
              && r.world.entities.Keys == w.entities.Keys
              && r.world.entities[x].location == Some(target)
              && (forall z :: z in r.world.entities ==> x !in r.world.entities[z].contents)
              && !WF(r.world)
  {
    if target !in unlinked then
      var mv := Relocate(w, x, target, direction);
      Step(mv.world, mv.log, None)
    else
      StrandedBreaksWF(w, x, target);
      Step(Stranded(w, x, target), ExitTells(w, w.entities[x], direction), Some(AttributeError))
  }

  /** `go` as written. A found exit is looked up through `self.world.contents`, which raises
      AttributeError in an unlinked room before anyone moves. From a linked room the player is
      moved as `move` does as written, so an exit into an unlinked room strands the player.
      Without a found exit it is the linked `go`. */
  function GoAsWritten(w: World, unlinked: set<Id>, room: Id, b: Bound): (r: Step)
    requires Ready(w, b) && room in w.entities
    ensures var f := FindExit(w.entities[room].exits, b.cmd.directStr);
            !(f.Ok? && f.value.Some?) ==> r == Go(w, room, b)
    ensures var f := FindExit(w.entities[room].exits, b.cmd.directStr);
            room in unlinked && f.Ok? && f.value.Some? ==> r == Step(w, [], Some(AttributeError))
    ensures var f := FindExit(w.entities[room].exits, b.cmd.directStr);
            room !in unlinked && f.Ok? && f.value.Some? ==>
              && f.value.value in w.entities
              && r == RelocateAsWritten(w, unlinked, b.player, f.value.value, b.cmd.directStr)
    ensures var f := FindExit(w.entities[room].exits, b.cmd.directStr);
            room !in unlinked && f.Ok? && f.value.Some? && f.value.value !in unlinked ==> r == Go(w, room, b)
    ensures var f := FindExit(w.entities[room].exits, b.cmd.directStr);
            room !in unlinked && f.Ok? && f.value.Some? && f.value.value in unlinked ==>
              && r.fault == Some(AttributeError)
              && r.world.entities[b.player].location == f.value
              && (forall z :: z in r.world.entities ==> b.player !in r.world.entities[z].contents)
              && !WF(r.world)
  {
    var f := FindExit(w.entities[room].exits, b.cmd.directStr);
    ExitTargetRegistered(w, room, b.cmd.directStr);
    if f.Ok? && f.value.Some? then
      if room in unlinked then Step(w, [], Some(AttributeError))
      else RelocateAsWritten(w, unlinked, b.player, f.value.value, b.cmd.directStr)
    else Go(w, room, b)
  }

  /** `dig` as written: once the direction checks pass, `self.world.add(room)` raises
      AttributeError in an unlinked room, before the exit is added and before any announcement.
      The new room itself goes through `add` and is linked. */
  function DigAsWritten(w: World, unlinked: set<Id>, room: Id, b: Bound, nid: Id): (r: Step)
    requires Ready(w, b) && room in w.entities && nid !in w.entities
    ensures room !in unlinked ==> r == Dig(w, room, b, nid)
    ensures room in unlinked ==>
              (r.fault.Some? <==> Truthy(b.cmd.directStr) && FindExit(w.entities[room].exits, b.cmd.directStr).value.None?)
    ensures r.fault.Some? ==> r == Step(w, [], Some(AttributeError))
    ensures r.fault.None? ==> r == Dig(w, room, b, nid)
  {
    if room in unlinked && Truthy(b.cmd.directStr) && FindExit(w.entities[room].exits, b.cmd.directStr).value.None? then
      Step(w, [], Some(AttributeError))
    else Dig(w, room, b, nid)
  }
  /** `drop` as written. The object goes to the player's room through `move` as written, so in
      the unlinked root it is stranded and the verb raises before the player is told anything. */
  function DropAsWritten(w: World, unlinked: set<Id>, o: Id, b: Bound): (r: Step)
    requires Ready(w, b) && o in w.entities && !w.entities[o].kind.IsRoom()
    ensures var f := RoomOf(w, b.player);
            !(f.Ok? && f.value.Some? && f.value.value in unlinked) ==> r == ObjectVerbs.Drop(w, o, b)
    ensures var f := RoomOf(w, b.player);
            f.Ok? && f.value.Some? && f.value.value in unlinked ==>
              && f.value.value in w.entities
              && r == RelocateAsWritten(w, unlinked, o, f.value.value, None)
              && r.fault == Some(AttributeError)
              && r.world.entities[o].location == f.value
              && (forall z :: z in r.world.entities ==> o !in r.world.entities[z].contents)
              && !WF(r.world)
  {
    RoomOfFound(w, b.player);
    var f := RoomOf(w, b.player);
    if f.Ok? && f.value.Some? && f.value.value in unlinked then
      RelocateAsWritten(w, unlinked, o, f.value.value, None)
    else ObjectVerbs.Drop(w, o, b)
  }

  /** `give x to y` as written: a recipient that is the unlinked root (`give ball to here` while
      standing there) strands the object, and the verb raises before anyone is told. */
  function GiveAsWritten(w: World, unlinked: set<Id>, o: Id, b: Bound): (r: Step)
    requires Ready(w, b) && o in w.entities && !w.entities[o].kind.IsRoom()
    ensures var to := ObjectVerbs.Recipient(b);
            !(to.Some? && to.value in unlinked) ==> r == ObjectVerbs.Give(w, o, b)
    ensures var to := ObjectVerbs.Recipient(b);
            to.Some? && to.value in unlinked ==>
              && to.value in w.entities
              && r == RelocateAsWritten(w, unlinked, o, to.value, None)
              && r.fault == Some(AttributeError)
              && r.world.entities[o].location == to
              && (forall z :: z in r.world.entities ==> o !in r.world.entities[z].contents)
              && !WF(r.world)
  {
    var to := ObjectVerbs.Recipient(b);
    if to.Some? && to.value in unlinked then RelocateAsWritten(w, unlinked, o, to.value, None)
    else ObjectVerbs.Give(w, o, b)
  }

  /** `jump` as written: the player moves through `move` as written, so jumping into the unlinked
      root (`jump @alice` while alice stands there) strands the player and raises. */
  function JumpAsWritten(w: World, unlinked: set<Id>, b: Bound): (r: Step)
    requires Ready(w, b)
    ensures b.cmd.directStr.None? ==> r == PlayerVerbs.Jump(w, b)
    ensures b.cmd.directStr.Some? ==>
              var f := FindRoom(w, Everyone(w), b.cmd.directStr.value);
              !(f.Ok? && f.value.Some? && f.value.value in unlinked) ==> r == PlayerVerbs.Jump(w, b)
    ensures b.cmd.directStr.Some? ==>
              var f := FindRoom(w, Everyone(w), b.cmd.directStr.value);
              f.Ok? && f.value.Some? && f.value.value in unlinked ==>
                && f.value.value in w.entities
                && r == RelocateAsWritten(w, unlinked, b.player, f.value.value, None)
                && r.fault == Some(AttributeError)
                && r.world.entities[b.player].location == f.value
                && (forall z :: z in r.world.entities ==> b.player !in r.world.entities[z].contents)
                && !WF(r.world)
  {
    match b.cmd.directStr
    case None => PlayerVerbs.Jump(w, b)
    case Some(name) =>
      FindRoomRegistered(w, name);
      var f := FindRoom(w, Everyone(w), name);
      if f.Ok? && f.value.Some? && f.value.value in unlinked then
        RelocateAsWritten(w, unlinked, b.player, f.value.value, None)
      else PlayerVerbs.Jump(w, b)
  }

  /** `bot name` as written. A new bot is filed by `add_player`, which never raises (see
      AddPlayerAsWritten); an existing player brought to a caller standing in the unlinked root is
      moved by `move` as written, stranded, and the verb raises. */
  function BotAsWritten(w: World, unlinked: set<Id>, b: Bound, nid: Id): (r: Step)
    requires Ready(w, b) && nid !in w.entities
    ensures !Truthy(b.cmd.directStr) ==> r == PlayerVerbs.Bot(w, b, nid)
    ensures Truthy(b.cmd.directStr) ==>
              var found := FindPlayer(w, Everyone(w), b.cmd.directStr.value);
              var here := w.entities[b.player].location;
              !(found.Ok? && found.value.Some? && here.Some? && here.value in unlinked) ==> r == PlayerVerbs.Bot(w, b, nid)
    ensures Truthy(b.cmd.directStr) ==>
              var found := FindPlayer(w, Everyone(w), b.cmd.directStr.value);
              var here := w.entities[b.player].location;
              found.Ok? && found.value.Some? && here.Some? && here.value in unlinked ==>
                var p := found.value.value;
                && p in w.entities && here.value in w.entities
                && r == RelocateAsWritten(w, unlinked, p, here.value, None)
                && r.fault == Some(AttributeError)
                && r.world.entities[p].location == here
                && (forall z :: z in r.world.entities ==> p !in r.world.entities[z].contents)
                && !WF(r.world)
  {
    if !Truthy(b.cmd.directStr) then PlayerVerbs.Bot(w, b, nid)
    else
      var found := FindPlayer(w, Everyone(w), b.cmd.directStr.value);
      var here := w.entities[b.player].location;
      if found.Ok? && found.value.Some? && here.Some? && here.value in unlinked then
        assert found.value.value in w.order;
        RelocateAsWritten(w, unlinked, found.value.value, here.value, None)
      else PlayerVerbs.Bot(w, b, nid)
  }
}

=== FILE: object_verbs.dfy ===
/** The verbs a portable object answers: `take`, `drop` and `give`. `o` is the object whose
    handler runs; the player is the one who typed the command. */
module ObjectVerbs {
  import opened Wrappers
  import opened Entities
  import opened RoomView
  import opened Containment
  import opened Relocation
  import opened LineParser
  import opened Resolver

  /** The tail the three verbs share: after the object has moved and the player has been told
      `told`, everyone else in the room now enclosing the object hears `msg`. Finding that room
      raises on a location cycle, and fails when the object is in no room at all. */
  function Witnessed(w: World, o: Id, player: Id, told: seq<Tell>, msg: string): (r: Step)
    requires WF(w) && o in w.entities && player in w.entities
    ensures r.world == w
    ensures RoomOf(w, o).Raised? ==> r == Step(w, told, Some(RoomOf(w, o).fault))
    ensures RoomOf(w, o) == Ok(None) ==> r == Step(w, told, Some(AttributeError))
    ensures RoomOf(w, o).Ok? && RoomOf(w, o).value.Some? ==>
              var room := RoomOf(w, o).value.value;
              && room in w.entities && r.fault.None?
              && |r.log| >= |told| && r.log[..|told|] == told
              && (forall t :: t in r.log[|told|..] <==>
                    t.text == msg && t.to in w.entities[room].contents && w.entities[t.to].kind.IsPlayer() && t.to != player)
  {
    RoomOfFound(w, o);
    match RoomOf(w, o)
    case Raised(f) => Step(w, told, Some(f))
    case Ok(None) => Step(w, told, Some(AttributeError))
    case Ok(Some(room)) =>
      WFListed(w, room);
      var heard := Announce(w, room, player, msg, true);
      assert (told + heard)[|told|..] == heard;
      Step(w, told + heard, None)
  }

  /** `take`: the object moves into the player's inventory, the player is told, and the others
      in the room see it happen. */
  function Take(w: World, o: Id, b: Bound): (r: Step)
    requires Ready(w, b) && o in w.entities && !w.entities[o].kind.IsRoom()
    ensures var m := Relocate(w, o, b.player, None);
            r == Witnessed(m.world, o, b.player, m.log + [Tell(b.player, "You take " + Show(w.entities[o].name) + ".")],
                           Show(w.entities[b.player].name) + " takes " + Show(w.entities[o].name) + ".")
  {
    var m := Relocate(w, o, b.player, None);
    var name := Show(w.entities[o].name);
    Witnessed(m.world, o, b.player, m.log + [Tell(b.player, "You take " + name + ".")],
              Show(w.entities[b.player].name) + " takes " + name + ".")
  }

  /** After `take` the player holds the object, nothing else holds it, and the registry is
      well-formed, whether or not the announcement could be made. */
  lemma TakeHolds(w: World, o: Id, b: Bound)
    requires Ready(w, b) && o in w.entities && !w.entities[o].kind.IsRoom()
    ensures var r := Take(w, o, b);
            && WF(r.world)
            && r.world.entities[o].location == Some(b.player)
            && o in r.world.entities[b.player].contents
            && (forall z :: z in r.world.entities && z != b.player ==> o !in r.world.entities[z].contents)
            && Tell(b.player, "You take " + Show(w.entities[o].name) + ".") in r.log
  {
    var m := Relocate(w, o, b.player, None);
    var told := m.log + [Tell(b.player, "You take " + Show(w.entities[o].name) + ".")];
    var r := Take(w, o, b);
    assert told[|told| - 1] in told;
    if r.fault.None? {
      assert r.log[..|told|] == told;
      assert told[|told| - 1] == r.log[|told| - 1];
    }
  }

  /** `drop`: the object moves into the room enclosing the player, the player is told, and the
      others there see it. A player in no room cannot drop anything, and nothing changes. */
  function Drop(w: World, o: Id, b: Bound): (r: Step)
    requires Ready(w, b) && o in w.entities && !w.entities[o].kind.IsRoom()
    ensures RoomOf(w, b.player).Raised? ==> r == Step(w, [], Some(RoomOf(w, b.player).fault))
    ensures RoomOf(w, b.player) == Ok(None) ==> r == Step(w, [], Some(AttributeError))
    ensures RoomOf(w, b.player).Ok? && RoomOf(w, b.player).value.Some? ==>
              var room := RoomOf(w, b.player).value.value;
              && room in w.entities
              && var m := Relocate(w, o, room, None);
                 r == Witnessed(m.world, o, b.player, m.log + [Tell(b.player, "You drop " + Show(w.entities[o].name) + ".")],
                                Show(w.entities[b.player].name) + " drops " + Show(w.entities[o].name) + ".")
  {
    RoomOfFound(w, b.player);
    match RoomOf(w, b.player)
    case Raised(f) => Step(w, [], Some(f))
    case Ok(None) => Step(w, [], Some(AttributeError))
    case Ok(Some(room)) =>
      var m := Relocate(w, o, room, None);
      var name := Show(w.entities[o].name);
      Witnessed(m.world, o, b.player, m.log + [Tell(b.player, "You drop " + name + ".")],
                Show(w.entities[b.player].name) + " drops " + name + ".")
  }

  /** A dropped object lies in a room directly, so finding its room afterwards cannot fail:
      `drop` either changes nothing or completes with the announcement. */
  lemma DropLands(w: World, o: Id, b: Bound)
    requires Ready(w, b) && o in w.entities && !w.entities[o].kind.IsRoom()
    ensures WF(Drop(w, o, b).world)
    ensures RoomOf(w, b.player).Ok? && RoomOf(w, b.player).value.Some? ==>
              && Drop(w, o, b).fault.None?
              && Drop(w, o, b).world.entities[o].location == RoomOf(w, b.player).value
  {
    RoomOfFound(w, b.player);
    if RoomOf(w, b.player).Ok? && RoomOf(w, b.player).value.Some? {
      var room := RoomOf(w, b.player).value.value;
      var w1 := Relocate(w, o, room, None).world;
      assert o in w1.order && room in w1.order && o != room;
      NoDupsTwo(w1.order, o, room);
      RoomOfStep(w1, o, room);
    }
  }

  /** Two different members make a duplicate-free sequence at least two long. */
  lemma NoDupsTwo(s: seq<Id>, a: Id, c: Id)
    requires a in s && c in s && a != c
    ensures |s| >= 2
  {
    var i :| 0 <= i < |s| && s[i] == a;
    var j :| 0 <= j < |s| && s[j] == c;
  }

  /** A non-room lying directly in a room has that room as its room. */
  lemma RoomOfStep(w: World, o: Id, room: Id)
    requires o in w.entities && room in w.entities && |w.order| >= 2
    requires !w.entities[o].kind.IsRoom() && w.entities[o].location == Some(room) && w.entities[room].kind.IsRoom()
    ensures RoomOf(w, o) == Ok(Some(room))
  {
    assert Enclosing(w, room, RoomsSel, |w.order| - 1) == Ok(Some(room));
  }

  /** Who `give` hands the object to: the indirect object of `give x to y`, when found. */
  function Recipient(b: Bound): Option<Id> {
    if b.cmd.prep == Some(At) then b.indirect else None
  }

  /** `give x to y`: without a found recipient after `to`, the player is asked "To whom?" and
      nothing changes; otherwise the object moves into the recipient, the player is told, and
      the others in the room see it. */
  function Give(w: World, o: Id, b: Bound): (r: Step)
    requires Ready(w, b) && o in w.entities && !w.entities[o].kind.IsRoom()
    ensures Recipient(b).None? ==> r == Step(w, [Tell(b.player, "To whom?")], None)
    ensures Recipient(b).Some? ==>
              var to := Recipient(b).value;
              var name := Show(w.entities[o].name);
              var m := Relocate(w, o, to, None);
              r == Witnessed(m.world, o, b.player,
                             m.log + [Tell(b.player, "You give " + name + " to " + Show(w.entities[to].name) + ".")],
                             Show(w.entities[b.player].name) + " gives " + name + " to " + Show(w.entities[to].name) + ".")
  {
    match Recipient(b)
    case None => Step(w, [Tell(b.player, "To whom?")], None)
    case Some(to) =>
      var m := Relocate(w, o, to, None);
      var name := Show(w.entities[o].name);
      Witnessed(m.world, o, b.player, m.log + [Tell(b.player, "You give " + name + " to " + Show(w.entities[to].name) + ".")],
                Show(w.entities[b.player].name) + " gives " + name + " to " + Show(w.entities[to].name) + ".")
  }

  /** After `give` the recipient holds the object and the registry is well-formed. */
  lemma GiveHands(w: World, o: Id, b: Bound)
    requires Ready(w, b) && o in w.entities && !w.entities[o].kind.IsRoom()
    ensures WF(Give(w, o, b).world)
    ensures Recipient(b).Some? ==>
              && Give(w, o, b).world.entities[o].location == Recipient(b)
              && o in Give(w, o, b).world.entities[Recipient(b).value].contents
  {
  }
}

=== FILE: parser_examples.dfy ===
/** Worked examples of the parser on concrete lines, and the `indirect_args` discrepancy. */
module ParserExamples {
  import opened Wrappers
  import opened Text
  import opened LineParser

  lemma SynonymsOfAs()
    ensures Synonyms(As) == ["as"]
  {
    SynonymsSkip(As, 0, 25);
    SynonymsSkip(As, 26, 28);
    assert Keys[25] == ("as", As);
  }

  lemma StripTake()
    ensures Strip("take the ball.", {' ', '.'}) == "take the ball"
  {
    var s := "take the ball.";
    assert TrimmedAt(s, {' ', '.'}, 0, "take the ball");
    StripUnique(s, {' ', '.'}, 0, "take the ball");
  }

  lemma SplitTake()
    ensures Split("take the ball", ' ') == ["take", "the", "ball"]
  {
    var parts := ["take", "the", "ball"];
    assert Join(parts, " ") == "take the ball" by {
      JoinCons("the", ["ball"], " ");
      JoinCons("take", ["the", "ball"], " ");
      assert parts == ["take"] + ["the", "ball"];
    }
    SplitJoin(parts, ' ');
  }

  /** A word that is no synonym is no preposition token. */
  lemma NotKey(w: string)
    requires Lower(w) == w
    requires forall k :: 0 <= k < |Keys| ==> Keys[k].0 != w
    ensures !IsKey(w)
  {
  }

  /** One step of dropping articles: a leading article goes, a leading other word stays. */
  lemma DropStep(w: string, ws: seq<string>, article: bool)
    requires Lower(w) == w && (w in Articles <==> article)
    ensures DropArticles([w] + ws) == (if article then [] else [w]) + DropArticles(ws)
  {
    assert ([w] + ws)[1..] == ws;
  }

  lemma DropBall()
    ensures DropArticles(["ball"]) == ["ball"]
  {
    LowerPlain("ball");
    DropStep("ball", [], false);
    assert ["ball"] == ["ball"] + [];
  }

  lemma DropTheBall()
    ensures DropArticles(["the", "ball"]) == ["ball"]
  {
    LowerPlain("the");
    DropBall();
    DropStep("the", ["ball"], true);
    assert ["the", "ball"] == ["the"] + ["ball"];
  }

  lemma DropTake()
    ensures DropArticles(["take", "the", "ball"]) == ["take", "ball"]
  {
    LowerPlain("take");
    DropTheBall();
    DropStep("take", ["the", "ball"], false);
    assert ["take", "the", "ball"] == ["take"] + ["the", "ball"];
  }

  lemma WordsTake()
    ensures Words("take the ball.") == ["take", "ball"]
  {
    StripTake();
    SplitTake();
    DropTake();
  }

  lemma BallNotKey()
    ensures !IsKey("ball")
  {
    LowerPlain("ball");
    NotKey("ball");
  }

  lemma NoKeyInTakeBall()
    ensures FirstKey(["take", "ball"], 1) == None
  {
    BallNotKey();
    assert ["take", "ball"][1] == "ball";
  }

  lemma ParseWordsTake(line: string)
    ensures ParseWords(line, ["take", "ball"]) == Some(Command(line, "take", Some("ball"), None, None))
  {
    var words := ["take", "ball"];
    NoKeyInTakeBall();
    LowerPlain("take");
    assert words[1..] == ["ball"];
  }

  /** `take the ball.`: the period and the article go, leaving verb `take` and direct phrase
      `ball`, with no preposition. */
  lemma TakeTheBall()
    ensures Parse("take the ball.") == Some(Command("take the ball.", "take", Some("ball"), None, None))
  {
    WordsTake();
    ParseWordsTake("take the ball.");
  }

  lemma StripGive()
    ensures Strip("give ball to jim", {' ', '.'}) == "give ball to jim"
  {
    var s := "give ball to jim";
    assert TrimmedAt(s, {' ', '.'}, 0, s);
    StripUnique(s, {' ', '.'}, 0, s);
  }

  lemma SplitGive()
    ensures Split("give ball to jim", ' ') == ["give", "ball", "to", "jim"]
  {
    var parts := ["give", "ball", "to", "jim"];
    assert Join(parts, " ") == "give ball to jim" by {
      JoinCons("to", ["jim"], " ");
      JoinCons("ball", ["to", "jim"], " ");
      JoinCons("give", ["ball", "to", "jim"], " ");
      assert parts == ["give"] + ["ball", "to", "jim"];
      assert ["ball", "to", "jim"] == ["ball"] + ["to", "jim"];
    }
    SplitJoin(parts, ' ');
  }

  /** A line without articles keeps all its tokens. */
  lemma {:induction false} DropNone(ws: seq<string>)
    requires forall i :: 0 <= i < |ws| ==> !IsArticle(ws[i])
    ensures DropArticles(ws) == ws
    decreases |ws|
  {
    if |ws| > 0 {
      DropNone(ws[1..]);
    }
  }

  lemma DropGive()
    ensures DropArticles(["give", "ball", "to", "jim"]) == ["give", "ball", "to", "jim"]
  {
    var ws := ["give", "ball", "to", "jim"];
    LowerPlain("give");
    LowerPlain("ball");
    LowerPlain("to");
    LowerPlain("jim");
    assert forall i :: 0 <= i < |ws| ==> !IsArticle(ws[i]) by {
      assert ws[0] == "give" && ws[1] == "ball" && ws[2] == "to" && ws[3] == "jim";
    }
    DropNone(ws);
  }

  lemma ToIsAt()
    ensures KeyPrep(Lower("to")) == Some(At) && IsKey("to")
  {
    LowerPlain("to");
    assert Keys[3] == ("to", At);
  }

  lemma KeyInGive()
    ensures FirstKey(["give", "ball", "to", "jim"], 1) == Some(2)
  {
    var words := ["give", "ball", "to", "jim"];
    BallNotKey();
    ToIsAt();
    assert words[1] == "ball" && words[2] == "to";
  }

  lemma ParseWordsGive(line: string)
    ensures ParseWords(line, ["give", "ball", "to", "jim"]) == Some(Command(line, "give", Some("ball"), Some(At), Some("jim")))
  {
    var words := ["give", "ball", "to", "jim"];
    KeyInGive();
    ToIsAt();
    LowerPlain("give");
    assert words[1..2] == ["ball"] && words[3..] == ["jim"] && words[2] == "to";
  }

  /** `give ball to jim`: `to` stands for `at` and splits the direct phrase `ball` from the
      indirect phrase `jim`. */
  lemma GiveBallToJim()
    ensures Parse("give ball to jim") == Some(Command("give ball to jim", "give", Some("ball"), Some(At), Some("jim")))
  {
    StripGive();
    SplitGive();
    DropGive();
    ParseWordsGive("give ball to jim");
  }

  /** The scan from `from` stops at the first occurrence. */
  lemma {:induction false} FindFirst(s: string, sub: string, from: nat, at: nat)
    requires from <= at && OccursAt(s, sub, at)
    requires forall i :: from <= i < at ==> !OccursAt(s, sub, i)
    ensures FindFrom(s, sub, from) == at
    decreases at - from
  {
    if from < at {
      FindFirst(s, sub, from + 1, at);
    }
  }

  /** The word scan from `from` stops at the first whole-word occurrence. */
  lemma {:induction false} FirstWord(s: string, sub: string, from: nat, at: nat)
    requires from <= at && WordAt(s, sub, at)
    requires forall i :: from <= i < at ==> !WordAt(s, sub, i)
    ensures FindWordFrom(s, sub, from) == at
    decreases at - from
  {
    if from < at {
      FirstWord(s, sub, from + 1, at);
    }
  }

  /** The line of the discrepancy. */
  const NameGlass: string := "name glass as cup"

  lemma AsInsideGlass()
    ensures Find(NameGlass, "as") == 7
  {
    var s := NameGlass;
    assert OccursAt(s, "as", 7);
    forall i | 0 <= i < 7
      ensures !OccursAt(s, "as", i)
    {
      assert s[i] != 'a' || s[i + 1] != 's';
      assert s[i..i + 2][0] == s[i] && s[i..i + 2][1] == s[i + 1];
    }
    FindFirst(s, "as", 0, 7);
  }

  lemma AsWord()
    ensures FindWordFrom(NameGlass, "as", 0) == 11
  {
    var s := NameGlass;
    assert WordAt(s, "as", 11);
    forall i | 0 <= i < 11
      ensures !WordAt(s, "as", i)
    {
      if i != 7 {
        assert s[i] != 'a' || s[i + 1] != 's';
        assert s[i..i + 2][0] == s[i] && s[i..i + 2][1] == s[i + 1];
      } else {
        assert s[6] != ' ';
      }
    }
    FirstWord(s, "as", 0, 11);
  }

  lemma StripAfterGlass()
    ensures Strip(NameGlass[9..], Whitespace) == "s as cup"
  {
    var rest := NameGlass[9..];
    assert rest == "s as cup";
    assert rest[0] == 's' && rest[|rest| - 1] == 'p';
    assert 's' !in Whitespace && 'p' !in Whitespace;
    StripUnique(rest, Whitespace, 0, rest);
  }

  lemma StripAfterAs()
    ensures Strip(NameGlass[13..], Whitespace) == "cup"
  {
    var rest := NameGlass[13..];
    assert rest == " cup";
    assert ' ' in Whitespace && 'c' !in Whitespace && 'p' !in Whitespace;
    assert TrimmedAt(rest, Whitespace, 1, "cup");
    StripUnique(rest, Whitespace, 1, "cup");
  }

  lemma RemainderAsWrittenGlass()
    ensures Remainder(NameGlass, ["as"], Substring) == Some("s as cup")
  {
    AsInsideGlass();
    StripAfterGlass();
  }

  lemma RemainderGlass()
    ensures Remainder(NameGlass, ["as"], WholeWord) == Some("cup")
  {
    AsWord();
    StripAfterAs();
  }

  /** As written, `indirect_args` finds `as` inside `glass` and returns the rest of that word
      together with the real phrase. */
  lemma NameGlassAsWritten()
    ensures IndirectArgs(NameGlass, Some(As), Substring) == Some("s as cup")
  {
    SynonymsOfAs();
    RemainderAsWrittenGlass();
  }

  /** Searching for the preposition as a whole word finds the phrase `cup` that follows it. */
  lemma NameGlassCorrected()
    ensures IndirectArgs(NameGlass, Some(As), WholeWord) == Some("cup")
  {
    SynonymsOfAs();
    RemainderGlass();
  }
}

=== FILE: player_verbs.dfy ===
/** The verbs a player answers. A player is always the first place a verb is looked up, so the
    player running one of these is the player who typed the command, `b.player`. */
module PlayerVerbs {
  import opened Wrappers
  import opened Text
  import opened Utils
  import opened Entities
  import opened RoomView
  import opened Containment
  import opened Relocation
  import opened Registry
  import opened LineParser
  import opened Resolver

  /** A step that changes nothing and tells the player one line. */
  function Reply(w: World, b: Bound, text: string): Step {
    Step(w, [Tell(b.player, text)], None)
  }

  /** A step that changes nothing and raises. */
  function Fail(w: World, f: Fault): Step {
    Step(w, [], Some(f))
  }

  // ---------------------------------------------------------------------------------------
  // jump

  /** `jump`: moves the player to the room named by the direct phrase (or, for `@name`, to
      wherever that player is); an unknown name is reported and changes nothing. Without a
      phrase the lookup raises. */
  function Jump(w: World, b: Bound): (r: Step)
    requires Ready(w, b)
    ensures b.cmd.directStr.None? ==> r == Fail(w, AttributeError)
    ensures b.cmd.directStr.Some? && FindRoom(w, Everyone(w), b.cmd.directStr.value).Raised? ==>
              r == Fail(w, FindRoom(w, Everyone(w), b.cmd.directStr.value).fault)
    ensures b.cmd.directStr.Some? && FindRoom(w, Everyone(w), b.cmd.directStr.value) == Ok(None) ==>
              r == Reply(w, b, "I couldn't find " + b.cmd.directStr.value + ".")
    ensures b.cmd.directStr.Some? && FindRoom(w, Everyone(w), b.cmd.directStr.value).Ok?
            && FindRoom(w, Everyone(w), b.cmd.directStr.value).value.Some? ==>
              var t := FindRoom(w, Everyone(w), b.cmd.directStr.value).value.value;
              && t in w.entities
              && r == (var m := Relocate(w, b.player, t, None); Step(m.world, m.log, None))
  {
    match b.cmd.directStr
    case None => Fail(w, AttributeError)
    case Some(name) =>
      FindRoomRegistered(w, name);
      match FindRoom(w, Everyone(w), name)
      case Raised(f) => Fail(w, f)
      case Ok(None) => Reply(w, b, "I couldn't find " + name + ".")
      case Ok(Some(t)) =>
        var m := Relocate(w, b.player, t, None);
        Step(m.world, m.log, None)
  }

  /** A successful jump leaves the player in the room that was found, and the registry well-formed. */
  lemma JumpArrives(w: World, b: Bound)
    requires Ready(w, b)
    ensures WF(Jump(w, b).world)
    ensures b.cmd.directStr.Some? ==>
              var f := FindRoom(w, Everyone(w), b.cmd.directStr.value);
              f.Ok? && f.value.Some? ==>
                && Jump(w, b).world.entities[b.player].location == f.value
                && b.player in Jump(w, b).world.entities[f.value.value].contents
  {
    if b.cmd.directStr.Some? {
      FindRoomRegistered(w, b.cmd.directStr.value);
    }
  }

  // ---------------------------------------------------------------------------------------
  // look

  /** What `look` examines: the indirect object of `look at x` when it was found, else the
      direct object. */
  function LookTarget(b: Bound): Option<Id> {
    if b.cmd.prep == Some(At) && b.indirect.Some? then b.indirect else b.direct
  }

  /** A description, or the stock line for an entity without one. */
  function Described(e: Entity): string {
    if Truthy(e.description) then e.description.value else "You see nothing special."
  }

  /** The names of the non-players the player carries, in order. */
  function Carried(w: World, me: Id): (r: seq<string>)
    requires WF(w) && me in w.entities
    ensures |r| == |ThingsHere(w, me)|
  {
    WFListed(w, me);
    Names(w, ThingsHere(w, me))
  }

  /** `look`: a phrase naming nothing is reported; nothing or the player's own location shows
      the room (raising when the location is missing or is not a room); the player sees their
      own description followed by their inventory; anything else shows its description. */
  function Look(w: World, b: Bound): (r: Step)
    requires Ready(w, b)
    ensures r.world == w
    ensures LookTarget(b).None? && Truthy(b.cmd.directStr) ==>
              r == Reply(w, b, "There is no " + b.cmd.directStr.value + " here.")
    ensures !(LookTarget(b).None? && Truthy(b.cmd.directStr)) && (LookTarget(b).None? || LookTarget(b) == w.entities[b.player].location) ==>
              var loc := w.entities[b.player].location;
              if loc.None? || !w.entities[loc.value].kind.IsRoom() then r == Fail(w, AttributeError)
              else r.fault.None? && r.log == [RoomView.Look(w, loc.value, b.player)]
    ensures LookTarget(b) == Some(b.player) && LookTarget(b) != w.entities[b.player].location ==>
              && r.fault.None? && |r.log| >= 1
              && r.log[0] == Tell(b.player, Described(w.entities[b.player]))
              && (|Carried(w, b.player)| == 0 <==> |r.log| == 1)
              && (|Carried(w, b.player)| > 0 ==>
                    r.log[1] == Tell(b.player, "You have " + JoinStrings(Carried(w, b.player), "and") + "."))
    ensures LookTarget(b).Some? && LookTarget(b) != Some(b.player) && LookTarget(b) != w.entities[b.player].location ==>
              r == Reply(w, b, Described(w.entities[LookTarget(b).value]))
  {
    var obj := LookTarget(b);
    var me := w.entities[b.player];
    if obj.None? && Truthy(b.cmd.directStr) then
      Reply(w, b, "There is no " + b.cmd.directStr.value + " here.")
    else if obj.None? || obj == me.location then
      if me.location.None? || !w.entities[me.location.value].kind.IsRoom() then Fail(w, AttributeError)
      else
        WFListed(w, me.location.value);
        Step(w, [RoomView.Look(w, me.location.value, b.player)], None)
    else if obj == Some(b.player) then
      var things := Carried(w, b.player);
      var first := Tell(b.player, Described(me));
      if |things| > 0 then Step(w, [first, Tell(b.player, "You have " + JoinStrings(things, "and") + ".")], None)
      else Step(w, [first], None)
    else Reply(w, b, Described(w.entities[obj.value]))
  }

  // ---------------------------------------------------------------------------------------
  // do_name, do_describe

  /** The guard `do_name` and `do_describe` share: a found direct object, the preposition `as`,
      and a non-empty indirect phrase. */
  predicate Relabels(b: Bound) {
    b.direct.Some? && b.cmd.prep == Some(As) && Truthy(b.cmd.IndirectArgsOf())
  }

  /** `name x as y`: renames the direct object to the words after `as`; anything else is not
      understood. No one else is told. */
  function DoName(w: World, b: Bound): (r: Step)
    requires Ready(w, b)
    ensures !Relabels(b) ==> r == Reply(w, b, "I didn't understand that.")
    ensures Relabels(b) ==>
              && r.fault.None? && r.log == []
              && r.world.order == w.order
              && r.world.entities == w.entities[b.direct.value := w.entities[b.direct.value].(name := b.cmd.IndirectArgsOf())]
  {
    if !Relabels(b) then Reply(w, b, "I didn't understand that.")
    else
      var x := b.direct.value;
      Step(Set(w, x, w.entities[x].(name := b.cmd.IndirectArgsOf())), [], None)
  }

  /** `describe x as y`: sets the direct object's description to the words after `as`. */
  function DoDescribe(w: World, b: Bound): (r: Step)
    requires Ready(w, b)
    ensures !Relabels(b) ==> r == Reply(w, b, "I didn't understand that.")
    ensures Relabels(b) ==>
              && r.fault.None? && r.log == []
              && r.world.order == w.order
              && r.world.entities == w.entities[b.direct.value := w.entities[b.direct.value].(description := b.cmd.IndirectArgsOf())]
  {
    if !Relabels(b) then Reply(w, b, "I didn't understand that.")
    else
      var x := b.direct.value;
      Step(Set(w, x, w.entities[x].(description := b.cmd.IndirectArgsOf())), [], None)
  }

  /** Changing one field other than location, contents or kind keeps the registry well-formed,
      as long as a non-room keeps some name. */
  lemma RelabelKeepsWF(w: World, x: Id, name: Option<string>, description: Option<string>)
    requires WF(w) && x in w.entities
    requires !w.entities[x].kind.IsRoom() ==> name.Some?
    ensures WF(Set(w, x, w.entities[x].(name := name, description := description)))
  {
    RelabelContainment(w, x, name, description);
    RelabelExits(w, x, name, description);
  }

  lemma RelabelContainment(w: World, x: Id, name: Option<string>, description: Option<string>)
    requires ContainmentOk(w) && x in w.entities
    ensures ContainmentOk(Set(w, x, w.entities[x].(name := name, description := description)))
  {
    var w2 := Set(w, x, w.entities[x].(name := name, description := description));
    assert forall z :: z in w.entities ==>
             w2.entities[z].contents == w.entities[z].contents && w2.entities[z].location == w.entities[z].location;
    SameLinks(w, w2);
  }

  lemma RelabelExits(w: World, x: Id, name: Option<string>, description: Option<string>)
    requires ExitsOk(w) && x in w.entities
    ensures ExitsOk(Set(w, x, w.entities[x].(name := name, description := description)))
  {
    var w2 := Set(w, x, w.entities[x].(name := name, description := description));
    assert forall z :: z in w.entities ==> w2.entities[z].exits == w.entities[z].exits;
  }

  lemma DoNameKeepsWF(w: World, b: Bound)
    requires Ready(w, b)
    ensures WF(DoName(w, b).world)
  {
    if Relabels(b) {
      var x := b.direct.value;
      RelabelKeepsWF(w, x, b.cmd.IndirectArgsOf(), w.entities[x].description);
    }
  }

  lemma DoDescribeKeepsWF(w: World, b: Bound)
    requires Ready(w, b)
    ensures WF(DoDescribe(w, b).world)
  {
    if Relabels(b) {
      var x := b.direct.value;
      RelabelKeepsWF(w, x, w.entities[x].name, b.cmd.IndirectArgsOf());
    }
  }

  // ---------------------------------------------------------------------------------------
  // whisper

  /** The whisper a human player receives. */
  function WhisperLine(w: World, b: Bound, message: string): string
    requires b.player in w.entities
  {
    Show(w.entities[b.player].name) + " whispers, \"" + message + "\""
  }

  /** The addressee of `whisper name message`: the argument text up to its first space, and
      the message after it. */
  function Addressee(args: string): (r: Option<(string, string)>)
    ensures r.None? <==> ' ' !in args
    ensures r.Some? ==> args == r.value.0 + " " + r.value.1 && ' ' !in r.value.0
  {
    var i := IndexOf(args, ' ');
    if i < 0 then None
    else
      assert args == args[..i] + " " + args[i + 1..];
      Some((args[..i], args[i + 1..]))
  }

  /** `whisper` as written: a bot hears the bare message, but a human player is told with an
      extra argument that `tell` does not take, so the call raises TypeError. */
  function WhisperAsWritten(w: World, b: Bound): (r: Step)
    requires Ready(w, b)
    ensures r.world == w
  {
    match b.cmd.ArgsStr()
    case None => Fail(w, AttributeError)
    case Some(args) =>
      match Addressee(args)
      case None => Reply(w, b, "What do you want to tell them?")
      case Some((name, message)) =>
        match FindPlayer(w, Everyone(w), name)
        case Raised(f) => Fail(w, f)
        case Ok(p) =>
          if p.None? || message == "" then Step(w, [], None)
          else if w.entities[p.value].kind == AIPlayerKind then Step(w, [Tell(p.value, message)], None)
          else Fail(w, TypeError)
  }

  /** `whisper name message`: the named player hears the message, prefixed with the whisperer's
      name for a human, bare for a bot. Nobody else hears it, and an unknown name or an empty
      message is dropped silently. Without arguments the split raises. */
  function Whisper(w: World, b: Bound): (r: Step)
    requires Ready(w, b)
    ensures r.world == w
    ensures b.cmd.ArgsStr().None? ==> r == Fail(w, AttributeError)
    ensures b.cmd.ArgsStr().Some? && Addressee(b.cmd.ArgsStr().value).None? ==>
              r == Reply(w, b, "What do you want to tell them?")
    ensures b.cmd.ArgsStr().Some? && Addressee(b.cmd.ArgsStr().value).Some? ==>
              var (name, message) := Addressee(b.cmd.ArgsStr().value).value;
              var found := FindPlayer(w, Everyone(w), name);
              && (found.Raised? ==> r == Fail(w, found.fault))
              && (found.Ok? && (found.value.None? || message == "") ==> r == Step(w, [], None))
              && (found.Ok? && found.value.Some? && message != "" ==>
                    && r.fault.None? && |r.log| == 1 && r.log[0].to == found.value.value
                    && w.entities[found.value.value].kind.IsPlayer()
                    && r.log[0].text == (if w.entities[found.value.value].kind == AIPlayerKind then message
                                         else WhisperLine(w, b, message)))
  {
    match b.cmd.ArgsStr()
    case None => Fail(w, AttributeError)
    case Some(args) =>
      match Addressee(args)
      case None => Reply(w, b, "What do you want to tell them?")
      case Some((name, message)) =>
        match FindPlayer(w, Everyone(w), name)
        case Raised(f) => Fail(w, f)
        case Ok(p) =>
          if p.None? || message == "" then Step(w, [], None)
          else if w.entities[p.value].kind == AIPlayerKind then Step(w, [Tell(p.value, message)], None)
          else Step(w, [Tell(p.value, WhisperLine(w, b, message))], None)
  }

  /** The two agree except where a human player is the addressee: there the source raises and
      the corrected whisper delivers. */
  lemma WhisperDiffersOnlyForHumans(w: World, b: Bound)
    requires Ready(w, b)
    ensures WhisperAsWritten(w, b) != Whisper(w, b) ==>
              && WhisperAsWritten(w, b) == Fail(w, TypeError)
              && |Whisper(w, b).log| == 1
              && w.entities[Whisper(w, b).log[0].to].kind == PlayerKind
  {
  }

  /** Whispering a non-empty message to a human player who is found raises TypeError as
      written, where the corrected whisper tells that player the prefixed message. */
  lemma WhisperToHumanRaises(w: World, b: Bound, name: string, message: string, p: Id)
    requires Ready(w, b)
    requires b.cmd.ArgsStr() == Some(name + " " + message) && ' ' !in name && message != ""
    requires FindPlayer(w, Everyone(w), name) == Ok(Some(p)) && w.entities[p].kind == PlayerKind
    ensures WhisperAsWritten(w, b) == Fail(w, TypeError)
    ensures Whisper(w, b) == Step(w, [Tell(p, WhisperLine(w, b, message))], None)
  {
    var args := name + " " + message;
    assert args[|name|] == ' ';
    assert args[..|name|] == name && args[|name| + 1..] == message;
    assert IndexOf(args, ' ') == |name| by {
      assert ' ' !in args[..|name|];
    }
  }

  // ---------------------------------------------------------------------------------------
  // find

  /** `find name`: where the named player is, by the room's name, or for a room without a name
      by its description; a missing player, or one that is nowhere, is reported as not found. */
  function Find(w: World, b: Bound): (r: Step)
    requires Ready(w, b)
    ensures r.world == w
    ensures b.cmd.directStr.None? ==> r == Fail(w, AttributeError)
    ensures b.cmd.directStr.Some? ==>
              var name := b.cmd.directStr.value;
              var found := FindPlayer(w, Everyone(w), name);
              && (found.Raised? ==> r == Fail(w, found.fault))
              && (found == Ok(None) || (found.Ok? && found.value.Some? && w.entities[found.value.value].location.None?) ==>
                    r == Reply(w, b, "I couldn't find " + name + "."))
              && (found.Ok? && found.value.Some? && w.entities[found.value.value].location.Some? ==>
                    var p := w.entities[found.value.value];
                    var l := w.entities[p.location.value];
                    && r.fault.None? && (forall t :: t in r.log ==> t.to == b.player)
                    && (Truthy(l.name) ==> r.log == [Tell(b.player, Show(p.name) + " is in " + l.name.value + ".")])
                    && (!Truthy(l.name) ==>
                          r.log == [Tell(b.player, Show(p.name) + " is in a room with no name."),
                                    Tell(b.player, "It looks like:\n" + (if Truthy(l.description) then l.description.value else "?"))]))
  {
    match b.cmd.directStr
    case None => Fail(w, AttributeError)
    case Some(name) =>
      match FindPlayer(w, Everyone(w), name)
      case Raised(f) => Fail(w, f)
      case Ok(None) => Reply(w, b, "I couldn't find " + name + ".")
      case Ok(Some(pid)) =>
        assert pid in w.order;
        var p := w.entities[pid];
        if p.location.None? then Reply(w, b, "I couldn't find " + name + ".")
        else
          var l := w.entities[p.location.value];
          if Truthy(l.name) then Reply(w, b, Show(p.name) + " is in " + l.name.value + ".")
          else
            Step(w, [Tell(b.player, Show(p.name) + " is in a room with no name."),
                     Tell(b.player, "It looks like:\n" + (if Truthy(l.description) then l.description.value else "?"))], None)
  }

  // ---------------------------------------------------------------------------------------
  // create

  /** What looking a class name up among the player module's globals and calling it gives. */
  datatype ClassLookup = Builds(kind: Kind) | CallFails(fault: Fault) | NotFound

  /** The player module's globals: `Base` and `Player` build an entity; the logger factory builds
      something that cannot be moved; the other names are not classes and their call raises;
      anything else (`Object` included, which the module does not import) is not found. */
  function ClassNamed(c: string): (r: ClassLookup)
    ensures r.Builds? ==> c in {"Base", "Player"} && !r.kind.IsRoom()
    ensures r == NotFound <==>
              c !in {"Base", "Player", "get_logger", "Preposition", "join_strings", "logger", "__name__", "__file__",
                     "__package__", "__cached__", "__spec__", "__loader__", "__builtins__"}
  {
    if c == "Base" then Builds(BaseKind)
    else if c == "Player" then Builds(PlayerKind)
    else if c == "get_logger" then CallFails(AttributeError)
    else if c in {"Preposition", "join_strings", "logger", "__name__", "__file__", "__package__",
                  "__cached__", "__spec__", "__loader__", "__builtins__"} then CallFails(TypeError)
    else NotFound
  }

  /** The class `create` asks for: the indirect phrase after `as`, else `Object`. */
  function ClassAsked(b: Bound): string {
    if b.cmd.prep == Some(As) && Truthy(b.cmd.indirectStr) then b.cmd.indirectStr.value else "Object"
  }

  /** A new entity of the given kind and name, not yet anywhere. */
  function Made(nid: Id, k: Kind, name: string): Entity {
    Entity(nid, k, Some(name), None, None, [], [])
  }

  /** `create name as Class`: builds a new entity with id `nid` and moves it into the player's
      inventory, then confirms. */
  function Create(w: World, b: Bound, nid: Id): (r: Step)
    requires Ready(w, b) && nid !in w.entities
    ensures !Truthy(b.cmd.directStr) ==> r == Reply(w, b, "You must give the object a name.")
    ensures Truthy(b.cmd.directStr) && ClassNamed(ClassAsked(b)) == NotFound ==>
              r == Reply(w, b, "I couldn't find " + ClassAsked(b) + ".")
    ensures Truthy(b.cmd.directStr) && ClassNamed(ClassAsked(b)).CallFails? ==>
              r == Fail(w, ClassNamed(ClassAsked(b)).fault)
    ensures Truthy(b.cmd.directStr) && ClassNamed(ClassAsked(b)).Builds? ==>
              var m := Move(w, Made(nid, ClassNamed(ClassAsked(b)).kind, b.cmd.directStr.value), b.player, None, Accept);
              r == Step(m.world, m.log + [Tell(b.player, "You created " + b.cmd.directStr.value + ".")], None)
  {
    if !Truthy(b.cmd.directStr) then Reply(w, b, "You must give the object a name.")
    else
      var name := b.cmd.directStr.value;
      var c := ClassAsked(b);
      match ClassNamed(c)
      case NotFound => Reply(w, b, "I couldn't find " + c + ".")
      case CallFails(f) => Fail(w, f)
      case Builds(k) =>
        var m := Move(w, Made(nid, k, name), b.player, None, Accept);
        Step(m.world, m.log + [Tell(b.player, "You created " + name + ".")], None)
  }

  /** A successful create files exactly one new entity, held by the player, with the requested
      kind and name, and tells the player nothing but the confirmation. */
  lemma CreateMakes(w: World, b: Bound, nid: Id)
    requires Ready(w, b) && nid !in w.entities
    requires Truthy(b.cmd.directStr) && ClassNamed(ClassAsked(b)).Builds?
    ensures var r := Create(w, b, nid);
            && r.fault.None?
            && r.world.entities.Keys == w.entities.Keys + {nid}
            && r.world.entities[nid] == Made(nid, ClassNamed(ClassAsked(b)).kind, b.cmd.directStr.value).(location := Some(b.player))
            && nid in r.world.entities[b.player].contents
            && r.log == [Tell(b.player, "You created " + b.cmd.directStr.value + ".")]
  {
    var k := ClassNamed(ClassAsked(b)).kind;
    var o := Made(nid, k, b.cmd.directStr.value);
    MoveFresh(w, o, b.player);
  }

  /** Create keeps the registry well-formed, whichever branch it takes. */
  lemma CreateKeepsWF(w: World, b: Bound, nid: Id)
    requires Ready(w, b) && nid !in w.entities
    ensures WF(Create(w, b, nid).world)
  {
    if Truthy(b.cmd.directStr) && ClassNamed(ClassAsked(b)).Builds? {
      var k := ClassNamed(ClassAsked(b)).kind;
      MovePreservesWF(w, Made(nid, k, b.cmd.directStr.value), b.player, None, Accept);
    }
  }

  // ---------------------------------------------------------------------------------------
  // bot

  /** The bot `bot name` creates when no player has that name. */
  function NewBot(nid: Id, name: string, location: Option<Id>): Entity {
    Entity(nid, AIPlayerKind, Some(name), None, location, [], [])
  }

  /** `bot name`: brings the named player to the caller's location, or, when there is none,
      adds a new bot there (in the root room when the caller is nowhere) without running any
      hook. Nothing is told. */
  function Bot(w: World, b: Bound, nid: Id): (r: Step)
    requires Ready(w, b) && nid !in w.entities
    ensures !Truthy(b.cmd.directStr) ==> r == Reply(w, b, "You must provide a player name.")
    ensures Truthy(b.cmd.directStr) ==>
              var found := FindPlayer(w, Everyone(w), b.cmd.directStr.value);
              var here := w.entities[b.player].location;
              && (found.Raised? ==> r == Fail(w, found.fault))
              && (found == Ok(None) ==>
                    r == Step(AddPlayer(w, NewBot(nid, b.cmd.directStr.value, here)).value, [], None))
              && (found.Ok? && found.value.Some? && here.None? ==> r == Fail(w, AttributeError))
              && (found.Ok? && found.value.Some? && here.Some? ==>
                    r == (var m := Relocate(w, found.value.value, here.value, None); Step(m.world, m.log, None)))
  {
    if !Truthy(b.cmd.directStr) then Reply(w, b, "You must provide a player name.")
    else
      var name := b.cmd.directStr.value;
      var here := w.entities[b.player].location;
      match FindPlayer(w, Everyone(w), name)
      case Raised(f) => Fail(w, f)
      case Ok(None) =>
        Step(AddPlayer(w, NewBot(nid, name, here)).value, [], None)
      case Ok(Some(p)) =>
        assert p in w.order;
        if here.None? then Fail(w, AttributeError)
        else
          var m := Relocate(w, p, here.value, None);
          Step(m.world, m.log, None)
  }

  /** After `bot name` the named player stands where the caller stands, and the registry stays
      well-formed. */
  lemma BotGathers(w: World, b: Bound, nid: Id)
    requires Ready(w, b) && nid !in w.entities
    ensures WF(Bot(w, b, nid).world)
    ensures Truthy(b.cmd.directStr) && w.entities[b.player].location.Some? ==>
              var found := FindPlayer(w, Everyone(w), b.cmd.directStr.value);
              var here := w.entities[b.player].location;
              && (found.Ok? && found.value.Some? ==> Bot(w, b, nid).world.entities[found.value.value].location == here)
              && (found == Ok(None) ==> Bot(w, b, nid).world.entities[nid].location == here
                                         && nid in Bot(w, b, nid).world.entities[here.value].contents)
  {
    if Truthy(b.cmd.directStr) {
      var found := FindPlayer(w, Everyone(w), b.cmd.directStr.value);
      if found == Ok(None) {
        AddPlayerPreservesWF(w, NewBot(nid, b.cmd.directStr.value, w.entities[b.player].location));
      }
    }
  }

  // ---------------------------------------------------------------------------------------
  // help

  /** The fixed help text. */
  const HelpText: string :=
    "\n"
    + "Commands:\n"
    + "player [name]: select an existing player or create a new one\n"
    + "look [object]: show a description of the object or the current room\n"
    + "go [direction]: change rooms by moving player in direction\n"
    + "jump [room name]: go directly to a named room\n"
    + "dig [direction]: create a new room, adding direction to the current room\n"
    + "name [object] as [name]: set an object's name\n"
    + "describe [object] as [description]: set an object's description\n"
    + "say [message]: say a message to all players in the current room\n"
    + "emote [expression]: express an action, feeling, or just about anything\n"
    + "whisper [player] [message]: send a private message directly to another player\n"
    + "find [player]: find player by name, gives their room name or description\n"
    + "take [object]: pick up an object by name\n"
    + "drop [object]: drop an object you are carrying\n"
    + "give [object] to [player]: give an object to another player\n"
    + "create [name] as [class]: create a new object\n"
    + "\n"
    + "Shortcuts:\n"
    + "\" -- say (example: `\"Hi there.` becomes `say Hi there.`)\n"
    + ": -- emote (example: `:waves.` becomes `emote waves.`)\n"
    + "@ -- whisper (example: `@jim Psst...` becomes `whisper jim Psst...`)\n"
    + "# -- jump (example: `#attic` becomes `jump attic`)\n"

  /** `help`: tells the player the help text and changes nothing. */
  function Help(w: World, b: Bound): (r: Step)
    requires Ready(w, b)
    ensures r.world == w && r.fault.None?
    ensures r.log == [Tell(b.player, HelpText)]
  {
    Reply(w, b, HelpText)
  }
}

=== FILE: registry.dfy ===
/** The world object as a registry: the initial world with its root room, `add`, and
    `add_player`, which places a player without running any hook. */
module Registry {
  import opened Wrappers
  import opened Entities
  import opened Containment

  /** The description the root room is created with. */
  const RootDescription: string := "This is the beginning of the world."

  /** A world constructed without contents: the single root room. */
  function NewWorld(): (r: World)
    ensures r.order == [Root] && r.entities.Keys == {Root}
    ensures r.entities[Root].kind == RoomKind && r.entities[Root].description == Some(RootDescription)
    ensures r.entities[Root].name.None? && r.entities[Root].location.None?
    ensures r.entities[Root].contents == [] && r.entities[Root].exits == []
  {
    World([Root], map[Root := Entity(Root, RoomKind, None, Some(RootDescription), None, [], [])])
  }

  lemma NewWorldWF()
    ensures WF(NewWorld())
  {
  }

  /** `world.add(obj)`: files the entity under its id (pointing its `world` at the registry is
      implicit here); a value without an id raises ValueError. */
  function Register(w: World, v: Value): (r: Res<World>)
    ensures r.Raised? <==> v.NoId?
    ensures r.Raised? ==> r.fault == ValueError
    ensures r.Ok? ==> r.value.entities == w.entities[v.e.id := v.e]
    ensures r.Ok? && v.e.id in w.entities ==> r.value.order == w.order
    ensures r.Ok? && v.e.id !in w.entities ==> r.value.order == w.order + [v.e.id]
  {
    match v
    case NoId => Raised(ValueError)
    case Obj(e) => Ok(Put(w, e))
  }

  /** `world.add_player(p)`: registers `p`, gives a location-less player the root room as its
      location, and lists it in that location's contents. No enter hook runs and nobody is told.
      Looking up the root room raises KeyError when it is missing. */
  function AddPlayer(w: World, p: Entity): (r: Res<World>)
    requires p.location.Some? ==> p.location.value in w.entities
    ensures r.Raised? <==> p.location.None? && Root !in w.entities && p.id != Root
    ensures r.Raised? ==> r.fault == KeyError
    ensures r.Ok? ==> r.value.entities.Keys == w.entities.Keys + {p.id}
    ensures r.Ok? ==> var loc := p.location.GetOr(Root);
                      && r.value.entities[p.id].location == Some(loc)
                      && p.id in r.value.entities[loc].contents
                      && (p.id != loc ==> r.value.entities[p.id] == p.(location := Some(loc)))
                      && (p.id != loc ==> forall y :: y in r.value.entities[loc].contents <==>
                                              y in w.entities[loc].contents || y == p.id)
                      && (forall z :: z in w.entities && z != loc && z != p.id ==> r.value.entities[z] == w.entities[z])
  {
    // Filing `p` first means a player whose own id is "0" finds itself as the root room.
    if p.location.None? && Root !in w.entities && p.id != Root then Raised(KeyError)
    else Ok(Attach(w, p.location.GetOr(Root), p.(location := Some(p.location.GetOr(Root)))))
  }

  /** Filing a new, empty entity and listing it in `loc` has the shape of a move into `loc`. */
  lemma AttachFreshShape(w: World, m: Entity, loc: Id, w2: World)
    requires ContainmentOk(w) && m.id !in w.entities && loc in w.entities
    requires m.location.None? && m.contents == []
    requires w2 == Attach(w, loc, m.(location := Some(loc)))
    ensures MovedShape(w, m, loc, w2)
  {
    AttachFreshMembers(w, m, loc, w2);
    AttachFreshNoDups(w, m, loc, w2);
    assert w2.entities[m.id] == m.(location := Some(loc));
  }

  lemma AttachFreshMembers(w: World, m: Entity, loc: Id, w2: World)
    requires ContainmentOk(w) && m.id !in w.entities && loc in w.entities
    requires m.contents == []
    requires w2 == Attach(w, loc, m.(location := Some(loc)))
    ensures forall z, y :: z in w2.entities ==>
              (y in w2.entities[z].contents <==>
                 (y in Before(w, m, z).contents && y != m.id) || (z == loc && y == m.id))
  {
    assert forall z :: z in w.entities ==> m.id !in w.entities[z].contents;
    assert forall z, y :: z in w2.entities && z != loc ==>
             (y in w2.entities[z].contents <==> y in Before(w, m, z).contents && y != m.id);
    assert forall y :: y in w2.entities[loc].contents <==> y in w.entities[loc].contents || y == m.id;
  }

  lemma AttachFreshNoDups(w: World, m: Entity, loc: Id, w2: World)
    requires ContainmentOk(w) && m.id !in w.entities && loc in w.entities
    requires m.contents == []
    requires w2 == Attach(w, loc, m.(location := Some(loc)))
    ensures forall z :: z in w2.entities ==> NoDups(w2.entities[z].contents)
  {
    assert NoDups(w.entities[loc].contents);
  }

  /** Adding a new, named, empty player keeps the registry well-formed. */
  lemma AddPlayerPreservesWF(w: World, p: Entity)
    requires WF(w) && p.id !in w.entities
    requires p.location.Some? ==> p.location.value in w.entities
    requires p.kind.IsPlayer() && p.name.Some? && p.contents == []
    requires forall e :: e in p.exits ==> e.target in w.entities
    ensures AddPlayer(w, p).Ok? && WF(AddPlayer(w, p).value)
  {
    var w2 := AddPlayer(w, p).value;
    var loc := p.location.GetOr(Root);
    var m := p.(location := None);
    AttachFreshShape(w, m, loc, w2);
    ShapeRegistry(w, m, loc, w2);
    ShapeContainment(w, m, loc, w2);
    ShapeExitsKinds(w, m, loc, w2);
  }
}

=== FILE: resolver.dfy ===
/** `Command.resolve`: binding the direct and indirect phrases of a parsed command to entities,
    relative to the player who typed it. */
module Resolver {
  import opened Wrappers
  import opened Text
  import opened Entities
  import opened LineParser

  /** A command after `resolve`: the parsed phrases plus the player and the bound objects. */
  datatype Bound = Bound(cmd: Command, player: Id, direct: Option<Id>, indirect: Option<Id>)

  /** A command ready to run: a well-formed registry, a registered player who typed it, and bound
      objects that are registered. */
  ghost predicate Ready(w: World, b: Bound) {
    && WF(w) && b.player in w.entities && w.entities[b.player].kind.IsPlayer()
    && (b.direct.Some? ==> b.direct.value in w.entities)
    && (b.indirect.Some? ==> b.indirect.value in w.entities)
  }

  /** Every id of the registry order is registered (part of a well-formed registry). */
  lemma OrderRegistered(w: World)
    requires WF(w)
    ensures forall i :: 0 <= i < |w.order| ==> w.order[i] in w.entities
  {
    forall i | 0 <= i < |w.order|
      ensures w.order[i] in w.entities
    {
      assert w.order[i] in w.order;
    }
  }

  /** The whole registry in insertion order: the scope of the world's own `find_*` calls. */
  function Everyone(w: World): (r: seq<Id>)
    requires WF(w)
    ensures forall i :: 0 <= i < |r| ==> r[i] in w.entities
    ensures r == w.order
  {
    OrderRegistered(w);
    w.order
  }

  lemma ContentsRegistered(w: World, x: Id)
    requires WF(w) && x in w.entities
    ensures forall i :: 0 <= i < |w.entities[x].contents| ==> w.entities[x].contents[i] in w.entities
  {
    forall i | 0 <= i < |w.entities[x].contents|
      ensures w.entities[x].contents[i] in w.entities
    {
      assert w.entities[x].contents[i] in w.entities[x].contents;
    }
  }

  /** Where a bare name is looked for: the player's contents, then its location's contents. */
  function NearScope(w: World, player: Id): (r: seq<Id>)
    requires WF(w) && player in w.entities && w.entities[player].location.Some?
    ensures forall i :: 0 <= i < |r| ==> r[i] in w.entities
    ensures r == w.entities[player].contents + w.entities[w.entities[player].location.value].contents
  {
    ContentsRegistered(w, player);
    ContentsRegistered(w, w.entities[player].location.value);
    w.entities[player].contents + w.entities[w.entities[player].location.value].contents
  }

  /** `resolve_object(phrase)`: nothing for a missing or empty phrase; then, on the lower-cased
      phrase, `me`, `here`, `@player`, `#room` and `$id` in that order; otherwise the first entity
      answering to the name among the player's contents and then its location's contents. */
  function ResolveObject(w: World, player: Id, phrase: Option<string>): (r: Res<Option<Id>>)
    requires WF(w) && player in w.entities
    ensures !Truthy(phrase) ==> r == Ok(None)
    ensures Truthy(phrase) && Lower(phrase.value) == "me" ==> r == Ok(Some(player))
    ensures Truthy(phrase) && Lower(phrase.value) == "here" ==> r == Ok(w.entities[player].location)
    ensures Truthy(phrase) && Lower(phrase.value) !in {"me", "here"} ==>
              var n := Lower(phrase.value);
              && (StartsWith(n, "@") ==> r == FindPlayer(w, Everyone(w), Strip(n, {'@'})))
              && (!StartsWith(n, "@") && StartsWith(n, "#") ==> r == FindRoom(w, Everyone(w), Strip(n, {'#'})))
              && (!StartsWith(n, "@") && !StartsWith(n, "#") && StartsWith(n, "$") ==>
                    r == Ok(if Strip(n, {'$'}) in w.entities then Some(Strip(n, {'$'})) else None))
              && (!StartsWith(n, "@") && !StartsWith(n, "#") && !StartsWith(n, "$") ==>
                    if w.entities[player].location.None? then r == Raised(AttributeError)
                    else r == FirstNamed(w, NearScope(w, player), AllSel, n, false))
    ensures r.Ok? && r.value.Some? ==> r.value.value in w.entities
  {
    if !Truthy(phrase) then Ok(None)
    else
      var n := Lower(phrase.value);
      if n == "me" then Ok(Some(player))
      else if n == "here" then Ok(w.entities[player].location)
      else if StartsWith(n, "@") then FindPlayer(w, Everyone(w), Strip(n, {'@'}))
      else if StartsWith(n, "#") then
        FindRoomRegistered(w, Strip(n, {'#'}));
        FindRoom(w, Everyone(w), Strip(n, {'#'}))
      else if StartsWith(n, "$") then
        var id := Strip(n, {'$'});
        Ok(if id in w.entities then Some(id) else None)
      else if w.entities[player].location.None? then Raised(AttributeError)
      else FirstNamed(w, NearScope(w, player), AllSel, n, false)
  }

  /** A room found by name, or the location of a player found by `@name`, is registered. */
  lemma FindRoomRegistered(w: World, name: string)
    requires WF(w)
    ensures var r := FindRoom(w, Everyone(w), name);
            r.Ok? && r.value.Some? ==> r.value.value in w.entities
  {
    var p := FindPlayer(w, Everyone(w), Strip(name, {'@'}));
    if StartsWith(name, "@") && p.Ok? && p.value.Some? {
      assert p.value.value in w.order;
    }
  }

  /** The player's own contents are searched before the room: when something the player holds
      answers to a bare name, the answer is held by the player. */
  lemma {:induction false} InventoryFirst(w: World, player: Id, phrase: string, k: nat)
    requires WF(w) && player in w.entities && w.entities[player].location.Some?
    requires phrase != "" && Lower(phrase) !in {"me", "here"}
    requires !StartsWith(Lower(phrase), "@") && !StartsWith(Lower(phrase), "#") && !StartsWith(Lower(phrase), "$")
    requires k < |w.entities[player].contents|
    requires Answers(w.entities[w.entities[player].contents[k]], Lower(phrase), false)
    ensures var r := ResolveObject(w, player, Some(phrase));
            r.Ok? ==> r.value.Some? && r.value.value in w.entities[player].contents
  {
    var scope := NearScope(w, player);
    var inv := w.entities[player].contents;
    var r := FirstNamed(w, scope, AllSel, Lower(phrase), false);
    assert scope[k] == inv[k];
    if r.Ok? && r.value.Some? {
      {
        var i :| 0 <= i < |scope| && scope[i] == r.value.value
                 && AllSel.Has(w.entities[scope[i]].kind) && Answers(w.entities[scope[i]], Lower(phrase), false)
                 && forall j :: 0 <= j < i && AllSel.Has(w.entities[scope[j]].kind) ==>
                      !Answers(w.entities[scope[j]], Lower(phrase), false) && !Unnamed(w.entities[scope[j]], false);
        assert i < |inv|;
        assert scope[i] == inv[i];
      }
    }
  }

  /** `command.resolve(world, player)`: the direct phrase is bound, then the indirect one. */
  function Resolve(w: World, cmd: Command, player: Id): (r: Res<Bound>)
    requires WF(w) && player in w.entities
    ensures r.Ok? ==> r.value.cmd == cmd && r.value.player == player
    ensures r.Ok? ==> Ok(r.value.direct) == ResolveObject(w, player, cmd.directStr)
                      && Ok(r.value.indirect) == ResolveObject(w, player, cmd.indirectStr)
    ensures r.Raised? ==> ResolveObject(w, player, cmd.directStr).Raised?
                          || ResolveObject(w, player, cmd.indirectStr).Raised?
    ensures r.Ok? && r.value.direct.Some? ==> r.value.direct.value in w.entities
    ensures r.Ok? && r.value.indirect.Some? ==> r.value.indirect.value in w.entities
  {
    var d :- ResolveObject(w, player, cmd.directStr);
    var i :- ResolveObject(w, player, cmd.indirectStr);
    Ok(Bound(cmd, player, d, i))
  }
}

=== FILE: room_verbs.dfy ===
/** The verbs a room answers: `say`, `emote`, `go` and `dig` (and `look`, which a player always
    answers first). `room` is the room whose handler runs. */
module RoomVerbs {
  import opened Wrappers
  import opened Text
  import opened Entities
  import opened RoomView
  import opened Containment
  import opened Relocation
  import opened LineParser
  import opened Resolver

  /** `say`: with a non-empty message, every player in the room, the speaker included, hears
      the speaker say it. Nothing changes. */
  function Say(w: World, room: Id, b: Bound): (r: Step)
    requires Ready(w, b) && room in w.entities
    ensures r.world == w && r.fault.None?
    ensures !Truthy(b.cmd.ArgsStr()) ==> r.log == []
    ensures Truthy(b.cmd.ArgsStr()) ==>
              forall t :: t in r.log <==>
                t.text == Show(w.entities[b.player].name) + " says, \"" + b.cmd.ArgsStr().value + "\""
                && t.to in w.entities[room].contents && w.entities[t.to].kind.IsPlayer()
  {
    WFListed(w, room);
    var message := b.cmd.ArgsStr();
    if Truthy(message) then
      Step(w, Announce(w, room, b.player, Show(w.entities[b.player].name) + " says, \"" + message.value + "\"", false), None)
    else Step(w, [], None)
  }

  /** `emote`: with a non-empty message, every player in the room, the actor included, is told
      the actor's name followed by the message. Nothing changes. */
  function Emote(w: World, room: Id, b: Bound): (r: Step)
    requires Ready(w, b) && room in w.entities
    ensures r.world == w && r.fault.None?
    ensures !Truthy(b.cmd.ArgsStr()) ==> r.log == []
    ensures Truthy(b.cmd.ArgsStr()) ==>
              forall t :: t in r.log <==>
                t.text == Show(w.entities[b.player].name) + " " + b.cmd.ArgsStr().value
                && t.to in w.entities[room].contents && w.entities[t.to].kind.IsPlayer()
  {
    WFListed(w, room);
    var message := b.cmd.ArgsStr();
    if Truthy(message) then
      Step(w, Announce(w, room, b.player, Show(w.entities[b.player].name) + " " + message.value, false), None)
    else Step(w, [], None)
  }

  /** An exit of a well-formed room leads to a registered room id. */
  lemma ExitTargetRegistered(w: World, room: Id, direction: Option<string>)
    requires WF(w) && room in w.entities
    ensures var f := FindExit(w.entities[room].exits, direction);
            f.Ok? && f.value.Some? ==> f.value.value in w.entities
  {
    var f := FindExit(w.entities[room].exits, direction);
    if f.Ok? && f.value.Some? {
      var i :| 0 <= i < |w.entities[room].exits| && w.entities[room].exits[i].target == f.value.value;
      assert w.entities[room].exits[i] in w.entities[room].exits;
    }
  }

  /** `go`: an unknown direction tells the player so and changes nothing; a known one moves the
      player into the room the exit leads to, with the exit and enter hooks telling the rest.
      A missing direction raises when the room has exits. */
  function Go(w: World, room: Id, b: Bound): (r: Step)
    requires Ready(w, b) && room in w.entities
    ensures FindExit(w.entities[room].exits, b.cmd.directStr).Raised? ==> r == Step(w, [], Some(AttributeError))
    ensures FindExit(w.entities[room].exits, b.cmd.directStr) == Ok(None) ==>
              r == Step(w, [Tell(b.player, "You can't go that way.")], None)
    ensures FindExit(w.entities[room].exits, b.cmd.directStr).Ok? && FindExit(w.entities[room].exits, b.cmd.directStr).value.Some? ==>
              var t := FindExit(w.entities[room].exits, b.cmd.directStr).value.value;
              && t in w.entities
              && r == (var m := Relocate(w, b.player, t, b.cmd.directStr); Step(m.world, m.log, None))
  {
    var direction := b.cmd.directStr;
    ExitTargetRegistered(w, room, direction);
    match FindExit(w.entities[room].exits, direction)
    case Raised(f) => Step(w, [], Some(f))
    case Ok(None) => Step(w, [Tell(b.player, "You can't go that way.")], None)
    case Ok(Some(t)) =>
      var mv := Relocate(w, b.player, t, direction);
      Step(mv.world, mv.log, None)
  }

  /** Going through an exit puts the player in the room it leads to and keeps the registry
      well-formed. */
  lemma GoArrives(w: World, room: Id, b: Bound)
    requires Ready(w, b) && room in w.entities
    ensures WF(Go(w, room, b).world)
    ensures var f := FindExit(w.entities[room].exits, b.cmd.directStr);
            f.Ok? && f.value.Some? ==>
              && Go(w, room, b).world.entities[b.player].location == f.value
              && b.player in Go(w, room, b).world.entities[f.value.value].contents
  {
    ExitTargetRegistered(w, room, b.cmd.directStr);
  }

  /** The room `dig` creates: no name, no description, one exit back to where it was dug from. */
  function NewRoom(nid: Id, back: string, from: Id): Entity {
    Entity(nid, RoomKind, None, None, None, [], [Exit(back, from)])
  }

  /** The registry after digging from `room` towards `direction`: the new room is filed and the
      room gains the exit leading to it. */
  function Carve(w: World, room: Id, nid: Id, direction: string, back: string): (r: World)
    requires room in w.entities && nid !in w.entities
    ensures r.entities.Keys == w.entities.Keys + {nid}
    ensures r.order == w.order + [nid]
    ensures r.entities[nid] == NewRoom(nid, back, room)
    ensures r.entities[room] == w.entities[room].(exits := w.entities[room].exits + [Exit(direction, nid)])
    ensures forall z :: z in w.entities && z != room ==> r.entities[z] == w.entities[z]
  {
    var w1 := Put(w, NewRoom(nid, back, room));
    var e := w1.entities[room];
    World(w1.order, w1.entities[room := e.(exits := e.exits + [Exit(direction, nid)])])
  }

  /** `dig`: without a direction, or with one the room already has (ignoring case), tells the
      matching error and changes nothing. Otherwise registers a new room whose only exit leads
      back (by the indirect phrase, or "back"), adds the exit to it, and announces the dig to
      everyone in the room, the digger included. Nobody moves. */
  function Dig(w: World, room: Id, b: Bound, nid: Id): (r: Step)
    requires Ready(w, b) && room in w.entities && nid !in w.entities
    ensures r.fault.None?
    ensures !Truthy(b.cmd.directStr) ==> r == Step(w, [Tell(b.player, "You must give a direction.")], None)
    ensures Truthy(b.cmd.directStr) && FindExit(w.entities[room].exits, b.cmd.directStr).value.Some? ==>
              r == Step(w, [Tell(b.player, "That direction already exists.")], None)
    ensures Truthy(b.cmd.directStr) && FindExit(w.entities[room].exits, b.cmd.directStr).value.None? ==>
              r.world == Carve(w, room, nid, b.cmd.directStr.value,
                               if Truthy(b.cmd.indirectStr) then b.cmd.indirectStr.value else "back")
    ensures Truthy(b.cmd.directStr) && FindExit(w.entities[room].exits, b.cmd.directStr).value.None? ==>
              forall t :: t in r.log <==>
                t.text == Show(w.entities[b.player].name) + " created a room to the " + b.cmd.directStr.value + "."
                && t.to in w.entities[room].contents && w.entities[t.to].kind.IsPlayer()
  {
    var direction := b.cmd.directStr;
    var back := if Truthy(b.cmd.indirectStr) then b.cmd.indirectStr.value else "back";
    if !Truthy(direction) then Step(w, [Tell(b.player, "You must give a direction.")], None)
    else if FindExit(w.entities[room].exits, direction).value.Some? then
      Step(w, [Tell(b.player, "That direction already exists.")], None)
    else
      var w2 := Carve(w, room, nid, direction.value, back);
      WFListed(w, room);
      Step(w2, Announce(w2, room, b.player, Show(w.entities[b.player].name) + " created a room to the " + direction.value + ".", false), None)
  }

  lemma CarveRegistry(w: World, room: Id, nid: Id, direction: string, back: string)
    requires WF(w) && room in w.entities && nid !in w.entities
    ensures RegistryOk(Carve(w, room, nid, direction, back))
  {
    var w2 := Carve(w, room, nid, direction, back);
    assert nid !in w.order;
    forall i, j | 0 <= i < j < |w2.order|
      ensures w2.order[i] != w2.order[j]
    {
      if j == |w.order| {
        assert w2.order[i] in w.order;
      }
    }
    forall id
      ensures id in w2.entities <==> id in w2.order
    {
      assert id in w2.order <==> id in w.order || id == nid;
    }
  }

  lemma CarveContainment(w: World, room: Id, nid: Id, direction: string, back: string)
    requires WF(w) && room in w.entities && nid !in w.entities
    ensures ContainmentOk(Carve(w, room, nid, direction, back))
  {
    var w2 := Carve(w, room, nid, direction, back);
    assert forall z :: z in w.entities ==> w2.entities[z].contents == w.entities[z].contents;
    assert forall z :: z in w.entities ==> w2.entities[z].location == w.entities[z].location;
    GrowContainment(w, w2, nid);
  }

  /** Filing a new entity that sits nowhere and holds nothing, while every other entity keeps its
      location and contents, keeps location and contents in agreement. */
  lemma GrowContainment(w: World, w2: World, nid: Id)
    requires ContainmentOk(w) && nid !in w.entities
    requires w2.entities.Keys == w.entities.Keys + {nid}
    requires w2.entities[nid].location.None? && w2.entities[nid].contents == []
    requires forall z :: z in w.entities ==> w2.entities[z].contents == w.entities[z].contents
    requires forall z :: z in w.entities ==> w2.entities[z].location == w.entities[z].location
    ensures ContainmentOk(w2)
  {
    forall x, y | x in w2.entities && y in w2.entities[x].contents
      ensures y in w2.entities && w2.entities[y].location == Some(x)
    {
      assert x != nid && y in w.entities[x].contents;
    }
    forall y | y in w2.entities && w2.entities[y].location.Some?
      ensures w2.entities[y].location.value in w2.entities
              && y in w2.entities[w2.entities[y].location.value].contents
    {
      assert y != nid;
    }
  }

  lemma CarveExits(w: World, room: Id, nid: Id, direction: string, back: string)
    requires WF(w) && room in w.entities && nid !in w.entities
    ensures ExitsOk(Carve(w, room, nid, direction, back)) && KindsOk(Carve(w, room, nid, direction, back))
  {
    var w2 := Carve(w, room, nid, direction, back);
    forall x, e | x in w2.entities && e in w2.entities[x].exits
      ensures e.target in w2.entities
    {
      if x != room && x != nid {
        assert e in w.entities[x].exits;
      } else if x == room && e != Exit(direction, nid) {
        assert e in w.entities[room].exits;
      }
    }
  }

  /** Digging keeps the registry well-formed: the new room is a location-less room and both new
      exits lead to registered rooms. */
  lemma DigPreservesWF(w: World, room: Id, b: Bound, nid: Id)
    requires Ready(w, b) && room in w.entities && nid !in w.entities
    ensures WF(Dig(w, room, b, nid).world)
  {
    if Truthy(b.cmd.directStr) && FindExit(w.entities[room].exits, b.cmd.directStr).value.None? {
      var back := if Truthy(b.cmd.indirectStr) then b.cmd.indirectStr.value else "back";
      CarveRegistry(w, room, nid, b.cmd.directStr.value, back);
      CarveContainment(w, room, nid, b.cmd.directStr.value, back);
      CarveExits(w, room, nid, b.cmd.directStr.value, back);
    }
  }

  /** `Room.look` reached as a handler receives the command where it expects a player, and
      raises when it tells the command the description. A player always answers `look` first. */
  function RoomLook(w: World, room: Id, b: Bound): (r: Step)
    ensures r == Step(w, [], Some(AttributeError))
  {
    Step(w, [], Some(AttributeError))
  }
}

=== FILE: room_view.dfy ===
/** What a room shows and broadcasts: `find_exit`, `announce`, the `on_enter` / `on_exit` hooks and
    the room description `look` sends. */
module RoomView {
  import opened Wrappers
  import opened Text
  import opened Utils
  import opened Entities

  /** `x` is registered and so is everything it lists as contents. */
  predicate Listed(w: World, x: Id) {
    x in w.entities && forall i :: 0 <= i < |w.entities[x].contents| ==> w.entities[x].contents[i] in w.entities
  }

  lemma WFListed(w: World, x: Id)
    requires WF(w) && x in w.entities
    ensures Listed(w, x)
  {
    forall i | 0 <= i < |w.entities[x].contents|
      ensures w.entities[x].contents[i] in w.entities
    {
      assert w.entities[x].contents[i] in w.entities[x].contents;
    }
  }

  // ---------------------------------------------------------------------------------------
  // Exits.

  /** `find_exit(direction)`: the target of the first exit whose direction equals `direction`
      ignoring case. A None direction raises at the first comparison, so only when there are exits. */
  function FindExit(exits: seq<Exit>, direction: Option<string>): (r: Res<Option<Id>>)
    ensures r.Raised? <==> direction.None? && |exits| > 0
    ensures r.Raised? ==> r.fault == AttributeError
    ensures r.Ok? && r.value.Some? ==>
              exists i :: 0 <= i < |exits| && exits[i].target == r.value.value
                && SameIgnoringCase(exits[i].direction, direction.value)
                && forall j :: 0 <= j < i ==> !SameIgnoringCase(exits[j].direction, direction.value)
    ensures r.Ok? && r.value.None? && direction.Some? ==>
              forall i :: 0 <= i < |exits| ==> !SameIgnoringCase(exits[i].direction, direction.value)
    decreases |exits|
  {
    if |exits| == 0 then Ok(None)
    else if direction.None? then Raised(AttributeError)
    else if SameIgnoringCase(exits[0].direction, direction.value) then Ok(Some(exits[0].target))
    else
      var r := FindExit(exits[1..], direction);
      assert forall i :: 1 <= i < |exits| ==> exits[i] == exits[1..][i - 1];
      r
  }

  /** The direction names of `exits`, in order (`exits.keys()`). */
  function Directions(exits: seq<Exit>): (r: seq<string>)
    ensures |r| == |exits|
    ensures forall i :: 0 <= i < |r| ==> r[i] == exits[i].direction
  {
    seq(|exits|, i requires 0 <= i < |exits| => exits[i].direction)
  }

  // ---------------------------------------------------------------------------------------
  // Broadcasting.

  /** Who hears an announcement among `ids`: the players, less `actor` when `exclude` is set
      (only players record what they are told). */
  function Audience(w: World, ids: seq<Id>, actor: Id, exclude: bool): (r: seq<Id>)
    requires forall i :: 0 <= i < |ids| ==> ids[i] in w.entities
    ensures forall y :: y in r <==> y in ids && w.entities[y].kind.IsPlayer() && !(exclude && y == actor)
    ensures forall i :: 0 <= i < |r| ==> r[i] in w.entities
    ensures !exclude ==> r == Filter(w, ids, PlayersSel)
    decreases |ids|
  {
    if |ids| == 0 then []
    else
      var t := Audience(w, ids[1..], actor, exclude);
      assert forall y :: y in ids[1..] ==> y in ids;
      if w.entities[ids[0]].kind.IsPlayer() && !(exclude && ids[0] == actor) then [ids[0]] + t else t
  }

  /** One tell of `msg` to each of `ids`, in order. */
  function TellAll(ids: seq<Id>, msg: string): (r: seq<Tell>)
    ensures |r| == |ids|
    ensures forall i :: 0 <= i < |r| ==> r[i] == Tell(ids[i], msg)
    ensures forall t :: t in r <==> t.to in ids && t.text == msg
  {
    var r := seq(|ids|, i requires 0 <= i < |ids| => Tell(ids[i], msg));
    assert forall t :: t in r ==> t.to in ids by {
      forall t | t in r ensures t.to in ids {
        var i :| 0 <= i < |r| && r[i] == t;
        assert t.to == ids[i];
      }
    }
    assert forall t: Tell :: t.to in ids && t.text == msg ==> t in r by {
      forall t: Tell | t.to in ids && t.text == msg ensures t in r {
        var i :| 0 <= i < |ids| && ids[i] == t.to;
        assert r[i] == t;
      }
    }
    r
  }

  /** `room.announce(actor, msg, exclude)`: every player among the room's contents is told `msg`,
      in contents order, except `actor` when `exclude` is set. */
  function Announce(w: World, room: Id, actor: Id, msg: string, exclude: bool): (r: seq<Tell>)
    requires Listed(w, room)
    ensures forall t :: t in r <==>
              t.text == msg && t.to in w.entities[room].contents && w.entities[t.to].kind.IsPlayer()
              && !(exclude && t.to == actor)
    ensures exclude ==> forall i :: 0 <= i < |r| ==> r[i].to != actor
  {
    TellAll(Audience(w, w.entities[room].contents, actor, exclude), msg)
  }

  // ---------------------------------------------------------------------------------------
  // Hooks run by `move`.

  /** `container.on_exit(mover, direction)`: in a room, every other player hears that the mover
      left, by the given direction or just "the room"; any other container does nothing. */
  function OnExit(w: World, container: Id, mover: Entity, direction: Option<string>): (r: seq<Tell>)
    requires Listed(w, container)
    ensures !(w.entities[container].kind.IsRoom() && mover.kind.IsPlayer()) ==> r == []
    ensures forall i :: 0 <= i < |r| ==> r[i].to != mover.id
    ensures Truthy(direction) ==>
              forall i :: 0 <= i < |r| ==> r[i].text == Show(mover.name) + " exits " + direction.value + "."
    ensures !Truthy(direction) ==> forall i :: 0 <= i < |r| ==> r[i].text == Show(mover.name) + " exits the room."
    ensures w.entities[container].kind.IsRoom() && mover.kind.IsPlayer() ==>
              forall y :: y in w.entities[container].contents && y != mover.id && w.entities[y].kind.IsPlayer() ==>
                exists i :: 0 <= i < |r| && r[i].to == y
  {
    if w.entities[container].kind.IsRoom() && mover.kind.IsPlayer() then
      var msg := if Truthy(direction) then Show(mover.name) + " exits " + direction.value + "."
                 else Show(mover.name) + " exits the room.";
      var r := Announce(w, container, mover.id, msg, true);
      assert forall t :: t in r ==> t.text == msg;
      forall y | y in w.entities[container].contents && y != mover.id && w.entities[y].kind.IsPlayer()
        ensures exists i :: 0 <= i < |r| && r[i].to == y
      {
        assert Tell(y, msg) in r;
      }
      r
    else []
  }

  /** The players in `room` other than `viewer`, in contents order (`p != player`). */
  function OtherPlayers(w: World, room: Id, viewer: Id): (r: seq<Id>)
    requires Listed(w, room)
    ensures forall y :: y in r <==> y in w.entities[room].contents && w.entities[y].kind.IsPlayer() && y != viewer
    ensures forall i :: 0 <= i < |r| ==> r[i] in w.entities
  {
    Audience(w, w.entities[room].contents, viewer, true)
  }

  /** The non-players in `room`, in contents order. */
  function ThingsHere(w: World, room: Id): (r: seq<Id>)
    requires Listed(w, room)
    ensures forall y :: y in r <==> y in w.entities[room].contents && !w.entities[y].kind.IsPlayer()
    ensures forall i :: 0 <= i < |r| ==> r[i] in w.entities
  {
    Filter(w, w.entities[room].contents, ThingsSel)
  }

  /** The title line of a named room. */
  function TitleLines(e: Entity): (r: seq<string>)
    ensures |r| == (if Truthy(e.name) then 1 else 0)
    ensures |r| == 1 ==> r[0] == "*** " + e.name.value + " ***"
  {
    if Truthy(e.name) then ["*** " + e.name.value + " ***"] else []
  }

  /** The exits line of a room with exits. */
  function ExitLines(e: Entity): (r: seq<string>)
    ensures |r| == (if |e.exits| > 0 then 1 else 0)
    ensures |r| == 1 ==> r[0] == "You can go " + JoinStrings(Directions(e.exits), "or") + "."
  {
    if |e.exits| > 0 then ["You can go " + JoinStrings(Directions(e.exits), "or") + "."] else []
  }

  /** The line naming the other players, when there are any. */
  function PeopleLines(w: World, room: Id, viewer: Id): (r: seq<string>)
    requires Listed(w, room)
    ensures |r| == (if |OtherPlayers(w, room, viewer)| > 0 then 1 else 0)
    ensures |r| == 1 ==>
              r[0] == JoinStrings(Names(w, OtherPlayers(w, room, viewer)), "and")
                      + (if |OtherPlayers(w, room, viewer)| > 1 then " are here." else " is here.")
  {
    var others := OtherPlayers(w, room, viewer);
    if |others| > 0 then [JoinStrings(Names(w, others), "and") + (if |others| > 1 then " are here." else " is here.")]
    else []
  }

  /** The line naming the things, when there are any. */
  function ThingLines(w: World, room: Id): (r: seq<string>)
    requires Listed(w, room)
    ensures |r| == (if |ThingsHere(w, room)| > 0 then 1 else 0)
    ensures |r| == 1 ==> r[0] == "There is " + JoinStrings(Names(w, ThingsHere(w, room)), "and") + " here."
  {
    var things := ThingsHere(w, room);
    if |things| > 0 then ["There is " + JoinStrings(Names(w, things), "and") + " here."] else []
  }

  /** The description's lines: an optional title, the description line, then optional exits,
      players and things lines. */
  function Layout(title: seq<string>, desc: string, exits: seq<string>, people: seq<string>, things: seq<string>): (r: seq<string>)
    requires |title| <= 1 && |exits| <= 1 && |people| <= 1 && |things| <= 1
    ensures |r| == |title| + 1 + |exits| + |people| + |things|
    ensures |title| == 1 ==> r[0] == title[0]
    ensures r[|title|] == desc
    ensures |exits| == 1 ==> r[|title| + 1] == exits[0]
    ensures |people| == 1 ==> r[|title| + 1 + |exits|] == people[0]
    ensures |things| == 1 ==> r[|r| - 1] == things[0]
  {
    title + [desc] + exits + people + things
  }

  /** `room.look(viewer)`'s lines, in order: the title when the room has a name, the description
      or a default, the exits, the other players with the verb agreeing in number, and the things. */
  function LookLines(w: World, room: Id, viewer: Id): (r: seq<string>)
    requires Listed(w, room)
    ensures |r| == |TitleLines(w.entities[room])| + 1 + |ExitLines(w.entities[room])|
                   + |PeopleLines(w, room, viewer)| + |ThingLines(w, room)|
    ensures Truthy(w.entities[room].name) ==> r[0] == TitleLines(w.entities[room])[0]
    ensures r[|TitleLines(w.entities[room])|] ==
              (if Truthy(w.entities[room].description) then w.entities[room].description.value
               else "You see nothing here.")
    ensures |w.entities[room].exits| > 0 ==>
              r[|TitleLines(w.entities[room])| + 1] == ExitLines(w.entities[room])[0]
    ensures |OtherPlayers(w, room, viewer)| > 0 ==>
              r[|TitleLines(w.entities[room])| + 1 + |ExitLines(w.entities[room])|] == PeopleLines(w, room, viewer)[0]
    ensures |ThingsHere(w, room)| > 0 ==> r[|r| - 1] == ThingLines(w, room)[0]
  {
    var e := w.entities[room];
    var desc := if Truthy(e.description) then e.description.value else "You see nothing here.";
    Layout(TitleLines(e), desc, ExitLines(e), PeopleLines(w, room, viewer), ThingLines(w, room))
  }

  /** The names of `ids`, in order, as the description prints them. */
  function Names(w: World, ids: seq<Id>): (r: seq<string>)
    requires forall i :: 0 <= i < |ids| ==> ids[i] in w.entities
    ensures |r| == |ids|
    ensures forall i :: 0 <= i < |r| ==> r[i] == Show(w.entities[ids[i]].name)
  {
    seq(|ids|, i requires 0 <= i < |ids| => Show(w.entities[ids[i]].name))
  }

  /** The single tell `room.look(viewer)` sends: the lines joined by newlines, to the viewer. */
  function Look(w: World, room: Id, viewer: Id): (r: Tell)
    requires Listed(w, room)
    ensures r.to == viewer
  {
    Tell(viewer, Join(LookLines(w, room, viewer), "\n"))
  }

  /** When no line holds a newline of its own, the viewer can split the tell back into the lines. */
  lemma LookSplitsIntoLines(w: World, room: Id, viewer: Id)
    requires Listed(w, room)
    requires forall i :: 0 <= i < |LookLines(w, room, viewer)| ==> '\n' !in LookLines(w, room, viewer)[i]
    ensures Split(Look(w, room, viewer).text, '\n') == LookLines(w, room, viewer)
  {
    SplitJoin(LookLines(w, room, viewer), '\n');
  }

  /** `container.on_enter(mover)`: in a room, every other player hears that the mover entered,
      then the mover is shown the room; any other container does nothing. */
  function OnEnter(w: World, container: Id, mover: Id): (r: seq<Tell>)
    requires Listed(w, container) && mover in w.entities
    ensures !(w.entities[container].kind.IsRoom() && w.entities[mover].kind.IsPlayer()) ==> r == []
    ensures w.entities[container].kind.IsRoom() && w.entities[mover].kind.IsPlayer() ==>
              |r| > 0 && r[|r| - 1] == Look(w, container, mover)
              && forall i :: 0 <= i < |r| - 1 ==>
                   r[i].to != mover && r[i].text == Show(w.entities[mover].name) + " enters the room."
  {
    if w.entities[container].kind.IsRoom() && w.entities[mover].kind.IsPlayer() then
      Announce(w, container, mover, Show(w.entities[mover].name) + " enters the room.", true)
        + [Look(w, container, mover)]
    else []
  }
}

=== FILE: snapshot.dfy ===
/** The world snapshot: `save` writes one record per registered entity; `load` rebuilds the
    registry from a document of records in two passes (file each entity and collect children by
    location id, then give each registered container its collected children). The JSON text
    itself is outside the model: a document is the sequence of records in the order the
    decoder yields them. */
module Snapshot {
  import opened Wrappers
  import opened Entities
  import opened Registry

  /** What a record's type tag names in the world module: an entity class, or nothing. */
  datatype Tag = Class(kind: Kind) | Unknown

  /** The class name `save` writes for each kind. */
  function ClassName(k: Kind): string {
    match k
    case RoomKind => "Room"
    case PlayerKind => "Player"
    case AIPlayerKind => "AIPlayer"
    case ObjectKind => "Object"
    case BallKind => "Ball"
    case BaseKind => "Base"
  }

  /** Looking a type tag up among the world module's classes. */
  function TagNamed(name: string): (r: Tag)
    ensures r.Class? ==> ClassName(r.kind) == name
    ensures r.Unknown? ==> forall k: Kind :: ClassName(k) != name
  {
    if name == "Room" then Class(RoomKind)
    else if name == "Player" then Class(PlayerKind)
    else if name == "AIPlayer" then Class(AIPlayerKind)
    else if name == "Object" then Class(ObjectKind)
    else if name == "Ball" then Class(BallKind)
    else if name == "Base" then Class(BaseKind)
    else Unknown
  }

  /** Reading back a written class name gives the kind it was written for. */
  lemma ClassNameRoundTrip(k: Kind)
    ensures TagNamed(ClassName(k)) == Class(k)
  {
  }

  /** One entity's `json_dictionary`: its type tag, id, name, description, location id, and for
      a room its exits. */
  datatype Record = Record(tag: string, id: Id, name: Option<string>, description: Option<string>,
                           location: Option<Id>, exits: seq<Exit>)

  /** The record `json_dictionary` gives: a location whose id is empty is written as none. */
  function Saved(e: Entity): (r: Record)
    ensures TagNamed(r.tag) == Class(e.kind) && r.id == e.id
    ensures r.name == e.name && r.description == e.description
    ensures Truthy(e.location) ==> r.location == e.location
    ensures !Truthy(e.location) ==> r.location.None?
    ensures e.kind == RoomKind ==> r.exits == e.exits
    ensures e.kind != RoomKind ==> r.exits == []
  {
    Record(ClassName(e.kind), e.id, e.name, e.description,
           if Truthy(e.location) then e.location else None,
           if e.kind == RoomKind then e.exits else [])
  }

  /** `save`: one record per registered entity, in registry order. */
  function Save(w: World): (r: seq<Record>)
    requires WF(w)
    ensures |r| == |w.order|
    ensures forall i :: 0 <= i < |r| ==> w.order[i] in w.entities && r[i] == Saved(w.entities[w.order[i]])
  {
    Everything(w, w.order)
  }

  function Everything(w: World, ids: seq<Id>): (r: seq<Record>)
    requires forall id :: id in ids ==> id in w.entities
    ensures |r| == |ids|
    ensures forall i :: 0 <= i < |r| ==> ids[i] in w.entities && r[i] == Saved(w.entities[ids[i]])
  {
    if |ids| == 0 then [] else [Saved(w.entities[ids[0]])] + Everything(w, ids[1..])
  }

  // ---------------------------------------------------------------------------------------
  // load

  /** A record whose tag names a class; the others are skipped. */
  predicate Loads(rec: Record) {
    TagNamed(rec.tag).Class?
  }

  /** The entity `cls(**record)` builds: no contents yet, and the location still an id. */
  function FromRecord(rec: Record): (r: Entity)
    requires Loads(rec)
    ensures r.id == rec.id && r.contents == []
    ensures Truthy(rec.location) && (r.kind == RoomKind || rec.exits == []) ==> Saved(r) == rec
  {
    Entity(rec.id, TagNamed(rec.tag).kind, rec.name, rec.description, rec.location, [], rec.exits)
  }

  /** The state of the first pass: the registry so far and the children collected per location id. */
  datatype Built = Built(world: World, kids: map<Id, seq<Id>>)

  /** The first pass over one record: an unknown tag is skipped; otherwise the entity is filed
      and, when it has a location id, listed under that id. */
  function Absorb(p: Built, rec: Record): (r: Built)
    ensures !Loads(rec) ==> r == p
    ensures Loads(rec) ==> r.world.entities == p.world.entities[rec.id := FromRecord(rec)]
    ensures Loads(rec) && Truthy(rec.location) ==>
              rec.location.value in r.kids && rec.id in r.kids[rec.location.value]
    ensures forall l :: l in p.kids && !(Loads(rec) && Truthy(rec.location) && l == rec.location.value) ==>
              l in r.kids && r.kids[l] == p.kids[l]
  {
    if !Loads(rec) then p
    else
      var kids :=
        if Truthy(rec.location) then
          var l := rec.location.value;
          p.kids[l := Append(if l in p.kids then p.kids[l] else [], rec.id)]
        else p.kids;
      Built(Put(p.world, FromRecord(rec)), kids)
  }

  /** The first pass over a whole document, starting from the registry `w0`. */
  function FirstPass(w0: World, doc: seq<Record>): (r: Built)
    ensures forall id :: id in w0.entities && id !in LoadedIds(doc) ==>
              id in r.world.entities && r.world.entities[id] == w0.entities[id]
    ensures (forall i :: 0 <= i < |doc| ==> !Loads(doc[i])) ==> r == Built(w0, map[])
    decreases |doc|
  {
    if |doc| == 0 then Built(w0, map[])
    else
      LoadedIdsStep(doc[..|doc| - 1], doc[|doc| - 1]);
      assert doc[..|doc| - 1] + [doc[|doc| - 1]] == doc;
      Absorb(FirstPass(w0, doc[..|doc| - 1]), doc[|doc| - 1])
  }

  /** The second pass: each registered id that collected children gets them as its contents. The
      third pass of the source, swapping location ids for entities, changes nothing here, where
      a location is always an id. */
  function SecondPass(p: Built): (r: World)
    ensures r.order == p.world.order && r.entities.Keys == p.world.entities.Keys
    ensures forall id :: id in r.entities ==>
              r.entities[id] == p.world.entities[id].(contents := r.entities[id].contents)
    ensures forall id :: id in r.entities && id in p.kids ==> r.entities[id].contents == p.kids[id]
    ensures forall id :: id in r.entities && id !in p.kids ==> r.entities[id] == p.world.entities[id]
  {
    World(p.world.order,
          map id | id in p.world.entities ::
            if id in p.kids then p.world.entities[id].(contents := p.kids[id]) else p.world.entities[id])
  }

  /** `world.load()` on the registry `w0`. */
  function LoadInto(w0: World, doc: seq<Record>): (r: World)
    ensures r.entities.Keys == w0.entities.Keys + LoadedIds(doc)
    ensures forall id :: id in w0.entities && id !in LoadedIds(doc) ==>
              r.entities[id] == w0.entities[id].(contents := r.entities[id].contents)
    ensures (forall i :: 0 <= i < |doc| ==> !Loads(doc[i])) ==> r == w0
  {
    FirstPassKeys(w0, doc);
    var r := SecondPass(FirstPass(w0, doc));
    assert (forall i :: 0 <= i < |doc| ==> !Loads(doc[i])) ==> r.entities == w0.entities;
    r
  }

  /** Loading into a freshly constructed world. */
  function Load(doc: seq<Record>): (r: World)
    ensures Root in r.entities
  {
    LoadInto(NewWorld(), doc)
  }

  /** A document in which no record loads (an empty file among them) leaves the fresh world. */
  lemma LoadNothing(doc: seq<Record>)
    requires forall i :: 0 <= i < |doc| ==> !Loads(doc[i])
    ensures Load(doc) == NewWorld()
  {
  }

  // ---------------------------------------------------------------------------------------
  // What the passes compute

  /** The ids of the records that load. */
  ghost function LoadedIds(doc: seq<Record>): set<Id> {
    set i | 0 <= i < |doc| && Loads(doc[i]) :: doc[i].id
  }

  /** The ids of the loading records whose location id is `c`. */
  ghost function ChildIds(doc: seq<Record>, c: Id): set<Id> {
    set i | 0 <= i < |doc| && Loads(doc[i]) && Truthy(doc[i].location) && doc[i].location.value == c :: doc[i].id
  }

  /** Record `i` loads and no later loading record has its id, so it is the one that stays. */
  ghost predicate Latest(doc: seq<Record>, i: int) {
    0 <= i < |doc| && Loads(doc[i]) && forall j :: i < j < |doc| && Loads(doc[j]) ==> doc[j].id != doc[i].id
  }

  lemma LoadedIdsStep(doc: seq<Record>, rec: Record)
    ensures LoadedIds(doc + [rec]) == LoadedIds(doc) + (if Loads(rec) then {rec.id} else {})
    ensures forall c :: ChildIds(doc + [rec], c) ==
              ChildIds(doc, c) + (if Loads(rec) && Truthy(rec.location) && rec.location.value == c then {rec.id} else {})
  {
    var d := doc + [rec];
    assert forall i :: 0 <= i < |doc| ==> d[i] == doc[i];
    assert d[|doc|] == rec;
  }

  /** The first pass files exactly the loading records' ids on top of `w0`. */
  lemma {:induction false} FirstPassKeys(w0: World, doc: seq<Record>)
    ensures FirstPass(w0, doc).world.entities.Keys == w0.entities.Keys + LoadedIds(doc)
    ensures forall id :: id in w0.entities && id !in LoadedIds(doc) ==>
              FirstPass(w0, doc).world.entities[id] == w0.entities[id]
    decreases |doc|
  {
    if |doc| > 0 {
      var init := doc[..|doc| - 1];
      assert doc == init + [doc[|doc| - 1]];
      FirstPassKeys(w0, init);
      LoadedIdsStep(init, doc[|doc| - 1]);
    }
  }

  /** The entity filed under a record's id is built from the last loading record with that id. */
  lemma {:induction false} FirstPassLatest(w0: World, doc: seq<Record>)
    ensures forall i :: Latest(doc, i) ==>
              doc[i].id in FirstPass(w0, doc).world.entities && FirstPass(w0, doc).world.entities[doc[i].id] == FromRecord(doc[i])
    decreases |doc|
  {
    if |doc| > 0 {
      var init := doc[..|doc| - 1];
      var rec := doc[|doc| - 1];
      assert doc == init + [rec];
      FirstPassLatest(w0, init);
      forall i | Latest(doc, i)
        ensures doc[i].id in FirstPass(w0, doc).world.entities && FirstPass(w0, doc).world.entities[doc[i].id] == FromRecord(doc[i])
      {
        if i < |doc| - 1 {
          assert doc[i] == init[i];
          assert Latest(init, i);
        }
      }
    }
  }

  /** The children collected under `c` are exactly the loading records located at `c`, once each. */
  lemma {:induction false} FirstPassKids(w0: World, doc: seq<Record>)
    ensures forall c :: c in FirstPass(w0, doc).kids <==> ChildIds(doc, c) != {}
    ensures forall c, y :: c in FirstPass(w0, doc).kids ==> (y in FirstPass(w0, doc).kids[c] <==> y in ChildIds(doc, c))
    ensures forall c :: c in FirstPass(w0, doc).kids ==> NoDups(FirstPass(w0, doc).kids[c])
    decreases |doc|
  {
    if |doc| > 0 {
      var init := doc[..|doc| - 1];
      var rec := doc[|doc| - 1];
      assert doc == init + [rec];
      FirstPassKids(w0, init);
      LoadedIdsStep(init, rec);
    } else {
      forall c
        ensures ChildIds(doc, c) == {}
      {
      }
    }
  }

  /** Entities built by the first pass hold nothing yet, so with an empty start every
      container's contents come from the second pass alone. */
  lemma {:induction false} FirstPassEmpty(w0: World, doc: seq<Record>)
    requires forall id :: id in w0.entities ==> w0.entities[id].contents == []
    ensures forall id :: id in FirstPass(w0, doc).world.entities ==> FirstPass(w0, doc).world.entities[id].contents == []
    decreases |doc|
  {
    if |doc| > 0 {
      FirstPassEmpty(w0, doc[..|doc| - 1]);
    }
  }

  /** What `load` into a fresh world gives: the root room plus one entity per loading id, each
      built from the last record with that id, and each registered container holding exactly
      the loaded entities whose location id names it. */
  lemma LoadShape(doc: seq<Record>)
    ensures Load(doc).entities.Keys == {Root} + LoadedIds(doc)
    ensures forall i :: Latest(doc, i) ==>
              Load(doc).entities[doc[i].id] == FromRecord(doc[i]).(contents := Load(doc).entities[doc[i].id].contents)
    ensures forall c, y :: c in Load(doc).entities ==> (y in Load(doc).entities[c].contents <==> y in ChildIds(doc, c))
  {
    var p := FirstPass(NewWorld(), doc);
    FirstPassKeys(NewWorld(), doc);
    FirstPassLatest(NewWorld(), doc);
    FirstPassKids(NewWorld(), doc);
    FirstPassEmpty(NewWorld(), doc);
    var r := Load(doc);
    forall c, y | c in r.entities
      ensures y in r.entities[c].contents <==> y in ChildIds(doc, c)
    {
      if c !in p.kids {
        assert r.entities[c].contents == [];
      }
    }
  }

  // ---------------------------------------------------------------------------------------
  // Round trip

  /** Two registries describe the same world: the same ids, and per id the same class, name,
      description and location, the same exits for rooms, and the same contents as sets. */
  ghost predicate SameGraph(w: World, v: World) {
    && w.entities.Keys == v.entities.Keys
    && (forall id :: id in w.entities ==>
          && v.entities[id].kind == w.entities[id].kind
          && v.entities[id].name == w.entities[id].name
          && v.entities[id].description == w.entities[id].description
          && v.entities[id].location == w.entities[id].location)
    && (forall id :: id in w.entities && w.entities[id].kind == RoomKind ==> v.entities[id].exits == w.entities[id].exits)
    && (forall id, y :: id in w.entities ==> (y in v.entities[id].contents <==> y in w.entities[id].contents))
  }

  /** The saved records of `w`, listed in any order: each loads and is the record of its entity,
      and every entity has one. */
  lemma ListedRecords(w: World, d: seq<Record>)
    requires WF(w)
    requires forall x :: x in d <==> x in Save(w)
    ensures forall i :: 0 <= i < |d| ==> Loads(d[i]) && d[i].id in w.entities && d[i] == Saved(w.entities[d[i].id])
    ensures LoadedIds(d) == w.entities.Keys
  {
    var s := Save(w);
    forall i | 0 <= i < |d|
      ensures Loads(d[i]) && d[i].id in w.entities && d[i] == Saved(w.entities[d[i].id])
    {
      assert d[i] in s;
      var k :| 0 <= k < |s| && s[k] == d[i];
      assert w.entities[w.order[k]].id == w.order[k];
    }
    forall id | id in w.entities
      ensures id in LoadedIds(d)
    {
      assert id in w.order;
      var k :| 0 <= k < |w.order| && w.order[k] == id;
      assert w.entities[w.order[k]].id == w.order[k];
      assert s[k] in d;
      var i :| 0 <= i < |d| && d[i] == s[k];
    }
  }

  /** Saving a well-formed world and loading any document that lists the saved records, each
      id once and in any order (the encoder sorts keys), gives back the same world. The empty
      id is excluded: `save` writes a location with that id as none. */
  lemma RoundTrip(w: World, d: seq<Record>)
    requires WF(w) && "" !in w.entities
    requires forall x :: x in d <==> x in Save(w)
    requires forall i, j :: 0 <= i < j < |d| ==> d[i].id != d[j].id
    ensures SameGraph(w, Load(d))
  {
    var v := Load(d);
    ListedRecords(w, d);
    RoundTripEntries(w, d);
    LoadShape(d);
    forall c, y | c in w.entities
      ensures y in v.entities[c].contents <==> y in w.entities[c].contents
    {
      RoundTripContents(w, d, c, y);
    }
  }

  /** Each entity of the round trip is rebuilt from its own record, with its own location. */
  lemma RoundTripEntries(w: World, d: seq<Record>)
    requires WF(w) && "" !in w.entities
    requires forall i :: 0 <= i < |d| ==> Loads(d[i]) && d[i].id in w.entities && d[i] == Saved(w.entities[d[i].id])
    requires LoadedIds(d) == w.entities.Keys
    requires forall i, j :: 0 <= i < j < |d| ==> d[i].id != d[j].id
    ensures forall id :: id in w.entities ==>
              && id in Load(d).entities
              && Load(d).entities[id] == FromRecord(Saved(w.entities[id])).(contents := Load(d).entities[id].contents)
              && Load(d).entities[id].location == w.entities[id].location
  {
    var v := Load(d);
    LoadShape(d);
    forall id | id in w.entities
      ensures v.entities[id] == FromRecord(Saved(w.entities[id])).(contents := v.entities[id].contents)
    {
      var i :| 0 <= i < |d| && Loads(d[i]) && d[i].id == id;
      assert Latest(d, i);
    }
    forall id | id in w.entities
      ensures v.entities[id].location == w.entities[id].location
    {
      var l := w.entities[id].location;
      if l.Some? {
        assert l.value in w.entities;
      }
    }
  }

  lemma RoundTripContents(w: World, d: seq<Record>, c: Id, y: Id)
    requires WF(w) && "" !in w.entities && c in w.entities
    requires forall i :: 0 <= i < |d| ==> Loads(d[i]) && d[i].id in w.entities && d[i] == Saved(w.entities[d[i].id])
    requires LoadedIds(d) == w.entities.Keys
    ensures y in ChildIds(d, c) <==> y in w.entities[c].contents
  {
    if y in w.entities[c].contents {
      assert y in w.entities && w.entities[y].location == Some(c);
      var i :| 0 <= i < |d| && Loads(d[i]) && d[i].id == y;
      assert d[i].location == Some(c);
    }
    if y in ChildIds(d, c) {
      var i :| 0 <= i < |d| && Loads(d[i]) && Truthy(d[i].location) && d[i].location.value == c && d[i].id == y;
      assert w.entities[y].location == Some(c);
    }
  }

  /** In particular, loading exactly what `save` wrote gives back the same world. */
  lemma SaveThenLoad(w: World)
    requires WF(w) && "" !in w.entities
    ensures SameGraph(w, Load(Save(w)))
  {
    var s := Save(w);
    forall i, j | 0 <= i < j < |s|
      ensures s[i].id != s[j].id
    {
      assert w.entities[w.order[i]].id == w.order[i];
      assert w.entities[w.order[j]].id == w.order[j];
    }
    RoundTrip(w, s);
  }
}

=== FILE: text.dfy ===
/** The Python `str` operations the engine relies on, with their CPython meaning:
    `lower`, `strip(chars)`, `split(sep)`, `sep.join(parts)`, `find(sub)` and `startswith`. */
module Text {

  /** `c.lower()` on one character. Only ASCII letters are mapped. */
  function LowerChar(c: char): char {
    if 'A' <= c <= 'Z' then (c as int + 32) as char else c
  }

  /** `s.lower()`: every upper-case ASCII letter replaced by its lower-case partner. */
  function Lower(s: string): (r: string)
    ensures |r| == |s|
    ensures forall i :: 0 <= i < |r| ==> !('A' <= r[i] <= 'Z')
    ensures forall i :: 0 <= i < |s| && !('A' <= s[i] <= 'Z') ==> r[i] == s[i]
  {
    seq(|s|, i requires 0 <= i < |s| => LowerChar(s[i]))
  }

  /** Text without upper-case letters is its own lower case. */
  lemma LowerPlain(s: string)
    requires forall i :: 0 <= i < |s| ==> !('A' <= s[i] <= 'Z')
    ensures Lower(s) == s
  {
  }

  /** Lower-casing is idempotent, so comparing `a.lower() == b.lower()` is an equivalence. */
  lemma LowerIdempotent(s: string)
    ensures Lower(Lower(s)) == Lower(s)
  {
  }

  /** `a.lower() == b.lower()`. */
  predicate SameIgnoringCase(a: string, b: string) {
    Lower(a) == Lower(b)
  }

  /** The characters for which CPython's `str.isspace()` holds; `s.strip()` removes these. */
  const Whitespace: set<char> :=
    {' ', '\t', '\n', '\r', '\U{000B}', '\U{000C}', '\U{001C}', '\U{001D}', '\U{001E}', '\U{001F}',
     '\U{0085}', '\U{00A0}', '\U{1680}', '\U{2000}', '\U{2001}', '\U{2002}', '\U{2003}', '\U{2004}',
     '\U{2005}', '\U{2006}', '\U{2007}', '\U{2008}', '\U{2009}', '\U{200A}', '\U{2028}', '\U{2029}',
     '\U{202F}', '\U{205F}', '\U{3000}'}

  /** Length of the longest prefix of `s` made of characters of `cs`. */
  function LeftCut(s: string, cs: set<char>): (i: nat)
    ensures i <= |s|
    ensures forall k :: 0 <= k < i ==> s[k] in cs
    ensures i < |s| ==> s[i] !in cs
    decreases |s|
  {
    if |s| > 0 && s[0] in cs then 1 + LeftCut(s[1..], cs) else 0
  }

  /** Start of the longest suffix of `s` made of characters of `cs`. */
  function RightCut(s: string, cs: set<char>): (j: nat)
    ensures j <= |s|
    ensures forall k :: j <= k < |s| ==> s[k] in cs
    ensures j > 0 ==> s[j - 1] !in cs
    decreases |s|
  {
    if |s| > 0 && s[|s| - 1] in cs then RightCut(s[..|s| - 1], cs) else |s|
  }

  /** `r` is `s` with the first `i` characters and everything after `i + |r|` removed, and every
      removed character is drawn from `cs`. */
  predicate TrimmedAt(s: string, cs: set<char>, i: int, r: string) {
    && 0 <= i <= |s| - |r|
    && r == s[i..i + |r|]
    && (forall k :: 0 <= k < i ==> s[k] in cs)
    && (forall k :: i + |r| <= k < |s| ==> s[k] in cs)
  }

  /** `s.strip(cs)`: `s` without its leading and trailing characters drawn from `cs`. */
  function Strip(s: string, cs: set<char>): (r: string)
    ensures |r| <= |s|
    ensures exists i :: TrimmedAt(s, cs, i, r)
    ensures |r| > 0 ==> r[0] !in cs && r[|r| - 1] !in cs
  {
    var t := s[LeftCut(s, cs)..];
    var r := t[..RightCut(t, cs)];
    assert TrimmedAt(s, cs, LeftCut(s, cs), r);
    r
  }

  /** The stripped text is determined by its bounds: a middle part that neither starts nor ends
      with a character of `cs`, surrounded only by characters of `cs`, is the result. */
  lemma StripUnique(s: string, cs: set<char>, i: nat, r: string)
    requires TrimmedAt(s, cs, i, r)
    requires |r| > 0 && r[0] !in cs && r[|r| - 1] !in cs
    ensures Strip(s, cs) == r
  {
    var t := s[LeftCut(s, cs)..];
    assert LeftCut(s, cs) == i by {
      assert s[i] == r[0];
    }
    assert t == s[i..];
    assert RightCut(t, cs) == |r| by {
      assert t[|r| - 1] == r[|r| - 1];
      assert forall k :: |r| <= k < |t| ==> t[k] == s[i + k];
    }
  }

  /** Stripping twice removes nothing more. */
  lemma StripIdempotent(s: string, cs: set<char>)
    ensures Strip(Strip(s, cs), cs) == Strip(s, cs)
  {
    var r := Strip(s, cs);
    var rr := Strip(r, cs);
    if |r| > 0 {
      assert LeftCut(r, cs) == 0;
      assert RightCut(r, cs) == |r|;
    } else {
      assert rr == "";
    }
  }

  /** Index of the first `c` in `s`, or -1 (`s.find(c)` for one character). */
  function IndexOf(s: string, c: char): (r: int)
    ensures -1 <= r < |s|
    ensures r == -1 <==> c !in s
    ensures r >= 0 ==> s[r] == c && c !in s[..r]
    decreases |s|
  {
    if |s| == 0 then -1
    else if s[0] == c then 0
    else
      var k := IndexOf(s[1..], c);
      assert s[1..][..if k < 0 then 0 else k] == s[1..if k < 0 then 1 else k + 1];
      if k < 0 then -1 else k + 1
  }

  /** `s.split(sep)` for a one-character separator: the pieces between successive separators,
      empty pieces included. */
  function Split(s: string, sep: char): (r: seq<string>)
    ensures |r| >= 1
    ensures forall i :: 0 <= i < |r| ==> sep !in r[i]
    decreases |s|
  {
    var i := IndexOf(s, sep);
    if i < 0 then [s] else [s[..i]] + Split(s[i + 1..], sep)
  }

  /** The first separator decides the first piece; the rest is the split of what follows it. */
  lemma SplitFirst(s: string, sep: char)
    ensures IndexOf(s, sep) < 0 ==> Split(s, sep) == [s]
    ensures IndexOf(s, sep) >= 0 ==>
              |Split(s, sep)| > 1 && Split(s, sep)[1..] == Split(s[IndexOf(s, sep) + 1..], sep)
  {
  }

  /** `sep.join(parts)`. */
  function Join(parts: seq<string>, sep: string): string
    decreases |parts|
  {
    if |parts| == 0 then ""
    else if |parts| == 1 then parts[0]
    else parts[0] + sep + Join(parts[1..], sep)
  }

  lemma JoinCons(a: string, t: seq<string>, sep: string)
    requires |t| >= 1
    ensures Join([a] + t, sep) == a + sep + Join(t, sep)
  {
    assert ([a] + t)[1..] == t;
  }

  /** Joining the pieces of a split with the separator gives back the original text. */
  lemma {:induction false} JoinSplit(s: string, sep: char)
    ensures Join(Split(s, sep), [sep]) == s
    decreases |s|
  {
    var i := IndexOf(s, sep);
    if i < 0 {
      assert Split(s, sep) == [s];
    } else {
      var head := s[..i];
      var rest := s[i + 1..];
      var tail := Split(rest, sep);
      assert Split(s, sep) == [head] + tail;
      JoinSplit(rest, sep);
      JoinCons(head, tail, [sep]);
      Recompose(s, i, head, rest);
    }
  }

  /** A text is the part before position `i`, the character there, and the part after it. */
  lemma Recompose(s: string, i: nat, head: string, rest: string)
    requires i < |s| && head == s[..i] && rest == s[i + 1..]
    ensures head + [s[i]] + rest == s
  {
  }

  /** A separator with none before it is the one `IndexOf` finds. */
  lemma IndexOfAt(s: string, c: char, i: nat)
    requires i < |s| && s[i] == c && c !in s[..i]
    ensures IndexOf(s, c) == i
  {
    assert s[i] == c;
  }

  /** Splitting a join of separator-free pieces gives back the pieces. */
  lemma {:induction false} SplitJoin(parts: seq<string>, sep: char)
    requires |parts| >= 1
    requires forall i :: 0 <= i < |parts| ==> sep !in parts[i]
    ensures Split(Join(parts, [sep]), sep) == parts
    decreases |parts|
  {
    if |parts| == 1 {
      assert IndexOf(parts[0], sep) == -1;
    } else {
      var p := parts[0];
      var tail := parts[1..];
      var rest := Join(tail, [sep]);
      var s := p + [sep] + rest;
      assert parts == [p] + tail;
      JoinCons(p, tail, [sep]);
      assert s[..|p|] == p;
      IndexOfAt(s, sep, |p|);
      assert s[|p| + 1..] == rest;
      assert Split(s, sep) == [p] + Split(rest, sep);
      SplitJoin(tail, sep);
    }
  }

  /** `sub` occurs in `s` starting at position `i`. */
  predicate OccursAt(s: string, sub: string, i: int) {
    0 <= i && i + |sub| <= |s| && s[i..i + |sub|] == sub
  }

  /** First occurrence of `sub` in `s` at or after `from`, or -1. */
  function FindFrom(s: string, sub: string, from: nat): (r: int)
    requires from <= |s| + 1
    ensures r == -1 || (from <= r && OccursAt(s, sub, r))
    ensures forall i :: from <= i && (r == -1 || i < r) ==> !OccursAt(s, sub, i)
    decreases |s| + 1 - from
  {
    if from + |sub| > |s| then -1
    else if s[from..from + |sub|] == sub then from
    else FindFrom(s, sub, from + 1)
  }

  /** `s.find(sub)`: the least index at which `sub` occurs in `s`, or -1. */
  function Find(s: string, sub: string): (r: int)
    ensures r == -1 || OccursAt(s, sub, r)
    ensures forall i :: 0 <= i && (r == -1 || i < r) ==> !OccursAt(s, sub, i)
  {
    FindFrom(s, sub, 0)
  }

  /** `s.startswith(p)`. */
  predicate StartsWith(s: string, p: string) {
    |p| <= |s| && s[..|p|] == p
  }
}

=== FILE: utils.dfy ===
/** `join_strings`: an English listing of names, used by the room description. */
module Utils {
  import opened Text

  /** The conjunction `join_strings` uses when none is given. */
  const DefaultConj: string := "and"

  /** `join_strings(items, conj)`. An empty list raises in the source (`items[-1]`), so the
      caller must pass at least one item. */
  function JoinStrings(items: seq<string>, conj: string := DefaultConj): (r: string)
    requires |items| > 0
    ensures |items| == 1 ==> r == items[0]
    ensures |items| == 2 ==> r == items[0] + " " + conj + " " + items[1]
    ensures |items| >= 2 ==> EndsWith(r, " " + conj + " " + items[|items| - 1])
    ensures StartsWith(r, items[0])
  {
    if |items| == 1 then items[0]
    else if |items| == 2 then items[0] + " " + conj + " " + items[1]
    else
      var head := Join(items[..|items| - 1], ", ");
      JoinStartsWithFirst(items[..|items| - 1], ", ");
      head + ", " + conj + " " + items[|items| - 1]
  }

  predicate EndsWith(s: string, p: string) {
    |p| <= |s| && s[|s| - |p|..] == p
  }

  lemma {:induction false} JoinStartsWithFirst(parts: seq<string>, sep: string)
    requires |parts| > 0
    ensures StartsWith(Join(parts, sep), parts[0])
    decreases |parts|
  {
    if |parts| > 1 {
      assert Join(parts, sep) == parts[0] + sep + Join(parts[1..], sep);
    }
  }

  /** The serial-comma listing written item by item: every item but the last followed by ", ",
      the last preceded by the conjunction. An independent definition of the three-or-more case. */
  function SerialTail(items: seq<string>, conj: string): string
    requires |items| > 0
    decreases |items|
  {
    if |items| == 1 then conj + " " + items[0]
    else items[0] + ", " + SerialTail(items[1..], conj)
  }

  /** For three or more items `join_strings` is the serial-comma listing "a, b, conj c". */
  lemma {:induction false} JoinStringsIsSerial(items: seq<string>, conj: string)
    requires |items| >= 3
    ensures JoinStrings(items, conj) == items[0] + ", " + SerialTail(items[1..], conj)
  {
    SerialJoin(items, conj);
  }

  lemma {:induction false} SerialJoin(items: seq<string>, conj: string)
    requires |items| >= 2
    ensures Join(items[..|items| - 1], ", ") + ", " + conj + " " + items[|items| - 1]
            == items[0] + ", " + SerialTail(items[1..], conj)
    decreases |items|
  {
    var n := |items|;
    if n == 2 {
      assert items[..1] == [items[0]];
      assert items[1..] == [items[1]];
    } else {
      var rest := items[1..];
      SerialJoin(rest, conj);
      assert rest[..|rest| - 1] == items[1..n - 1];
      assert rest[|rest| - 1] == items[n - 1];
      assert items[..n - 1] == [items[0]] + items[1..n - 1];
      JoinCons(items[0], items[1..n - 1], ", ");
      assert rest[1..] == items[2..];
    }
  }
}

=== FILE: wrappers.dfy ===
/** Optional values and Python-style raised errors shared by every module of the model. */
module Wrappers {

  /** Python's None (as `None`) or a present value. */
  datatype Option<+T> = None | Some(value: T) {

    function GetOr(default: T): T {
      match this
      case Some(v) => v
      case None => default
    }
  }

  /** The Python exception classes the modelled code can raise. */
  datatype Fault =
    | AttributeError   // attribute looked up on None, a str, or an object lacking it
    | KeyError         // missing dict key (`del`, `d[k]`)
    | TypeError        // calling a non-callable, or a call with the wrong arguments
    | ValueError       // `add` of a value without an `id`
    | RecursionError   // `room` / `player` walking a cyclic location chain

  /** A computation that either returns a value or raises. Failure-compatible, so `:-` propagates
      a raise the way Python propagates an exception out of the calling frame. */
  datatype Res<+T> = Ok(value: T) | Raised(fault: Fault) {

    predicate IsFailure() {
      Raised?
    }

    function PropagateFailure<U>(): Res<U>
      requires Raised?
    {
      Raised(fault)
    }

    function Extract(): T
      requires Ok?
    {
      value
    }
  }
}
